=== FILE: README.md ===
# soccer-scraper, modelled in Dafny

soccer-scraper collects football league tables and match schedules from
Transfermarkt and reconciles them into analysis tables. This project models
its pure core and proves properties of it:

- **Retry loop** (`fetch_soup`). One politeness pause comes first. Up to five
  GET attempts follow. A 429, a 503 or a transport error is retried after an
  exponential backoff. Any other HTTP error raises at once.
- **Table extraction** (`fetch_league_standings`, `fetch_team_games`). The
  input is an already-fetched page, given as an abstract tree of headings,
  tables, rows, cells and anchors. The model covers:
  - header skipping and row-width filtering;
  - the anchor-title / anchor-text / cell-text fallbacks;
  - the two-step search for the schedule table;
  - attendance parsing.
- **File-name and URL codec**. On the writing side:
  - `sanitize_filename`;
  - the season id offset of some leagues;
  - the standings URL, the schedule URL and the output file names.
  
  On the reading side, the pre-processor's `extract_metadata_from_filename`
  and `validate_url_year`. The regular expressions are written as
  explicit scanners. Round-trip lemmas connect the writer to the reader.
- **Scraper orchestration**. `run_scraper_for_season` is modelled as the
  ordered list of fetches and writes it performs. `scraper_pipeline` is
  modelled as the selection of leagues and seasons.
- **Season reconciliation** (`src/pre_processor`):
  - `drop_duplicates` on the game key (date, home team, away team, result);
  - the season summary flags of `process_season_data`;
  - the enrichment, rename and reindex of `create_standings_complete`;
  - the per-file loop of `process_standings_data`;
  - the nested `league -> season -> team -> position` document of
    `generate_standings_json`.

Files and modules:

| file | module | contents |
|---|---|---|
| wrappers.dfy | Wrappers | `Option`, `Result` |
| text.dfy | Text | `str.strip`, `str.replace`, `str(int)`, `int(str)` |
| network.dfy | Network | `fetch_soup` |
| sanitize.dfy | Sanitize | `sanitize_filename` |
| document.dfy | Document | the abstract HTML page |
| parsers.dfy | Parsers | `fetch_league_standings`, `fetch_team_games` |
| metadata.dfy | Metadata | file-name and URL parsing of the pre-processor |
| scraper_main.dfy | ScraperMain | `run_scraper_for_season`, `scraper_pipeline` |
| frames.dfy | Frames | CSV files, frames, cells, `Path.stem` |
| dedup.dfy | Dedup | `drop_duplicates(keep="first")` |
| processors.dfy | Processors | `src/pre_processor/processors.py` |
| standings_json.dfy | StandingsJson | `src/pre_processor/main.py` |

Abstractions:

- **Server.** It is a function from attempt index to outcome: a status code,
  or a transport error. The random politeness delay is a parameter.
- **Fetching a page** is a function from URL to an optional document.
- **SHA-256** (`generate_id`) is a function parameter `hash`.
- **CSV file.** A file is a name plus the result of `pd.read_csv`: a frame of
  rows (`map<string, Value>`), or the read error.
- **Cells.** A cell is missing (NaN), an integer, a string or a boolean.

Behaviour of the code that one might not expect, which the model follows:

- **Politeness pause.** The code draws and sleeps it once, before the retry
  loop, not before every attempt.
- **Attendance.** The code does not impute missing attendance. It fills it
  with 0, and only to count the null games.
- **JSON filter.** The JSON keeps the rows whose URL check passed. No other
  validity flag is applied.
- **Escaping exceptions.** In `process_standings_data` a file whose frame
  lacks a `team` or `team_url` column raises a `KeyError` that escapes the
  loop and ends the run. Any read error other than a missing, empty or
  malformed file does the same.
- **File-name error.** A mismatching file name raises `ValueError`.
- **Cell types.** Standings fields are extracted as stripped text, not as
  integers.

Behaviour the model follows where the code is easy to misread:

- **Team cells that are not text.** `sanitize_filename` applies `str` before
  anything else. A team cell that is not text is therefore sanitised as it
  prints, e.g. an empty cell (NaN) becomes `nan`.
- **Games file names.** `process_season_data` accepts a standings file whose
  name matches either pattern of src/pre_processor/utils.py.
- **Missing `position` column.** `create_standings_complete` skips a file
  without a `position` column, because `pd.to_numeric` raises and the
  exception is caught. `generate_standings_json` raises a `KeyError` when
  the unified frame has no `position` column at all.

## Model

| member | source | states |
|---|---|---|
| Network.FetchSoup | src/scraper/network.py:47-51 | for a delay drawn from 3..12 seconds, the first event is the one politeness pause, and no later event is a pause |
| Network.AttemptsShape | src/scraper/network.py:51-82 | let k be the first attempt that is not a transient failure. Every earlier attempt leaves a request and then a backoff. Attempt k leaves a single request. Its status decides between returning the page and raising at once. If every attempt is transient, the loop is exhausted and chains the last outcome |
| Network.FetchSoupShape | src/scraper/network.py:47-82 | the whole trace is the pause, then the retry trail, then the decisive request. The waits are 2^0 … 2^(k-1) and the attempts are numbered 0, 1, 2, … |
| Network.RetryTrailProjections | src/scraper/network.py:59-60 | in a run of transient failures, the i-th wait is BACKOFF_FACTOR to the power of that attempt's index |
| Network.FirstSuccessReturns | src/scraper/network.py:53-55 | the first successful response is returned. Its request is the last event, and only the failures before it were waited on |
| Network.FatalErrorRaisesAtOnce | src/scraper/network.py:56-69 | an HTTP error other than 429/503 raises with its status. Its request is the last event, with no backoff after it |
| Network.FetchBounds | src/scraper/network.py:51-77 | whatever the server does: at most 5 requests, numbered from 0; the i-th wait is 2^i; waits happen only after retriable failures; there is one wait per request, except possibly after the last request |
| Network.AllTransientExhausts | src/scraper/network.py:51-82 | five transient failures raise with the fifth as cause. The waits are [1, 2, 4, 8, 16], and the 16-second wait comes after the final attempt |
| Network.TwoUnavailableThenOk | src/scraper/network.py:51-66 | two 503 responses and then a 200 succeed on attempt 2, after waits [1, 2] |
| Network.NotFoundFailsImmediately | src/scraper/network.py:47-69 | a 404 fails after the pause and one request |
| Sanitize.AsciiFold | src/scraper/utils.py:22 | NFKD normalisation followed by the ASCII encoding leaves only ASCII characters |
| Sanitize.SanitizeFilename | src/scraper/utils.py:5-27 | the result contains only `[a-z0-9_]`, so it has no whitespace and no hyphen |
| Sanitize.SanitizeIsSafeOnly | src/scraper/utils.py:21-27 | the four steps equal the reference meaning: fold, lower-case, then delete every character outside `[a-z0-9_]`. Kept characters keep their order and nothing is inserted |
| Sanitize.FilterSafe | src/scraper/utils.py:24 | on lower-case ASCII text, `\w` keeps exactly `[a-z0-9_]` |
| Sanitize.SanitizeAppend | src/scraper/utils.py:22-25 | sanitising works character by character, so it distributes over concatenation |
| Sanitize.SanitizeFixesSafe | src/scraper/utils.py:21-27 | a name made only of `[a-z0-9_]` is left unchanged |
| Sanitize.SanitizeIdempotent | src/scraper/utils.py:21-27 | sanitising twice equals sanitising once |
| Sanitize.SanitizeAscii | src/scraper/utils.py:23-25 | for ASCII input, the result is the lower-cased input with the characters outside `[a-z0-9_]` removed |
| Sanitize.SanitizeChar | src/scraper/utils.py:22-25 | one character is folded, lower-cased, and kept if it is safe |
| Sanitize.ExamplePremierLeague | src/scraper/utils.py:24-25 | "premier-league" becomes "premierleague" |
| Sanitize.ExampleBundesliga | src/scraper/utils.py:24-25 | "2. Bundesliga" becomes "2bundesliga" |
| Sanitize.ExampleUmlaut | src/scraper/utils.py:22 | "ü" is folded to "u", not dropped |
| Text.Strip | src/scraper/parsers.py:140-141 | `str.strip`: the result is empty exactly when the input is all whitespace; otherwise neither end of the result is whitespace |
| Text.StripIsSlice | src/scraper/parsers.py:140-141 | the stripped text is a contiguous slice of the input, with only whitespace outside it |
| Text.StripIdempotent | src/scraper/parsers.py:58-62 | stripping a stripped text, as the team name is stripped twice, changes nothing |
| Text.ParseInt | src/scraper/parsers.py:176 | `int(s)`: a parsed text is, after stripping, a digit or sign followed by digits, and a negative result was written with `-` |
| Text.IntToString | src/pre_processor/main.py:170 | `str(i)` is non-empty and starts with `-` exactly for a negative number |
| Text.ParseIntAccepts | src/scraper/parsers.py:176 | `int` succeeds exactly on a non-empty run of ASCII digits with an optional sign, after stripping |
| Text.ParseIntDigits | src/scraper/parsers.py:176 | a run of digits parses as its decimal value |
| Text.ParseIntRoundTrip | src/scraper/parsers.py:176 | `int(str(i)) == i` for every integer |
| Text.NatToString | src/pre_processor/main.py:170 | `str(n)` has no leading zero and reads back as `n` |
| Text.ReplaceAll | src/scraper/main.py:88 | `s.replace(pat, rep)`: the result holds only characters of `s` and `rep`, and has the length of `s` when `rep` is as long as `pat` |
| Text.ReplaceAllAbsent | src/scraper/main.py:88 | `replace` leaves a text without the pattern unchanged |
| Text.ReplaceAllFirst | src/scraper/main.py:88 | `replace` keeps the text before the first occurrence, substitutes that occurrence, and continues after it |
| Frames.Stem | src/pre_processor/utils.py:37 | `Path.stem` is a prefix of the name. It is either the whole name or ends just before a dot that is neither first nor last. When it is cut, the cut is at the last dot. When it is the whole name, no dot that is neither first nor last is the last dot |
| Frames.StemOfSuffixed | src/pre_processor/utils.py:37 | the stem of `stem.ext`, both without dots, is `stem` |
| Document.FirstAnchor | src/scraper/parsers.py:135 | `find("a")` gives the first anchor of the cell, and nothing exactly when there is none |
| Document.FirstHrefAnchor | src/scraper/parsers.py:57 | `find("a", href=True)` gives the first anchor that has an href, and nothing exactly when no anchor has one |
| Document.FirstHrefAnchorIs | src/scraper/parsers.py:57 | the anchor found is the unique first anchor with an href |
| Parsers.SchemeEnd | src/scraper/parsers.py:64 | `urlsplit` finds a scheme exactly when a letter and then scheme characters only come before a colon, and the scheme ends at the first colon |
| Parsers.ResolvePath | src/scraper/parsers.py:64 | a reference without scheme or host always lands under the base. An absolute path, a query or a fragment is appended as it is. A relative path goes under `/` with no two slashes in a row and the same non-slash characters, and its query and fragment follow unchanged |
| Parsers.PathLength | src/scraper/parsers.py:64 | the path of a reference ends at its first `?` or `#`, or at its end |
| Parsers.SquashSlashes | src/scraper/parsers.py:64 | dropping the empty segments but the last leaves no two slashes in a row, keeps every other character and keeps the first character |
| Parsers.SquashSlashesFixes | src/scraper/parsers.py:64 | a path with no empty segment is left as it is |
| Parsers.SquashSlashesIdempotent | src/scraper/parsers.py:64 | dropping empty segments twice is dropping them once |
| Parsers.ResolveRelativePath | src/scraper/parsers.py:64 | a relative path with no empty segment resolves to the base, `/` and the href |
| Parsers.ResolveEmptySegment | src/scraper/parsers.py:64 | `a//b` resolves to the base followed by `/a/b` |
| Parsers.ResolveSameScheme | src/scraper/parsers.py:64 | a reference with the base's scheme, or none, always resolves to an `https:` URL |
| Parsers.Resolve | src/scraper/parsers.py:64 | `urljoin(BASE_URL, href)`: an empty href gives the base. An href whose scheme is not `https` in any case is returned as it is. Every other href gives an `https:` URL, and one without scheme or host lands under the base. A relative path loses its empty segments (see ResolvePath) |
| Parsers.SchemeEndAt | src/scraper/parsers.py:64 | the scheme of an href ends at its first colon when a letter and scheme characters precede it |
| Parsers.ForeignBySchemeLength | src/scraper/parsers.py:64 | an href whose scheme is not five characters long is not `https` and is returned unchanged |
| Parsers.ResolveKeepsMailto | src/scraper/parsers.py:64 | `mailto:x` is returned unchanged |
| Parsers.ResolveKeepsJavascript | src/scraper/parsers.py:64 | `javascript:void(0)` is returned unchanged |
| Parsers.ResolveKeepsHttp | src/scraper/parsers.py:64 | `http://h/p` is returned unchanged |
| Parsers.ResolveUpperHttps | src/scraper/parsers.py:64 | `HTTPS://h/p` resolves to `https://h/p` |
| Parsers.ResolveHttpsHost | src/scraper/parsers.py:64 | `https://h/p` is kept, and `//h/p` takes the base's scheme |
| Parsers.ResolveSitePath | src/scraper/parsers.py:64 | a site path resolves to the base followed by that path, and dropping the base recovers the path |
| Parsers.ResolveSitePathInjective | src/scraper/parsers.py:64 | two site paths that resolve to the same URL are equal |
| Parsers.Wide | src/scraper/parsers.py:49-55 | the rows kept are rows of the input that have at least n cells |
| Parsers.WideAppend | src/scraper/parsers.py:49-55 | the row filter distributes over concatenation, so it keeps rows in their input order |
| Parsers.WideOne | src/scraper/parsers.py:51-55 | a single row is kept exactly when it has at least n cells |
| Parsers.WideAll | src/scraper/parsers.py:132-134 | every row is kept exactly when every row is wide enough |
| Parsers.TeamOf | src/scraper/parsers.py:57-65 | with no href-anchor, the name is the stripped cell text and there is no URL. Otherwise the URL resolves the first href-anchor's href, and the name is its stripped title, falling back to the stripped cell text |
| Parsers.StandingOf | src/scraper/parsers.py:57-80 | `team_url` is absent exactly when the team cell has no href-anchor. The position and points are the stripped texts of cells 0 and 9 |
| Parsers.StandingsOfWideRows | src/scraper/parsers.py:49-81 | the k-th standings record is built from the k-th row with at least 10 cells. There is exactly one record per such row |
| Parsers.ItemsTable | src/scraper/parsers.py:41-43 | the rows are those of a `table.items` with no other `table.items` before it in document order. There are none exactly when no such table exists |
| Parsers.FetchLeagueStandings | src/scraper/parsers.py:41-81 | the loop fails with the not-found error exactly when no `table.items` exists. Otherwise it returns the records of the rows after the header |
| Parsers.StandingRows | src/scraper/parsers.py:45-81 | the row loop with its early return for a header-only table gives the records of the rows after the header |
| Parsers.HeaderOnlyIsEmpty | src/scraper/parsers.py:45-47 | a table with fewer than two rows yields no records, not an error |
| Parsers.AnchorOrText | src/scraper/parsers.py:135-138 | the stripped text of the first anchor, else the stripped cell text |
| Parsers.HomeTeam | src/scraper/parsers.py:143-148 | the home team is the first anchor's stripped title, then its text, then the cell text |
| Parsers.Attendance | src/scraper/parsers.py:175-178 | an empty text gives 0, and a text whose dot-free form `int` rejects gives 0. Otherwise the result is the integer of the dot-free form |
| Parsers.RemoveDotsIsWithout | src/scraper/parsers.py:176 | `replace(".", "")` deletes every dot and nothing else |
| Parsers.AttendanceIgnoresDots | src/scraper/parsers.py:176 | deleting the dots beforehand does not change the attendance read |
| Parsers.ThousandsDigits | src/scraper/parsers.py:176 | a number written with dot thousands separators is its plain digits once the dots are removed |
| Parsers.AttendanceRoundTrip | src/scraper/parsers.py:162-178 | an attendance shown as "45.123" reads back as 45123 |
| Parsers.MatchOf | src/scraper/parsers.py:162-178 | `match_link` is empty exactly when the result cell has no anchor, and is otherwise the resolved href of its first anchor. The audience is the attendance of the stripped cell 9 |
| Parsers.MatchOfStripped | src/scraper/parsers.py:135-167 | round, away team, coach and result carry no surrounding whitespace |
| Parsers.MatchesOfWideRows | src/scraper/parsers.py:131-193 | the k-th match record is built from the k-th row with at least 11 cells. Other rows are dropped |
| Parsers.ScheduleTable | src/scraper/parsers.py:115-129 | the section error is raised exactly when there is neither a div with the league code as its id nor an h2 naming the league. A table found is a table of the page |
| Parsers.ScheduleTableNotFoundIff | src/scraper/parsers.py:115-129 | "Schedule table not found." is raised exactly when the first div with the league code holds no table, or, with no such div, no table follows the first h2 naming the league |
| Parsers.DivFirstTable | src/scraper/parsers.py:115-126 | with the div, the first table inside the first div with the league code is taken |
| Parsers.DivWins | src/scraper/parsers.py:115-126 | when the league's div exists, the league name plays no part |
| Parsers.HeadingFallback | src/scraper/parsers.py:117-122 | without the div, the first h2 naming the league is followed to the first table after it |
| Parsers.FetchTeamGames | src/scraper/parsers.py:115-195 | the location errors are exactly those of the table search. Otherwise the result is the records of the rows after the header |
| Parsers.MatchRows | src/scraper/parsers.py:131-193 | the row loop builds exactly one record per row with at least 11 cells, in order |
| Metadata.LeaguePrefix | src/pre_processor/utils.py:40 | the scanner finds the league group exactly when `[a-z0-9]+_\d{4}_` matches at the start |
| Metadata.PrefixUnique | src/pre_processor/utils.py:40 | the league group of a match is unique |
| Metadata.ExtractMetadata | src/pre_processor/utils.py:27-58 | `ValueError` is raised exactly when neither pattern matches at the start of the stem |
| Metadata.ExtractStandings | src/pre_processor/utils.py:40-46 | a standings match gives the league and the integer year, even when the games pattern also matches |
| Metadata.ExtractGames | src/pre_processor/utils.py:49-56 | a games match that is not a standings match gives the league, the year, and the maximal `[a-z0-9]` run after the second underscore as the team |
| Metadata.RunFromIsRun | src/pre_processor/utils.py:49 | the scanner for `[a-z0-9]+` measures exactly the maximal run |
| Metadata.StandingsIgnoresTrailer | src/pre_processor/utils.py:40 | `re.match` ignores whatever follows a standings match |
| Metadata.ExtractStandingsMetadata | src/pre_processor/main.py:19-34 | the narrow parser only ever returns standings metadata |
| Metadata.StandingsParsersAgree | src/pre_processor/main.py:29-34 | the narrow parser succeeds exactly on the standings names of the wide parser, with the same result |
| Metadata.SearchUrlYear | src/pre_processor/utils.py:75 | `re.search` finds the first index where `saison_id/` and four digits occur, and finds none exactly when there is no such index |
| Metadata.ValidateUrlYear | src/pre_processor/utils.py:61-80 | false for a URL that is not text. Otherwise true exactly when a year marker exists and the first one is not after the season |
| Metadata.ValidateFirstMarker | src/pre_processor/main.py:48-56 | a URL whose first marker is `saison_id/d` is valid exactly for the seasons from d on |
| Metadata.ValidateExample | src/pre_processor/utils.py:75-80 | `saison_id/2021` is valid for 2022 and invalid for 2020 |
| ScraperMain.SeasonUrlYear | src/scraper/main.py:59-62 | the season id is the season minus one exactly for BRA1, BRA2, JAP1, JAP2 and CLPD, and the season otherwise |
| ScraperMain.StandingsUrl | src/scraper/main.py:64 | the standings URL starts with the site and the league slug |
| ScraperMain.StandingsUrlYearReadBack | src/scraper/main.py:59-64 | the URL check reads the season id back out of the standings URL: the URL is valid exactly for the seasons from that id on |
| ScraperMain.StandingsFileName | src/scraper/main.py:73-76 | the standings file name starts with the sanitised slug and an underscore |
| ScraperMain.TeamFileName | src/scraper/main.py:95-100 | a games file name starts with the sanitised slug and an underscore |
| ScraperMain.ScheduleUrl | src/scraper/main.py:88 | the schedule URL ends with `/plus/1#` and the league code |
| ScraperMain.ScheduleUrlOfTeamPage | src/scraper/main.py:88 | a team page with one `/startseite/` maps to the same URL with `/spielplan/` in its place, plus the suffix |
| ScraperMain.ScheduleUrlWithoutTeamPage | src/scraper/main.py:88 | a URL without `/startseite/` is kept and only gets the suffix |
| ScraperMain.RunSeason | src/scraper/main.py:64-109 | nothing is done exactly when the standings fetch or parse fails, and the season then counts as aborted. Otherwise the first action writes the standings file with the parsed records |
| ScraperMain.TeamStep | src/scraper/main.py:88-104 | a team's actions start with fetching its schedule. The season is aborted exactly when that fetch fails, the schedule table is not found, or a later team aborts |
| ScraperMain.TeamRuns | src/scraper/main.py:80-109 | the team loop does nothing exactly when no team has a URL, and is then not aborted |
| ScraperMain.TeamStepFetches | src/scraper/main.py:88-104 | a team's step fetches its schedule first. It goes on with the other teams exactly when that fetch and parse succeed |
| ScraperMain.TeamStepPrefix | src/scraper/main.py:80-93 | a team's step puts its schedule URL in front of the fetches of the teams after it |
| ScraperMain.TeamRunsFetches | src/scraper/main.py:80-109 | teams without a URL are skipped. With no failure, the schedules fetched are exactly those of the teams with a URL, in table order. A failure leaves a non-empty prefix of them |
| ScraperMain.FetchThenWrite | src/scraper/main.py:93-104 | one team's actions start with its fetch, and its games file, if any, directly follows that fetch |
| ScraperMain.TeamStepWrites | src/scraper/main.py:93-104 | one team's step starts with its fetch and keeps every write right after the matching fetch |
| ScraperMain.WritesFollowFetches | src/scraper/main.py:93-104 | a games file is written only for a non-empty schedule, directly after that team's fetch, and under that team's file name |
| ScraperMain.StandingsFileRoundTrip | src/scraper/main.py:73-76 | both pre-processor parsers read the standings file name back as the sanitised slug and the season. This needs the sanitised slug to be a non-empty `[a-z0-9]+` and the season to have four digits |
| ScraperMain.StandingsNameRead | src/pre_processor/utils.py:40-46 | `a_dddd_standings.csv` reads back as league a and year dddd |
| ScraperMain.TeamFileRoundTrip | src/scraper/main.py:95-100 | a games file name reads back as the sanitised slug, the season and the sanitised team. This needs a sanitised team name that is a non-empty `[a-z0-9]+` and does not start with "standings" |
| ScraperMain.TeamNameRead | src/pre_processor/utils.py:49-56 | `a_dddd_t` reads back as league a, year dddd and team t |
| ScraperMain.EmptyTeamNameUnreadable | src/scraper/main.py:96-100 | a team whose sanitised name is empty gets a file name that the pre-processor rejects |
| ScraperMain.SeasonYears | src/scraper/main.py:127-134 | the seasons run from the start year, raised to at least 1990, through 2024 |
| ScraperMain.Pipeline | src/scraper/main.py:112-165 | every league stays in the run, in order, whether or not an unreadable start year stops it |
| ScraperMain.PipelineFailsIff | src/scraper/main.py:120-127 | the run stops with the `ValueError` of `int(start_year)` exactly when some league still marked "false" has a start year `int` cannot read |
| ScraperMain.PipelineFailure | src/scraper/main.py:120-154 | when league i is the first such league, the run names it. The seasons run are those of the leagues before it, which are marked "true" if they were "false". League i and every later league are left as they were |
| ScraperMain.PipelineEffect | src/scraper/main.py:120-154 | without a failure, the seasons run are exactly those of the leagues marked "false", league after league. Only those leagues change, and only their flag, to "true" |
| ScraperMain.SeasonsInRange | src/scraper/main.py:117-134 | every season run lies in 1990..2024 |
| ScraperMain.PipelineIdempotent | src/scraper/main.py:122-163 | a second run after a complete one scrapes nothing and changes nothing |
| ScraperMain.NothingLeft | src/scraper/main.py:162-163 | when every league is already processed, nothing is scraped |
| Dedup.FirstIndices | src/pre_processor/processors.py:42-44 | the kept indices ascend, each is the first occurrence of its key, and every first occurrence is kept |
| Dedup.FirstOfEachKey | src/pre_processor/processors.py:42-44 | the kept rows are the rows at those indices, in input order |
| Dedup.KeptKeysDistinct | src/pre_processor/processors.py:42-44 | no two kept rows share a key |
| Dedup.KeysKept | src/pre_processor/processors.py:42-44 | every key of the input has a kept row |
| Dedup.DistinctKeptWhole | src/pre_processor/processors.py:42-44 | rows whose keys are already distinct are kept whole |
| Dedup.Idempotent | src/pre_processor/processors.py:42-44 | dropping duplicates twice equals dropping them once |
| Dedup.KeptCountIsKeyCount | src/pre_processor/processors.py:42-44 | as many rows are kept as there are distinct keys |
| Dedup.DropDuplicates | src/pre_processor/processors.py:42-44 | pandas' one pass with a set of seen keys computes exactly the first row of each key |
| Processors.GameFrames | src/pre_processor/processors.py:26-35 | the frames kept are exactly the readable, non-empty game files. Every read error skips its file |
| Processors.AllRows | src/pre_processor/processors.py:40 | the concatenation holds exactly the rows of the frames |
| Processors.AllRowsCount | src/pre_processor/processors.py:229 | the concatenation has as many rows as all frames together |
| Processors.Consolidate | src/pre_processor/processors.py:15-46 | the result is none exactly when no game file is readable and non-empty. It is the `KeyError` of `drop_duplicates` exactly when some frame is loaded but one of `date`, `home_team`, `away_team` and `result` is a column of none of them. Otherwise its columns are the union of the loaded frames' columns, and its games are the first row of each key |
| Processors.ConsolidatedGamesDistinct | src/pre_processor/processors.py:40-44 | the consolidated games have pairwise distinct keys. There is one per key of the loaded rows, and every loaded game is represented |
| Processors.NullGames | src/pre_processor/processors.py:101-102 | the null-attendance games are exactly the positions whose filled audience equals 0: an empty cell, a zero, or `False` |
| Processors.NullAudienceCount | src/pre_processor/processors.py:101-102 | the one-pass count equals the number of null-attendance games, which is at most the number of games |
| Processors.Summarize | src/pre_processor/processors.py:97-125 | the summary's identifiers are the file's. `is_double_rounded` holds iff games = teams × (teams − 1). `is_valid_url` holds iff every row's URL passes the check. `has_all_teams_files` holds iff files = teams. The null count is the number of null-attendance games. The percentage is 100 × nulls / games, or 0 without games, and lies in 0..100. `is_valid_attendance` holds iff there are no games or nulls are under 5% |
| Processors.ProcessSeasonData | src/pre_processor/processors.py:49-137 | a summary is returned exactly when all of these hold: the name parses, the standings are readable and not empty, a `team_url` column exists, the `team_games` directory exists, its games consolidate, and they have an `audience` column. Every other case gives None, never an exception |
| Processors.SeasonSummary | src/pre_processor/processors.py:71-125 | a returned summary counts the standings rows as teams and the distinct game keys as games. Its flags are the comparisons above |
| Processors.SummaryOfSeason | src/pre_processor/processors.py:71-125 | a returned summary is the summary of the standings rows and the distinct games, of which there is at least one |
| Processors.SeasonAttendance | src/pre_processor/processors.py:100-108 | a returned summary's null count is the number of distinct games whose filled audience is 0, and its percentage is 100 × nulls / games |
| Processors.AttendanceExample | src/pre_processor/processors.py:104-109 | of 100 games, 4 null ones give 4.0% and a valid attendance, 6 give 6.0% and an invalid one |
| Processors.AttendanceThreshold | src/pre_processor/processors.py:104-109 | for at least one game, the percentage equals 100 × nulls / games, lies in 0..100, and is below 5 exactly when 20 × nulls < games |
| Processors.RatioBounds | src/pre_processor/processors.py:104-109 | the same facts over the reals |
| Processors.SeasonGameCount | src/pre_processor/processors.py:90-98 | the game count of one dedup pass equals the number of consolidated games, and there is none exactly when consolidation gives no games |
| Processors.ParseDecimal | src/pre_processor/processors.py:214 | a number `pd.to_numeric` reads is written with something other than whitespace, and a non-zero fraction was written with a point |
| Processors.ParseDecimalOfInt | src/pre_processor/processors.py:214 | an integer string reads as the same number with no fraction |
| Processors.ParseDecimalPoint | src/pre_processor/processors.py:214 | `d.f` reads as the integer d, with a fraction exactly when some digit of f is not 0 |
| Processors.NumericPosition | src/pre_processor/processors.py:213-216 | the cast raises exactly for text holding a number with a non-zero fraction. Otherwise an integer or missing cell stays, text that is no number becomes missing, and the result is an integer or missing |
| Processors.NumericPositionOfInt | src/pre_processor/processors.py:213-216 | an integer string becomes that integer |
| Processors.NumericPositionOfDecimal | src/pre_processor/processors.py:213-216 | `d.0…0` becomes the integer d, and `d.f` with a non-zero fraction makes the cast raise |
| Processors.EnrichRow | src/pre_processor/processors.py:201-216 | the added cells are the sanitised `str` of the team, the league, the season, the file name, `hash(file)` and `hash(team_sanitized + "_" + file)`. The position is the coerced one whenever the cast succeeds, and every other cell is kept |
| Processors.EnrichFrame | src/pre_processor/processors.py:201-211 | the enriched frame has one row per input row, each carrying consistent ids, and its columns gain the six added ones |
| Processors.WithColumns | src/pre_processor/processors.py:201-211 | the columns after enrichment are the old ones and the added ones |
| Processors.EnrichFile | src/pre_processor/processors.py:189-223 | a file is accepted exactly when all of these hold: it is readable and not empty, its name matches a pattern, it has `team` and `position` columns, and every position survives the cast to `Int64`. An accepted frame keeps its row count and has consistent ids |
| Processors.FractionalPositionSkipsFile | src/pre_processor/processors.py:213-223 | a file with a position such as `3.5` is skipped whole |
| Processors.AcceptedFrames | src/pre_processor/processors.py:189-223 | every accepted row has consistent ids, and there are no more frames than files |
| Processors.AcceptedFramesOf | src/pre_processor/processors.py:189-229 | no frame is appended exactly when every file is skipped, and a frame is appended exactly when some file enriches to it |
| Processors.StandingsCompleteEmpty | src/pre_processor/processors.py:225-227 | the complete table is the empty frame exactly when every file is skipped |
| Processors.RenameDraw | src/pre_processor/processors.py:250-252 | after the rename, `drawn` holds the row's `draw` cell, `draw` is gone, and nothing else changes |
| Processors.Reindex | src/pre_processor/processors.py:254 | the row has exactly the 16 schema columns, each with the row's cell or missing |
| Processors.CompleteRow | src/pre_processor/processors.py:250-254 | a complete row has exactly the schema columns. `drawn` comes from `draw` when renaming, and every other schema cell is copied |
| Processors.CompleteRowKeepsIds | src/pre_processor/processors.py:250-254 | the rename and the reindex keep the id columns consistent |
| Processors.CreateStandingsComplete | src/pre_processor/processors.py:176-259 | the result is an empty frame exactly when no file is accepted. Otherwise its columns are the 16-entry schema in order, with one row per accepted row, renamed only when `draw` occurs and `drawn` does not |
| Processors.CompleteIdsConsistent | src/pre_processor/processors.py:201-211 | every complete row's `id` hashes its sanitised team and file, and its `source_id` hashes its file |
| Processors.CompleteDrawn | src/pre_processor/processors.py:250-254 | row i's `drawn` is the source row's `draw` when only that spelling occurs, and its `drawn` otherwise. Every other schema column is copied |
| Processors.CompleteRowAt | src/pre_processor/processors.py:229-254 | row i of the complete table comes from row i of the concatenation |
| StandingsJson.EntryOf | src/pre_processor/main.py:97-107 | a row gets the league and season of its file name, a safe sanitised team, and `is_valid_url` exactly when its URL passes the check |
| StandingsJson.EntryTeamName | src/pre_processor/main.py:101 | an empty team cell is sanitised as `nan`, and a team already in safe form is kept |
| StandingsJson.EntriesOf | src/pre_processor/main.py:97-107 | there is one entry per row, in order |
| StandingsJson.FileEntries | src/pre_processor/main.py:87-124 | a name mismatch skips the file. The exception escapes exactly for a denied read, or for a non-empty frame lacking `team` or `team_url`, and it is never the `position` `KeyError`. Rows are appended exactly for a readable, non-empty, enrichable frame |
| StandingsJson.CrashOf | src/pre_processor/main.py:101-107 | the `KeyError` names the first missing column read, `team` before `team_url` |
| StandingsJson.AppendedEntries | src/pre_processor/main.py:97-109 | an appended frame gives one entry per row, with its file's league and season, a safe team and the row's URL check |
| StandingsJson.Step | src/pre_processor/main.py:87-124 | the run goes on exactly when the file does not crash, and an earlier exception passes through. It still has nothing exactly when no file has been appended. Otherwise the earlier entries come first, followed by one entry per row of an appended frame, each with the file's league and season. The `position` flag is set once a frame with that column is appended |
| StandingsJson.ProcessStandingsData | src/pre_processor/main.py:59-131 | the loop completes exactly when no file crashes, and its exception is never the `position` `KeyError`. After it completes there is nothing exactly when no file is appended. The unified frame has a `position` column exactly when some appended frame has one. It holds one entry per row of the appended frames, each carrying the league and season of an appended file's name |
| StandingsJson.PositionMissingIff | src/pre_processor/main.py:125-170 | the `KeyError` of `df["position"]` occurs exactly when the loop completes, a frame is appended, some row passes the URL check and no appended frame has a `position` column |
| StandingsJson.ValidEntries | src/pre_processor/main.py:155 | the filter keeps exactly the rows whose URL check passed |
| StandingsJson.StandingsJsonOf | src/pre_processor/main.py:144-170 | the run raises exactly when the loop crashes, with that exception, or when rows were appended, some passed the URL check and the unified frame has no `position` column, with the `KeyError`. A document is produced only when rows were appended and some passed the URL check |
| StandingsJson.LastPosition | src/pre_processor/main.py:167-169 | the position of the last row of a league, season and team, and none exactly when there is no such row |
| StandingsJson.SeasonKeyInjective | src/pre_processor/main.py:170 | distinct seasons have distinct `str(year)` keys |
| StandingsJson.BuildJson | src/pre_processor/main.py:161-170 | no rows give an empty document, and the last row's league and `str(season)` are always keys of it |
| StandingsJson.InsertLookup | src/pre_processor/main.py:163-170 | inserting a row changes only the cell of its own league, season and team |
| StandingsJson.BuildJsonLastWins | src/pre_processor/main.py:163-170 | each cell of the document holds the position of the last row of its league, season and team |
| StandingsJson.BuildJsonLeagues | src/pre_processor/main.py:163-166 | a league is a key of the document exactly when some row has it |
| StandingsJson.BuildJsonSeasons | src/pre_processor/main.py:163-170 | a season key appears under a league exactly when some row has that league and season |
| StandingsJson.StandingsJsonContents | src/pre_processor/main.py:144-170 | with no crash, there is no document exactly when no frame was appended or no row passed the URL check. Otherwise every cell is the last valid row's position for its league, season and team |

## Left out

- HTTP, `time.sleep` and `random.uniform` are left out. The server's answers and the drawn delay are parameters, and sleeps are recorded as trace events. The 30-second and 2-minute pauses of `scraper_pipeline` are not modelled.
- BeautifulSoup parsing is left out: a page is an abstract tree of headings, tables, rows, cells and anchors.
- `Parsers.Resolve` does not remove `.` and `..` path segments the way `urljoin` does, does not strip the leading whitespace and control characters or remove the tabs and newlines that `urlsplit` discards, and does not apply `urlunparse`'s normalisation of an `https` URL it reassembles (such as dropping an empty `?` or `#`). It does drop the empty segments of a relative path, as `urljoin` does. It is exact for hrefs without `.` or `..` segments, surrounding whitespace or control characters, or an empty `?` or `#`. Site hrefs are absolute site paths, which meet these conditions.
- `Sanitize.AsciiFold` decomposes Latin-1 characters (U+0000 to U+00FF) exactly. It drops every character above U+00FF, where NFKD would keep an ASCII base letter for some of them.
- Metadata.ExtractMetadata, Metadata.ExtractStandings, Metadata.ExtractGames, Metadata.ExtractStandingsMetadata, Metadata.SearchUrlYear and Metadata.ValidateUrlYear read the regular expressions' `\d` as the ASCII digits `0`-`9`. Python's `re` matches any Unicode decimal digit with `\d`, so a name or URL whose year is written in other decimal digits is rejected here but read by the source (lines 40, 49 and 75 of src/pre_processor/utils.py, lines 30 and 51 of src/pre_processor/main.py).
- `Text.ParseInt` accepts ASCII digits only. It rejects `_` separators and non-ASCII digits, which Python's `int` accepts.
- `Processors.Summarize`: the percentage is the exact ratio and is not passed through `round(…, 2)`. The 5% test is stated in integers (20 × nulls < games), which is the float comparison's intended meaning.
- `Processors.NumericPosition` reads decimal notation only. Exponents (`1e3`), `inf`, `nan` and other spellings `pd.to_numeric` accepts become missing, where pandas would read them as numbers (and `inf` would make the cast raise).
- Cells: whole-number floats read back as integers, so `str` of such a cell prints without a decimal point, unlike pandas.
- `generate_id` (SHA-256) is a function parameter. Only its determinism is used.
- Writing the CSV and JSON files, `os.makedirs`, and the directory walks of `process_standings_data` and `create_standings_summary` are left out. The files found are an input sequence.
- The orchestration loop of `create_standings_summary` is not modelled. Its per-file step, `process_season_data`, is.
- The key order of the written JSON document is left out, including the sorting done by `groupby`. The model gives the document as nested maps.
- `pd.read_csv` decoding and type inference are left out; a file's frame is given.
- The CLI entry point (main.py), logging, and the path constants of src/pre_processor/config.py are left out.
- src/scraper/main.py imports `fetch_team_schedules`, but src/scraper/parsers.py defines `fetch_team_games`. Both names are taken as the same function.
- League data in src/scraper/config.py is an input to the pipeline. Only its constants MAX_RETRIES, BACKOFF_FACTOR and BASE_URL are used.

=== FILE: dedup.dfy ===
/** `drop_duplicates(subset=...)` with pandas' default `keep="first"`: of the
    rows sharing a key, only the first is kept, and the kept rows stay in
    their original order. The reference meaning is a filter by index; the
    method computes it the way pandas does, in one pass with a set of keys
    already seen. */
module Dedup {

  /** `s[i]` is the first element of `s` with its key. */
  predicate IsFirstOfKey<T, K(==)>(s: seq<T>, key: T -> K, i: int)
    requires 0 <= i < |s|
  {
    forall j :: 0 <= j < i ==> key(s[j]) != key(s[i])
  }

  /** The indices of the first elements of each key, ascending. */
  function FirstIndices<T, K(==)>(s: seq<T>, key: T -> K): (idx: seq<nat>)
    ensures forall k :: 0 <= k < |idx| ==> idx[k] < |s| && IsFirstOfKey(s, key, idx[k])
    ensures forall k1, k2 :: 0 <= k1 < k2 < |idx| ==> idx[k1] < idx[k2]
    ensures forall i :: 0 <= i < |s| && IsFirstOfKey(s, key, i) ==> i in idx
  {
    if s == [] then []
    else
      var init := s[..|s| - 1];
      var prev := FirstIndices(init, key);
      assert forall i :: 0 <= i < |init| ==> (IsFirstOfKey(init, key, i) <==> IsFirstOfKey(s, key, i));
      if IsFirstOfKey(s, key, |s| - 1) then prev + [|s| - 1] else prev
  }

  /** The elements at those indices. */
  function FirstOfEachKey<T, K(==)>(s: seq<T>, key: T -> K): (r: seq<T>)
    ensures |r| == |FirstIndices(s, key)|
    ensures forall k :: 0 <= k < |r| ==> r[k] == s[FirstIndices(s, key)[k]]
  {
    var idx := FirstIndices(s, key);
    seq(|idx|, (k: int) requires 0 <= k < |idx| => s[idx[k]])
  }

  /** No two kept elements share a key. */
  lemma KeptKeysDistinct<T, K>(s: seq<T>, key: T -> K)
    ensures var r := FirstOfEachKey(s, key);
            forall k1, k2 :: 0 <= k1 < k2 < |r| ==> key(r[k1]) != key(r[k2])
  {
    var r := FirstOfEachKey(s, key);
    var idx := FirstIndices(s, key);
    forall k1, k2 | 0 <= k1 < k2 < |r|
      ensures key(r[k1]) != key(r[k2])
    {
      assert idx[k1] < idx[k2];
      assert IsFirstOfKey(s, key, idx[k2]);
    }
  }

  /** Every key of the input has its first element in the output. */
  lemma {:induction false} FirstOccurrenceKept<T, K>(s: seq<T>, key: T -> K, i: nat)
    requires i < |s|
    ensures exists j :: 0 <= j <= i && IsFirstOfKey(s, key, j) && key(s[j]) == key(s[i])
    decreases i
  {
    if !IsFirstOfKey(s, key, i) {
      var j :| 0 <= j < i && key(s[j]) == key(s[i]);
      FirstOccurrenceKept(s, key, j);
    } else {
      assert IsFirstOfKey(s, key, i) && key(s[i]) == key(s[i]);
    }
  }

  /** The output has exactly the keys of the input. */
  lemma KeysKept<T, K>(s: seq<T>, key: T -> K)
    ensures var r := FirstOfEachKey(s, key);
            forall i :: 0 <= i < |s| ==> exists k :: 0 <= k < |r| && key(r[k]) == key(s[i])
  {
    var r := FirstOfEachKey(s, key);
    var idx := FirstIndices(s, key);
    forall i | 0 <= i < |s|
      ensures exists k :: 0 <= k < |r| && key(r[k]) == key(s[i])
    {
      FirstOccurrenceKept(s, key, i);
      var j :| 0 <= j <= i && IsFirstOfKey(s, key, j) && key(s[j]) == key(s[i]);
      assert j in idx;
      var k :| 0 <= k < |idx| && idx[k] == j;
      assert r[k] == s[j];
    }
  }

  /** A sequence whose keys are already distinct is kept whole. */
  lemma {:induction false} DistinctKeptWhole<T, K>(s: seq<T>, key: T -> K)
    requires forall i, j :: 0 <= i < j < |s| ==> key(s[i]) != key(s[j])
    ensures FirstOfEachKey(s, key) == s
  {
    DistinctIndices(s, key);
  }

  lemma {:induction false} DistinctIndices<T, K>(s: seq<T>, key: T -> K)
    requires forall i, j :: 0 <= i < j < |s| ==> key(s[i]) != key(s[j])
    ensures |FirstIndices(s, key)| == |s|
    ensures forall k :: 0 <= k < |s| ==> FirstIndices(s, key)[k] == k
  {
    if s != [] {
      var init := s[..|s| - 1];
      DistinctIndices(init, key);
      assert IsFirstOfKey(s, key, |s| - 1);
      assert forall i :: 0 <= i < |init| ==> (IsFirstOfKey(init, key, i) <==> IsFirstOfKey(s, key, i));
    }
  }

  /** Dropping duplicates twice is dropping them once. */
  lemma Idempotent<T, K>(s: seq<T>, key: T -> K)
    ensures FirstOfEachKey(FirstOfEachKey(s, key), key) == FirstOfEachKey(s, key)
  {
    KeptKeysDistinct(s, key);
    DistinctKeptWhole(FirstOfEachKey(s, key), key);
  }

  /** One step of the pass: the kept elements of a prefix one longer. */
  lemma FirstOfEachKeyStep<T, K>(s: seq<T>, key: T -> K, i: nat)
    requires i < |s|
    ensures FirstOfEachKey(s[..i + 1], key)
            == FirstOfEachKey(s[..i], key) + (if IsFirstOfKey(s, key, i) then [s[i]] else [])
  {
    var p := s[..i + 1];
    assert p[..|p| - 1] == s[..i];
    assert IsFirstOfKey(p, key, i) <==> IsFirstOfKey(s, key, i);
    var idx := FirstIndices(s[..i], key);
    assert forall k :: 0 <= k < |idx| ==> s[..i][idx[k]] == p[idx[k]];
  }

  /** The keys that occur in `s`. */
  function KeySet<T, K(==)>(s: seq<T>, key: T -> K): (ks: set<K>)
    ensures forall i :: 0 <= i < |s| ==> key(s[i]) in ks
    ensures forall k :: k in ks ==> exists i :: 0 <= i < |s| && key(s[i]) == k
  {
    set i | 0 <= i < |s| :: key(s[i])
  }

  /** The keys of a sequence are those of its prefix and its last element. */
  lemma KeySetSnoc<T, K>(s: seq<T>, key: T -> K)
    requires s != []
    ensures KeySet(s, key) == KeySet(s[..|s| - 1], key) + {key(s[|s| - 1])}
  {
    var init := s[..|s| - 1];
    forall k | k in KeySet(s, key) ensures k in KeySet(init, key) + {key(s[|s| - 1])} {
      var i :| 0 <= i < |s| && key(s[i]) == k;
      if i < |init| { assert init[i] == s[i]; }
    }
  }

  /** The last element is kept exactly when its key is new. */
  lemma LastKeptIffNew<T, K>(s: seq<T>, key: T -> K)
    requires s != []
    ensures IsFirstOfKey(s, key, |s| - 1) <==> key(s[|s| - 1]) !in KeySet(s[..|s| - 1], key)
  {
    var n := |s| - 1;
    var init := s[..n];
    if IsFirstOfKey(s, key, n) {
      forall i | 0 <= i < |init|
        ensures key(init[i]) != key(s[n])
      {
        assert init[i] == s[i];
      }
    } else {
      var j :| 0 <= j < n && key(s[j]) == key(s[n]);
      assert init[j] == s[j];
    }
  }

  /** As many elements are kept as there are distinct keys. */
  lemma {:induction false} KeptCountIsKeyCount<T, K>(s: seq<T>, key: T -> K)
    ensures |FirstOfEachKey(s, key)| == |KeySet(s, key)|
  {
    if s != [] {
      var n := |s| - 1;
      KeptCountIsKeyCount(s[..n], key);
      FirstOfEachKeyStep(s, key, n);
      assert s[..n + 1] == s;
      KeySetSnoc(s, key);
      LastKeptIffNew(s, key);
      var known := KeySet(s[..n], key);
      if key(s[n]) in known {
        assert known + {key(s[n])} == known;
      } else {
        assert |known + {key(s[n])}| == |known| + 1;
      }
    }
  }

  /** pandas' single pass: keep a row when its key has not been seen yet. */
  method DropDuplicates<T, K(==)>(s: seq<T>, key: T -> K) returns (kept: seq<T>)
    ensures kept == FirstOfEachKey(s, key)
  {
    kept := [];
    var seen: set<K> := {};
    var i := 0;
    while i < |s|
      invariant 0 <= i <= |s|
      invariant kept == FirstOfEachKey(s[..i], key)
      invariant seen == set j | 0 <= j < i :: key(s[j])
    {
      FirstOfEachKeyStep(s, key, i);
      if key(s[i]) !in seen {
        kept := kept + [s[i]];
      } else {
        var j :| 0 <= j < i && key(s[j]) == key(s[i]);
      }
      seen := seen + {key(s[i])};
      i := i + 1;
    }
    assert s[..i] == s;
  }
}

=== FILE: document.dfy ===
/** The parts of a parsed HTML page that the extraction code looks at: `<a>`
    anchors inside `<td>` cells, table rows, `<h2>` headings and `<div>`
    containers. BeautifulSoup's searches walk the page in document order,
    which is the pre-order `Flatten` below. */
module Document {
  import opened Wrappers

  /** An `<a>` element: its text and its `title` and `href` attributes. */
  datatype Anchor = Anchor(text: string, title: Option<string>, href: Option<string>)

  /** A `<td>` element: its whole text and the anchors inside it, in order. */
  datatype Cell = Cell(text: string, anchors: seq<Anchor>)

  /** A `<tr>` element, reduced to its `<td>` cells. */
  datatype Row = Row(cells: seq<Cell>)

  datatype Node =
    | Heading(text: string)                          // an <h2>
    | Table(classes: seq<string>, rows: seq<Row>)    // a <table> and its <tr>s
    | Div(id: Option<string>, children: seq<Node>)   // a container

  /** The page's elements in document order (pre-order). */
  function Flatten(nodes: seq<Node>): seq<Node>
    decreases nodes
  {
    if nodes == [] then []
    else
      assert nodes[0] in nodes;
      [nodes[0]] + (if nodes[0].Div? then Flatten(nodes[0].children) else []) + Flatten(nodes[1..])
  }

  /** The first index at or after `from` whose element satisfies `p`. */
  function FirstWhere<T>(s: seq<T>, p: T -> bool, from: nat): (r: Option<nat>)
    ensures r.Some? ==> from <= r.value < |s| && p(s[r.value])
                        && forall j :: from <= j < r.value ==> !p(s[j])
    ensures r.None? ==> forall j :: from <= j < |s| ==> !p(s[j])
    decreases |s| - from
  {
    if from >= |s| then None
    else if p(s[from]) then Some(from)
    else FirstWhere(s, p, from + 1)
  }

  /** `cell.find("a")`: the first anchor, if any. */
  function FirstAnchor(c: Cell): (r: Option<Anchor>)
    ensures r.None? <==> c.anchors == []
    ensures r.Some? ==> r.value == c.anchors[0]
  {
    if c.anchors == [] then None else Some(c.anchors[0])
  }

  /** `cell.find("a", href=True)`: the first anchor that has an `href`. */
  function FirstHrefAnchor(c: Cell): (r: Option<Anchor>)
    ensures r.None? <==> forall i :: 0 <= i < |c.anchors| ==> c.anchors[i].href.None?
    ensures r.Some? ==> exists i :: 0 <= i < |c.anchors| && r.value == c.anchors[i]
                                    && c.anchors[i].href.Some?
                                    && forall j :: 0 <= j < i ==> c.anchors[j].href.None?
  {
    match FirstWhere(c.anchors, (a: Anchor) => a.href.Some?, 0)
    case None => None
    case Some(i) => Some(c.anchors[i])
  }

  /** Only one anchor is the first with an `href`. */
  lemma FirstHrefAnchorIs(c: Cell, i: nat)
    requires i < |c.anchors| && c.anchors[i].href.Some?
    requires forall j :: 0 <= j < i ==> c.anchors[j].href.None?
    ensures FirstHrefAnchor(c) == Some(c.anchors[i])
  {
    var k :| 0 <= k < |c.anchors| && FirstHrefAnchor(c).value == c.anchors[k]
             && c.anchors[k].href.Some? && forall j :: 0 <= j < k ==> c.anchors[j].href.None?;
    assert !(k < i) && !(i < k);
  }

  /** Everything inside a container also occurs in the page's document order. */
  lemma {:induction false} FlattenNested(nodes: seq<Node>, i: nat)
    requires i < |Flatten(nodes)| && Flatten(nodes)[i].Div?
    ensures forall y :: y in Flatten(Flatten(nodes)[i].children) ==> y in Flatten(nodes)
    decreases nodes
  {
    var f := Flatten(nodes);
    assert nodes[0] in nodes;
    var c := if nodes[0].Div? then Flatten(nodes[0].children) else [];
    var rest := Flatten(nodes[1..]);
    assert f == [nodes[0]] + c + rest;
    if i == 0 {
    } else if i < 1 + |c| {
      assert f[i] == Flatten(nodes[0].children)[i - 1];
      FlattenNested(nodes[0].children, i - 1);
    } else {
      assert f[i] == rest[i - 1 - |c|];
      FlattenNested(nodes[1..], i - 1 - |c|);
    }
  }
}

=== FILE: frames.dfy ===
/** The pandas side of the pre-processor: a CSV file on disk, what
    `pd.read_csv` makes of it, and the cells of the resulting frame. */
module Frames {
  import opened Wrappers
  import opened Text

  /** One cell. `Missing` is pandas' NaN (an empty CSV field); a float that
      holds a whole number reads as `Int`. */
  datatype Value = Missing | Int(i: int) | Str(s: string) | Bool(b: bool)

  /** One row, by column name. A column the row lacks reads as `Missing`. */
  type Record = map<string, Value>

  /** A frame: its column labels in order and its rows. */
  datatype Frame = Frame(columns: seq<string>, rows: seq<Record>)

  /** Why `pd.read_csv` fails: `FileNotFoundError`, `EmptyDataError` (a file
      with no columns at all), `ParserError`, or another `OSError` such as a
      permission error. */
  datatype ReadFailure = NotFound | EmptyData | Malformed | Denied

  datatype Contents = Unreadable(failure: ReadFailure) | Parsed(frame: Frame)

  /** A `*.csv` file found by a directory glob, and what reading it gives. */
  datatype CsvFile = CsvFile(name: string, contents: Contents)

  /** Python's `str` of a cell: NaN prints as `nan`, a boolean as `True`
      or `False`. */
  function CellText(v: Value): string {
    match v
    case Missing => "nan"
    case Int(i) => IntToString(i)
    case Str(s) => s
    case Bool(b) => if b then "True" else "False"
  }

  function Get(r: Record, column: string): (v: Value)
    ensures column !in r ==> v == Missing
  {
    if column in r then r[column] else Missing
  }

  /** `df.empty`: no rows (a frame with columns but no rows is empty too). */
  predicate IsEmpty(f: Frame) {
    |f.rows| == 0
  }

  /** The last index of `c` in `s`, if any. */
  function LastIndexOf(s: string, c: char): (r: Option<nat>)
    ensures r.Some? ==> r.value < |s| && s[r.value] == c
                        && forall j :: r.value < j < |s| ==> s[j] != c
    ensures r.None? ==> forall j :: 0 <= j < |s| ==> s[j] != c
  {
    if s == [] then None
    else if s[|s| - 1] == c then Some(|s| - 1)
    else LastIndexOf(s[..|s| - 1], c)
  }

  /** `Path(name).stem`: the name without its last suffix. A leading dot
      (a hidden file) or a trailing dot is not a suffix. */
  function Stem(name: string): (r: string)
    ensures |r| <= |name| && name[..|r|] == r
    ensures r == name || (|r| > 0 && name[|r|] == '.' && |r| < |name| - 1)
    ensures r != name ==> forall j :: |r| < j < |name| ==> name[j] != '.'
    ensures r == name ==> forall j :: 0 < j < |name| - 1 ==>
              name[j] != '.' || exists k :: j < k < |name| && name[k] == '.'
  {
    match LastIndexOf(name, '.')
    case Some(i) => if 0 < i < |name| - 1 then name[..i] else name
    case None => name
  }

  /** A stem without dots gets back its stem after any non-empty dot-free
      suffix is appended. */
  lemma StemOfSuffixed(stem: string, ext: string)
    requires |stem| > 0 && forall j :: 0 <= j < |stem| ==> stem[j] != '.'
    requires |ext| > 0 && forall j :: 0 <= j < |ext| ==> ext[j] != '.'
    ensures Stem(stem + "." + ext) == stem
  {
    var name := stem + "." + ext;
    assert name[|stem|] == '.';
    assert forall j :: |stem| < j < |name| ==> name[j] == ext[j - |stem| - 1];
    assert LastIndexOf(name, '.') == Some(|stem|);
    assert name[..|stem|] == stem;
  }
}

=== FILE: metadata.dfy ===
/** Reading back what the scraper wrote: the league, season and team encoded
    in a CSV file name (`extract_metadata_from_filename`), and the season
    encoded in a team URL (`validate_url_year`). Both exist twice in the
    source, in src/pre_processor/utils.py and src/pre_processor/main.py; the
    URL check is the same in both, the file-name parser of main.py knows only
    standings files. The regular expressions are written as scanners:
    `re.match` anchors at the start and ignores what follows the pattern,
    `re.search` takes the first position where the whole pattern matches. */
module Metadata {
  import opened Wrappers
  import opened Text
  import opened Frames

  /** The class `[a-z0-9]`. */
  predicate IsAlnum(c: char) {
    'a' <= c <= 'z' || '0' <= c <= '9'
  }

  predicate AllAlnum(s: string) {
    forall i :: 0 <= i < |s| ==> IsAlnum(s[i])
  }

  /** Length of the longest `[a-z0-9]` run starting at `i`. */
  function RunFrom(s: string, i: nat): (k: nat)
    requires i <= |s|
    ensures i + k <= |s|
    ensures forall j :: i <= j < i + k ==> IsAlnum(s[j])
    ensures i + k == |s| || !IsAlnum(s[i + k])
    decreases |s| - i
  {
    if i < |s| && IsAlnum(s[i]) then 1 + RunFrom(s, i + 1) else 0
  }

  /** `([a-z0-9]+)_(\d{4})_` matches at the start of `s` with a league group
      of length `k` (`\d` taken as the ASCII digits). */
  predicate PrefixAt(s: string, k: nat) {
    1 <= k && k + 6 <= |s| && AllAlnum(s[..k]) && s[k] == '_'
    && AllDigits(s[k + 1..k + 5]) && s[k + 5] == '_'
  }

  /** `([a-z0-9]+)_(\d{4})_standings` matches at the start of `s`. */
  predicate StandingsAt(s: string, k: nat) {
    PrefixAt(s, k) && StartsWith(s[k + 6..], "standings")
  }

  /** `([a-z0-9]+)_(\d{4})_([a-z0-9]+)` matches at the start of `s`. */
  predicate GamesAt(s: string, k: nat) {
    PrefixAt(s, k) && k + 6 < |s| && IsAlnum(s[k + 6])
  }

  /** The league group can only end at the first character outside
      `[a-z0-9]`, since the next one must be `_`: the match is unique. */
  lemma PrefixUnique(s: string, k1: nat, k2: nat)
    requires PrefixAt(s, k1) && PrefixAt(s, k2)
    ensures k1 == k2
  {
  }

  /** The scanner finds the league group whenever the prefix pattern matches. */
  function LeaguePrefix(s: string): (r: Option<nat>)
    ensures r.Some? <==> exists k :: PrefixAt(s, k)
    ensures r.Some? ==> PrefixAt(s, r.value)
  {
    var k := RunFrom(s, 0);
    assert AllAlnum(s[..k]) by {
      forall i | 0 <= i < k ensures IsAlnum(s[..k][i]) {
        assert s[..k][i] == s[i];
      }
    }
    if PrefixAt(s, k) then Some(k) else None
  }

  /** What a file name says about its contents. */
  datatype FileInfo =
    | StandingsInfo(league: string, season: int)
    | GamesInfo(league: string, season: int, team: string)

  /** The `ValueError` raised for a name that matches no pattern. */
  datatype MetadataError = NoMatch(stem: string)

  function YearAt(s: string, k: nat): (y: nat)
    requires PrefixAt(s, k)
    ensures y <= 9999
  {
    FourDigitsBound(s[k + 1..k + 5]);
    DigitsValue(s[k + 1..k + 5])
  }

  /** `extract_metadata_from_filename` of src/pre_processor/utils.py, on the
      file's stem: the standings pattern first, then the games pattern. */
  function ExtractMetadata(stem: string): (r: Result<FileInfo, MetadataError>)
    ensures r.Failure? <==> forall k :: !StandingsAt(stem, k) && !GamesAt(stem, k)
    ensures r.Failure? ==> r.error == NoMatch(stem)
  {
    match LeaguePrefix(stem)
    case None => Failure(NoMatch(stem))
    case Some(k) =>
      var year := YearAt(stem, k);
      if StartsWith(stem[k + 6..], "standings") then
        assert StandingsAt(stem, k);
        Success(StandingsInfo(stem[..k], year))
      else if k + 6 < |stem| && IsAlnum(stem[k + 6]) then
        assert GamesAt(stem, k);
        Success(GamesInfo(stem[..k], year, stem[k + 6..k + 6 + RunFrom(stem, k + 6)]))
      else
        assert forall k' :: !StandingsAt(stem, k') && !GamesAt(stem, k') by {
          forall k' | PrefixAt(stem, k') ensures k' == k { PrefixUnique(stem, k, k'); }
        }
        Failure(NoMatch(stem))
  }

  /** A standings match gives the league group and the year, whatever else
      the games pattern would have matched. */
  lemma ExtractStandings(stem: string, k: nat)
    requires StandingsAt(stem, k)
    ensures ExtractMetadata(stem) == Success(StandingsInfo(stem[..k], DigitsValue(stem[k + 1..k + 5])))
  {
    PrefixUnique(stem, k, LeaguePrefix(stem).value);
  }

  /** A games match that is not a standings match gives the league group,
      the year and the longest `[a-z0-9]` run after the second `_`. */
  lemma ExtractGames(stem: string, k: nat, t: nat)
    requires GamesAt(stem, k) && !StandingsAt(stem, k)
    requires k + 6 + t <= |stem| && t >= 1 && AllAlnum(stem[k + 6..k + 6 + t])
    requires k + 6 + t == |stem| || !IsAlnum(stem[k + 6 + t])
    ensures ExtractMetadata(stem) == Success(GamesInfo(stem[..k], DigitsValue(stem[k + 1..k + 5]),
                                                      stem[k + 6..k + 6 + t]))
  {
    PrefixUnique(stem, k, LeaguePrefix(stem).value);
    RunFromIsRun(stem, k + 6, t);
  }

  /** `RunFrom` measures exactly the maximal run. */
  lemma {:induction false} RunFromIsRun(s: string, i: nat, t: nat)
    requires i + t <= |s| && AllAlnum(s[i..i + t])
    requires i + t == |s| || !IsAlnum(s[i + t])
    ensures RunFrom(s, i) == t
    decreases t
  {
    if t > 0 {
      assert s[i..i + t][0] == s[i];
      var u := s[i + 1..i + t];
      forall j | 0 <= j < |u|
        ensures IsAlnum(u[j])
      {
        assert u[j] == s[i..i + t][j + 1];
      }
      RunFromIsRun(s, i + 1, t - 1);
    }
  }

  /** `extract_metadata_from_filename` of src/pre_processor/main.py, which
      knows only the standings pattern. */
  function ExtractStandingsMetadata(stem: string): (r: Result<FileInfo, MetadataError>)
    ensures r.Success? ==> r.value.StandingsInfo?
  {
    match LeaguePrefix(stem)
    case Some(k) =>
      if StartsWith(stem[k + 6..], "standings") then Success(StandingsInfo(stem[..k], YearAt(stem, k)))
      else Failure(NoMatch(stem))
    case None => Failure(NoMatch(stem))
  }

  /** The two parsers agree on standings files, and the narrow one rejects
      everything else. */
  lemma StandingsParsersAgree(stem: string)
    ensures (ExtractStandingsMetadata(stem).Success?)
              <==> ExtractMetadata(stem).Success? && ExtractMetadata(stem).value.StandingsInfo?
    ensures ExtractStandingsMetadata(stem).Success? ==> ExtractStandingsMetadata(stem) == ExtractMetadata(stem)
  {
  }

  /** `re.match` ignores what follows a standings match. */
  lemma StandingsIgnoresTrailer(stem: string, trailer: string)
    requires ExtractMetadata(stem).Success? && ExtractMetadata(stem).value.StandingsInfo?
    ensures ExtractMetadata(stem + trailer) == ExtractMetadata(stem)
  {
    var k := LeaguePrefix(stem).value;
    var s := stem + trailer;
    assert s[..k] == stem[..k];
    assert s[k + 1..k + 5] == stem[k + 1..k + 5];
    assert s[k + 6..][..9] == stem[k + 6..][..9];
    assert StandingsAt(s, k);
    ExtractStandings(s, k);
  }

  // ---------------------------------------------------------------------
  // The season in a team URL

  const SaisonId: string := "saison_id/"

  /** `saison_id/(\d{4})` matches at index `i`. */
  predicate UrlYearAt(s: string, i: int) {
    0 <= i && i + 14 <= |s| && s[i..i + 10] == SaisonId && AllDigits(s[i + 10..i + 14])
  }

  /** `re.search`: the first index at or after `from` where the pattern
      matches. */
  function SearchUrlYear(s: string, from: nat): (r: Option<nat>)
    ensures r.Some? ==> from <= r.value && UrlYearAt(s, r.value)
                        && forall j :: from <= j < r.value ==> !UrlYearAt(s, j)
    ensures r.None? ==> forall j :: from <= j ==> !UrlYearAt(s, j)
    decreases |s| - from
  {
    if from + 14 > |s| then None
    else if UrlYearAt(s, from) then Some(from)
    else SearchUrlYear(s, from + 1)
  }

  /** `validate_url_year`: a non-string URL, or one without `saison_id/`
      and four digits, is invalid; otherwise the first such year must not
      be after the season. */
  function ValidateUrlYear(url: Value, season: int): (r: bool)
    ensures !url.Str? ==> !r
    ensures r <==> url.Str? && exists i :: UrlYearAt(url.s, i)
                                           && (forall j :: 0 <= j < i ==> !UrlYearAt(url.s, j))
                                           && DigitsValue(url.s[i + 10..i + 14]) <= season
  {
    if !url.Str? then false
    else match SearchUrlYear(url.s, 0)
      case None => false
      case Some(i) =>
        assert forall i' :: UrlYearAt(url.s, i') && (forall j :: 0 <= j < i' ==> !UrlYearAt(url.s, j)) ==> i' == i;
        DigitsValue(url.s[i + 10..i + 14]) <= season
  }

  /** A URL whose first year marker is `saison_id/` then `d`, after a part
      with no marker, is valid exactly for the seasons from `d` on. */
  lemma ValidateFirstMarker(p: string, d: string, q: string, season: int)
    requires |d| == 4 && AllDigits(d)
    requires forall j :: 0 <= j < |p| ==> !UrlYearAt(p + SaisonId + d + q, j)
    ensures ValidateUrlYear(Str(p + SaisonId + d + q), season) <==> DigitsValue(d) <= season
  {
    var s := p + SaisonId + d + q;
    assert s[|p|..|p| + 10] == SaisonId;
    assert s[|p| + 10..|p| + 14] == d;
    assert UrlYearAt(s, |p|);
  }

  /** `saison_id/2021` is valid for the 2022 season and not for 2020. */
  lemma ValidateExample(d: string)
    requires d == "2021"
    ensures ValidateUrlYear(Str(SaisonId + d), 2022)
    ensures !ValidateUrlYear(Str(SaisonId + d), 2020)
  {
    assert [] + SaisonId + d + [] == SaisonId + d;
    var d1, d2, d3 := d[..1], d[..2], d[..3];
    assert d1[..0] == [] && d2[..1] == d1 && d3[..2] == d2 && d[..3] == d3;
    assert DigitsValue(d1) == 2;
    assert DigitsValue(d2) == 20;
    assert DigitsValue(d3) == 202;
    assert DigitsValue(d) == 2021;
    ValidateFirstMarker([], d, [], 2022);
    ValidateFirstMarker([], d, [], 2020);
  }
}

=== FILE: network.dfy ===
/** `fetch_soup` (src/scraper/network.py): one politeness pause, then up to
    MaxRetries GET attempts with exponential backoff after each transient
    failure. The server is a scripted function from attempt index to outcome,
    and every pause, request and backoff is recorded as an event instead of
    being slept. */
module Network {
  import opened Wrappers

  /** src/scraper/config.py:1-3; the pause is drawn by `random.uniform` from `REQUEST_DELAY_RANGE_SECONDS`. */
  const MaxRetries: nat := 5
  const BackoffFactor: nat := 2
  const MinDelaySeconds: real := 3.0
  const MaxDelaySeconds: real := 12.0

  /** What one `requests.get` produces: a response with a status code, or a
      transport-level `RequestException` (DNS failure, refused connection,
      timeout). */
  datatype Outcome = Response(status: int) | NetErr

  /** `raise_for_status` raises for client (4xx) and server (5xx) errors. */
  predicate IsHttpError(status: int) {
    400 <= status < 600
  }

  predicate Succeeds(o: Outcome) {
    o.Response? && !IsHttpError(o.status)
  }

  /** Rate limiting (429), unavailability (503) and transport errors are
      retried; every other HTTP error is not. */
  predicate IsRetriable(o: Outcome) {
    o.NetErr? || (IsHttpError(o.status) && (o.status == 429 || o.status == 503))
  }

  /** A non-retriable HTTP error status. */
  predicate IsFatal(o: Outcome) {
    !Succeeds(o) && !IsRetriable(o)
  }

  datatype Event =
    | Pause(delay: real)         // the politeness delay
    | Request(attempt: nat)      // one GET, 0-based attempt index
    | Backoff(wait: nat)        // the wait after a transient failure

  /** The parsed page: which attempt produced it and with which status. */
  datatype Page = Page(attempt: nat, status: int)

  /** `ScrapingError`, with the cause the source chains to it. */
  datatype FetchError =
    | Unrecoverable(status: int)
    | Exhausted(last: Option<Outcome>)

  datatype Fetched = Fetched(result: Result<Page, FetchError>, events: seq<Event>)

  function Pow(b: nat, e: nat): nat {
    if e == 0 then 1 else b * Pow(b, e - 1)
  }

  /** The `for attempt in range(MAX_RETRIES)` loop from `attempt` on;
      `last` is `last_exception`. */
  function Attempts(respond: nat -> Outcome, attempt: nat, last: Option<Outcome>): Fetched
    decreases MaxRetries - attempt
  {
    if attempt >= MaxRetries then
      Fetched(Failure(Exhausted(last)), [])
    else
      var o := respond(attempt);
      if Succeeds(o) then
        Fetched(Success(Page(attempt, o.status)), [Request(attempt)])
      else if IsRetriable(o) then
        var rest := Attempts(respond, attempt + 1, Some(o));
        Fetched(rest.result, [Request(attempt), Backoff(Pow(BackoffFactor, attempt))] + rest.events)
      else
        Fetched(Failure(Unrecoverable(o.status)), [Request(attempt)])
  }

  /** `fetch_soup(url)`: `delay` is the value `random.uniform` drew and
      `respond` is what the server answers to each attempt. The single
      politeness pause comes first and is never repeated. */
  function FetchSoup(delay: real, respond: nat -> Outcome): (f: Fetched)
    requires MinDelaySeconds <= delay <= MaxDelaySeconds
    ensures |f.events| > 0 && f.events[0] == Pause(delay)
    ensures forall i :: 0 < i < |f.events| ==> !f.events[i].Pause?
  {
    var t := Attempts(respond, 0, None);
    AttemptsHasNoPause(respond, 0, None);
    Fetched(t.result, [Pause(delay)] + t.events)
  }

  lemma {:induction false} AttemptsHasNoPause(respond: nat -> Outcome, attempt: nat, last: Option<Outcome>)
    ensures forall i :: 0 <= i < |Attempts(respond, attempt, last).events| ==>
                          !Attempts(respond, attempt, last).events[i].Pause?
    decreases MaxRetries - attempt
  {
    if attempt < MaxRetries && IsRetriable(respond(attempt)) && !Succeeds(respond(attempt)) {
      AttemptsHasNoPause(respond, attempt + 1, Some(respond(attempt)));
    }
  }

  /** The backoff waits recorded in a trace, in order. */
  function Waits(events: seq<Event>): seq<nat> {
    if events == [] then []
    else (if events[0].Backoff? then [events[0].wait] else []) + Waits(events[1..])
  }

  /** The attempt indices of the requests in a trace, in order. */
  function Attempted(events: seq<Event>): seq<nat> {
    if events == [] then []
    else (if events[0].Request? then [events[0].attempt] else []) + Attempted(events[1..])
  }

  lemma {:induction false} WaitsAppend(a: seq<Event>, b: seq<Event>)
    ensures Waits(a + b) == Waits(a) + Waits(b)
    ensures Attempted(a + b) == Attempted(a) + Attempted(b)
  {
    if a != [] {
      assert (a + b)[0] == a[0];
      assert (a + b)[1..] == a[1..] + b;
      WaitsAppend(a[1..], b);
    } else {
      assert a + b == b;
    }
  }

  /** Reference shape of the transient failures of attempts `a` to `k - 1`:
      each request is followed by a wait of BackoffFactor^attempt seconds. */
  function RetryTrail(a: nat, k: nat): seq<Event>
    requires a <= k
  {
    seq(2 * (k - a), (j: nat) => if j % 2 == 0 then Request(a + j / 2)
                          else Backoff(Pow(BackoffFactor, a + j / 2)))
  }

  lemma RetryTrailStep(a: nat, k: nat)
    requires a < k
    ensures RetryTrail(a, k) == [Request(a), Backoff(Pow(BackoffFactor, a))] + RetryTrail(a + 1, k)
  {
    var l := RetryTrail(a, k);
    var r := [Request(a), Backoff(Pow(BackoffFactor, a))] + RetryTrail(a + 1, k);
    assert |l| == |r|;
    forall j | 2 <= j < |l|
      ensures l[j] == r[j]
    {
      assert (j - 2) / 2 == j / 2 - 1;
      assert (j - 2) % 2 == j % 2;
    }
  }

  lemma {:induction false} RetryTrailProjections(a: nat, k: nat)
    requires a <= k
    ensures Waits(RetryTrail(a, k)) == seq(k - a, (i: nat) => Pow(BackoffFactor, a + i))
    ensures Attempted(RetryTrail(a, k)) == seq(k - a, (i: nat) => a + i)
    decreases k - a
  {
    if a < k {
      RetryTrailStep(a, k);
      RetryTrailProjections(a + 1, k);
      var head := [Request(a), Backoff(Pow(BackoffFactor, a))];
      WaitsAppend(head, RetryTrail(a + 1, k));
      assert head[1..][1..] == [];
      assert Waits(head) == [Pow(BackoffFactor, a)];
      assert Attempted(head) == [a];
    }
  }

  /** `k` is the first attempt from `a` on whose outcome ends the loop, or
      MaxRetries when every remaining attempt fails transiently. */
  predicate FirstDecisive(respond: nat -> Outcome, a: nat, k: nat) {
    && a <= k <= MaxRetries
    && (forall i :: a <= i < k ==> IsRetriable(respond(i)))
    && (k == MaxRetries || !IsRetriable(respond(k)))
  }

  function FindDecisive(respond: nat -> Outcome, a: nat): (k: nat)
    requires a <= MaxRetries
    ensures FirstDecisive(respond, a, k)
    decreases MaxRetries - a
  {
    if a == MaxRetries || !IsRetriable(respond(a)) then a else FindDecisive(respond, a + 1)
  }

  /** The whole retry loop against its reference shape: the transient
      failures before attempt `k` each leave a request and a backoff, the
      decisive attempt leaves one request and no wait, and its outcome decides
      the result; if none is decisive the loop is exhausted with the last
      outcome as cause. */
  lemma {:induction false} AttemptsShape(respond: nat -> Outcome, a: nat, last: Option<Outcome>, k: nat)
    requires FirstDecisive(respond, a, k)
    ensures Attempts(respond, a, last).events ==
            RetryTrail(a, k) + (if k < MaxRetries then [Request(k)] else [])
    ensures Attempts(respond, a, last).result ==
            if k == MaxRetries then
              Failure(Exhausted(if a < k then Some(respond(k - 1)) else last))
            else if Succeeds(respond(k)) then
              Success(Page(k, respond(k).status))
            else
              Failure(Unrecoverable(respond(k).status))
    decreases MaxRetries - a
  {
    if a < k {
      assert IsRetriable(respond(a));
      AttemptsShape(respond, a + 1, Some(respond(a)), k);
      RetryTrailStep(a, k);
    } else {
      assert RetryTrail(a, k) == [];
    }
  }

  /** FetchSoup against the reference shape, with `k` the first decisive
      attempt. */
  lemma FetchSoupShape(delay: real, respond: nat -> Outcome, k: nat)
    requires MinDelaySeconds <= delay <= MaxDelaySeconds
    requires FirstDecisive(respond, 0, k)
    ensures FetchSoup(delay, respond).events ==
            [Pause(delay)] + RetryTrail(0, k) + (if k < MaxRetries then [Request(k)] else [])
    ensures Waits(FetchSoup(delay, respond).events) == seq(k, (i: nat) => Pow(BackoffFactor, i))
    ensures Attempted(FetchSoup(delay, respond).events) ==
            seq(if k < MaxRetries then k + 1 else k, i => i)
  {
    AttemptsShape(respond, 0, None, k);
    RetryTrailProjections(0, k);
    var tail := if k < MaxRetries then [Request(k)] else [];
    var f := FetchSoup(delay, respond);
    assert f.events == [Pause(delay)] + (RetryTrail(0, k) + tail);
    WaitsAppend([Pause(delay)], RetryTrail(0, k) + tail);
    WaitsAppend(RetryTrail(0, k), tail);
    if k < MaxRetries {
      assert tail[1..] == [];
    }
  }

  /** The first successful response is returned at once: nothing follows its
      request, and only the transient failures before it were waited on. */
  lemma FirstSuccessReturns(delay: real, respond: nat -> Outcome, k: nat)
    requires MinDelaySeconds <= delay <= MaxDelaySeconds
    requires k < MaxRetries
    requires forall i :: 0 <= i < k ==> IsRetriable(respond(i))
    requires Succeeds(respond(k))
    ensures FetchSoup(delay, respond).result == Success(Page(k, respond(k).status))
    ensures FetchSoup(delay, respond).events[|FetchSoup(delay, respond).events| - 1] == Request(k)
    ensures Waits(FetchSoup(delay, respond).events) == seq(k, (i: nat) => Pow(BackoffFactor, i))
  {
    FetchSoupShape(delay, respond, k);
    AttemptsShape(respond, 0, None, k);
  }

  /** A non-retriable HTTP error raises at once: its request is the last
      event, with no backoff after it. */
  lemma FatalErrorRaisesAtOnce(delay: real, respond: nat -> Outcome, k: nat)
    requires MinDelaySeconds <= delay <= MaxDelaySeconds
    requires k < MaxRetries
    requires forall i :: 0 <= i < k ==> IsRetriable(respond(i))
    requires IsFatal(respond(k))
    ensures FetchSoup(delay, respond).result == Failure(Unrecoverable(respond(k).status))
    ensures FetchSoup(delay, respond).events[|FetchSoup(delay, respond).events| - 1] == Request(k)
    ensures Waits(FetchSoup(delay, respond).events) == seq(k, (i: nat) => Pow(BackoffFactor, i))
  {
    FetchSoupShape(delay, respond, k);
    AttemptsShape(respond, 0, None, k);
  }

  /** Whatever the server does: at most MaxRetries requests, numbered
      0, 1, 2, ...; the i-th backoff waits BackoffFactor^i seconds; and there
      is a backoff for exactly the retriable failures. */
  lemma FetchBounds(delay: real, respond: nat -> Outcome)
    requires MinDelaySeconds <= delay <= MaxDelaySeconds
    ensures var f := FetchSoup(delay, respond);
            && |Attempted(f.events)| <= MaxRetries
            && (forall i :: 0 <= i < |Attempted(f.events)| ==> Attempted(f.events)[i] == i)
            && (forall i :: 0 <= i < |Waits(f.events)| ==> Waits(f.events)[i] == Pow(BackoffFactor, i))
            && (forall i :: 0 <= i < |Waits(f.events)| ==> IsRetriable(respond(i)))
            && |Attempted(f.events)| - 1 <= |Waits(f.events)| <= |Attempted(f.events)|
  {
    var k := FindDecisive(respond, 0);
    FetchSoupShape(delay, respond, k);
  }

  /** When every attempt fails transiently the fetch raises after five
      requests, having waited 1, 2, 4, 8 and 16 seconds, the last wait coming
      after the final attempt. */
  lemma AllTransientExhausts(delay: real, respond: nat -> Outcome)
    requires MinDelaySeconds <= delay <= MaxDelaySeconds
    requires forall i :: 0 <= i < MaxRetries ==> IsRetriable(respond(i))
    ensures FetchSoup(delay, respond).result == Failure(Exhausted(Some(respond(MaxRetries - 1))))
    ensures Waits(FetchSoup(delay, respond).events) == [1, 2, 4, 8, 16]
    ensures FetchSoup(delay, respond).events[|FetchSoup(delay, respond).events| - 1] == Backoff(16)
  {
    FetchSoupShape(delay, respond, MaxRetries);
    AttemptsShape(respond, 0, None, MaxRetries);
    assert Pow(BackoffFactor, 4) == 16;
    var t := RetryTrail(0, MaxRetries);
    assert t[|t| - 1] == Backoff(16);
  }

  /** Two 503 responses and then a 200: success on the third attempt after
      waiting 1 and 2 seconds. */
  lemma TwoUnavailableThenOk(delay: real)
    requires MinDelaySeconds <= delay <= MaxDelaySeconds
    ensures var respond := (i: nat) => if i < 2 then Response(503) else Response(200);
            && FetchSoup(delay, respond).result == Success(Page(2, 200))
            && Waits(FetchSoup(delay, respond).events) == [1, 2]
  {
    var respond := (i: nat) => if i < 2 then Response(503) else Response(200);
    FirstSuccessReturns(delay, respond, 2);
    assert Pow(BackoffFactor, 1) == 2;
  }

  /** A 404 fails on the first request without any backoff. */
  lemma NotFoundFailsImmediately(delay: real)
    requires MinDelaySeconds <= delay <= MaxDelaySeconds
    ensures var f := FetchSoup(delay, (i: nat) => Response(404));
            && f.result == Failure(Unrecoverable(404))
            && f.events == [Pause(delay), Request(0)]
  {
    var respond := (i: nat) => Response(404);
    FetchSoupShape(delay, respond, 0);
    assert RetryTrail(0, 0) == [];
  }
}

=== FILE: parsers.dfy ===
/** `fetch_league_standings` and `fetch_team_games` (src/scraper/parsers.py),
    taken over an already fetched page: locating the table, skipping the
    header and short rows, and the per-column anchor/text fallbacks. */
module Parsers {
  import opened Wrappers
  import opened Text
  import opened Document
  import Sanitize

  /** src/scraper/config.py:6. */
  const BaseUrl: string := "https://www.transfermarkt.com.br"

  /** A path on the same site: starts with one `/`, not two. */
  predicate IsSitePath(href: string) {
    StartsWith(href, "/") && !StartsWith(href, "//")
  }

  predicate IsAsciiLetter(c: char) {
    ('a' <= c <= 'z') || ('A' <= c <= 'Z')
  }

  /** The characters section 3.1 of RFC 3986 allows in a scheme. */
  predicate IsSchemeChar(c: char) {
    IsAsciiLetter(c) || IsDigit(c) || c == '+' || c == '-' || c == '.'
  }

  /** Where `urlsplit` ends the scheme: at the first colon, when a letter
      and then scheme characters only come before it. */
  function SchemeEnd(href: string): (r: Option<nat>)
    ensures r.Some? <==>
              exists i :: 0 < i < |href| && href[i] == ':' && IsAsciiLetter(href[0])
                          && (forall j :: 0 <= j < i ==> IsSchemeChar(href[j]))
    ensures r.Some? ==> 0 < r.value < |href| && href[r.value] == ':'
                        && forall j :: 0 <= j < r.value ==> IsSchemeChar(href[j])
  {
    match FirstWhere(href, (c: char) => c == ':', 0)
    case None => None
    case Some(i) =>
      if 0 < i && IsAsciiLetter(href[0]) && forall j :: 0 <= j < i ==> IsSchemeChar(href[j]) then Some(i)
      else None
  }

  /** The href names a scheme other than the base's `https` (compared
      without case), so `urljoin` returns it as it is. */
  predicate HasForeignScheme(href: string) {
    SchemeEnd(href).Some? && Sanitize.LowerAll(href[..SchemeEnd(href).value]) != "https"
  }

  /** A reference without scheme or host, resolved against the base, whose
      path is empty. An absolute path, a query or a fragment is appended as
      it is; a relative path is placed under `/` with its empty segments
      dropped, which `urljoin` does with `filter(None, segments[1:-1])`. */
  function ResolvePath(ref: string): (r: string)
    ensures StartsWith(r, BaseUrl)
    ensures ref != [] && ref[0] in {'/', '?', '#'} ==> r == BaseUrl + ref
    ensures ref != [] && ref[0] !in {'/', '?', '#'} ==>
              var n := PathLength(ref);
              && |r| >= |BaseUrl| + 1 + (|ref| - n)
              && r[..|BaseUrl| + 1] == BaseUrl + "/"
              && NoDoubleSlash(r[|BaseUrl| + 1..|r| - (|ref| - n)])
              && Without(r[|BaseUrl| + 1..|r| - (|ref| - n)], '/') == Without(ref[..n], '/')
              && r[|r| - (|ref| - n)..] == ref[n..]
  {
    if ref == [] then BaseUrl
    else if ref[0] in {'/', '?', '#'} then BaseUrl + ref
    else
      var n := PathLength(ref);
      var path := SquashSlashes(ref[..n]);
      var r := BaseUrl + "/" + path + ref[n..];
      assert r[|BaseUrl| + 1..|r| - (|ref| - n)] == path;
      assert r[..|BaseUrl| + 1] == BaseUrl + "/";
      r
  }

  /** A character that ends the path of a reference. */
  predicate EndsPath(c: char) {
    c == '?' || c == '#'
  }

  /** The length of a reference's path: up to its first `?` or `#`. */
  function PathLength(ref: string): (n: nat)
    ensures n <= |ref|
    ensures forall j :: 0 <= j < n ==> !EndsPath(ref[j])
    ensures n < |ref| ==> EndsPath(ref[n])
  {
    match FirstWhere(ref, EndsPath, 0)
    case None => |ref|
    case Some(i) => i
  }

  /** No two slashes in a row. */
  predicate NoDoubleSlash(s: string) {
    forall i :: 0 <= i < |s| - 1 ==> !(s[i] == '/' && s[i + 1] == '/')
  }

  /** Every run of slashes squeezed to one slash. On a relative path under
      an empty base path this is dropping every empty segment but the last. */
  function SquashSlashes(s: string): (r: string)
    ensures NoDoubleSlash(r)
    ensures Without(r, '/') == Without(s, '/')
    ensures s != [] ==> r != [] && r[0] == s[0]
    decreases |s|
  {
    if |s| < 2 then s
    else if s[0] == '/' && s[1] == '/' then SquashSlashes(s[1..])
    else [s[0]] + SquashSlashes(s[1..])
  }

  /** A path without two slashes in a row is left as it is. */
  lemma {:induction false} SquashSlashesFixes(s: string)
    requires NoDoubleSlash(s)
    ensures SquashSlashes(s) == s
    decreases |s|
  {
    if |s| >= 2 {
      assert NoDoubleSlash(s[1..]) by {
        forall i | 0 <= i < |s[1..]| - 1 ensures !(s[1..][i] == '/' && s[1..][i + 1] == '/') {
          assert s[1..][i] == s[i + 1] && s[1..][i + 1] == s[i + 2];
        }
      }
      SquashSlashesFixes(s[1..]);
    }
  }

  /** Squeezing twice is squeezing once. */
  lemma SquashSlashesIdempotent(s: string)
    ensures SquashSlashes(SquashSlashes(s)) == SquashSlashes(s)
  {
    SquashSlashesFixes(SquashSlashes(s));
  }

  /** A relative path with no empty segment lands under `/` unchanged. */
  lemma ResolveRelativePath(href: string)
    requires href != [] && href[0] !in {'/', '?', '#'} && SchemeEnd(href).None?
    requires NoDoubleSlash(href[..PathLength(href)])
    ensures Resolve(href) == BaseUrl + "/" + href
  {
    var n := PathLength(href);
    SquashSlashesFixes(href[..n]);
    RelativeIsPath(href);
    RelativePath(href);
    assert href[..n] + href[n..] == href;
  }

  /** An href without scheme or leading slash resolves as a path. */
  lemma RelativeIsPath(href: string)
    requires href != [] && href[0] != '/' && SchemeEnd(href).None?
    ensures Resolve(href) == ResolvePath(href)
  {
    assert !StartsWith(href, "//");
  }

  /** A relative path resolves to its squeezed path and the rest. */
  lemma RelativePath(ref: string)
    requires ref != [] && ref[0] !in {'/', '?', '#'}
    ensures ResolvePath(ref) == BaseUrl + "/" + SquashSlashes(ref[..PathLength(ref)]) + ref[PathLength(ref)..]
  {
  }

  /** `urljoin(BASE_URL, "a//b")` drops the empty segment. */
  lemma ResolveEmptySegment()
    ensures Resolve("a//b") == BaseUrl + "/a/b"
  {
    assert FirstWhere("a//b", (c: char) => c == ':', 0) == None;
    assert FirstWhere("a//b", EndsPath, 0) == None;
  }

  /** A reference with the base's scheme, or none: a non-empty host after
      `//` replaces the base's host, and anything else lands under the base. */
  function ResolveSameScheme(rest: string): (r: string)
    ensures StartsWith(r, "https:")
  {
    if StartsWith(rest, "//") then
      if |rest| > 2 && rest[2] !in {'/', '?', '#'} then "https:" + rest
      else ResolvePath(rest[2..])
    else ResolvePath(rest)
  }

  /** `urljoin(BASE_URL, href)`. A scheme other than `https` leaves the
      href as it is; an `https` scheme, written in any case, is lower-cased;
      a host replaces the base's; a site path, a query, a fragment and a
      relative path all land under the base. */
  function Resolve(href: string): (r: string)
    ensures r != []
    ensures href == [] ==> r == BaseUrl
    ensures HasForeignScheme(href) ==> r == href
    ensures !HasForeignScheme(href) ==> StartsWith(r, "https:")
    ensures SchemeEnd(href).None? && !StartsWith(href, "//") ==> StartsWith(r, BaseUrl)
  {
    match SchemeEnd(href)
    case None => ResolveSameScheme(href)
    case Some(i) =>
      if Sanitize.LowerAll(href[..i]) != "https" then href
      else ResolveSameScheme(href[i + 1..])
  }

  /** The scheme of an href whose first colon follows a scheme. */
  lemma SchemeEndAt(href: string, i: nat)
    requires 0 < i < |href| && href[i] == ':' && IsAsciiLetter(href[0])
    requires forall j :: 0 <= j < i ==> IsSchemeChar(href[j]) && href[j] != ':'
    ensures SchemeEnd(href) == Some(i)
  {
    assert FirstWhere(href, (c: char) => c == ':', 0) == Some(i);
  }

  /** Lower-casing keeps the length. */
  lemma {:induction false} LowerAllLength(s: string)
    ensures |Sanitize.LowerAll(s)| == |s|
  {
    if s != [] {
      LowerAllLength(s[1..]);
    }
  }

  /** An href whose scheme is not five characters long is not `https`. */
  lemma ForeignBySchemeLength(href: string, i: nat)
    requires SchemeEnd(href) == Some(i) && i != 5
    ensures HasForeignScheme(href) && Resolve(href) == href
  {
    LowerAllLength(href[..i]);
  }

  /** A `mailto:` link is kept. */
  lemma ResolveKeepsMailto()
    ensures Resolve("mailto:x") == "mailto:x"
  {
    SchemeEndAt("mailto:x", 6);
    ForeignBySchemeLength("mailto:x", 6);
  }

  /** A `javascript:` link is kept. */
  lemma ResolveKeepsJavascript()
    ensures Resolve("javascript:void(0)") == "javascript:void(0)"
  {
    SchemeEndAt("javascript:void(0)", 10);
    ForeignBySchemeLength("javascript:void(0)", 10);
  }

  /** A plain `http` URL is kept, not moved to the base's scheme. */
  lemma ResolveKeepsHttp()
    ensures Resolve("http://h/p") == "http://h/p"
  {
    SchemeEndAt("http://h/p", 4);
    ForeignBySchemeLength("http://h/p", 4);
  }

  /** `"HTTPS".lower()` and `"https".lower()`. */
  lemma LowerHttps()
    ensures Sanitize.LowerAll("HTTPS") == "https"
    ensures Sanitize.LowerAll("https") == "https"
  {
    assert Sanitize.LowerAll("S") == "s";
    assert Sanitize.LowerAll("PS") == "ps";
    assert Sanitize.LowerAll("TPS") == "tps";
    assert Sanitize.LowerAll("TTPS") == "ttps";
    assert Sanitize.LowerAll("s") == "s";
    assert Sanitize.LowerAll("ps") == "ps";
    assert Sanitize.LowerAll("tps") == "tps";
    assert Sanitize.LowerAll("ttps") == "ttps";
  }

  /** An upper-case `HTTPS` scheme is lower-cased. */
  lemma ResolveUpperHttps()
    ensures Resolve("HTTPS://h/p") == "https://h/p"
  {
    SchemeEndAt("HTTPS://h/p", 5);
    LowerHttps();
    assert "HTTPS://h/p"[..5] == "HTTPS" && "HTTPS://h/p"[6..] == "//h/p";
  }

  /** A full `https` URL is kept, and a host-only reference takes the
      base's scheme. */
  lemma ResolveHttpsHost()
    ensures Resolve("https://h/p") == "https://h/p"
    ensures Resolve("//h/p") == "https://h/p"
  {
    SchemeEndAt("https://h/p", 5);
    LowerHttps();
    assert "https://h/p"[..5] == "https" && "https://h/p"[6..] == "//h/p";
    assert SchemeEnd("//h/p").None?;
  }

  /** A site path is recovered from the resolved URL by dropping the base. */
  lemma ResolveSitePath(href: string)
    requires IsSitePath(href)
    ensures Resolve(href) == BaseUrl + href
    ensures Resolve(href)[|BaseUrl|..] == href
  {
    assert href[..1] == "/";
  }

  /** Two site paths resolve to the same URL only if they are equal. */
  lemma ResolveSitePathInjective(h1: string, h2: string)
    requires IsSitePath(h1) && IsSitePath(h2)
    requires Resolve(h1) == Resolve(h2)
    ensures h1 == h2
  {
    ResolveSitePath(h1);
    ResolveSitePath(h2);
  }

  /** `ScrapingError` and the two `ValueError`s the extraction raises. */
  datatype ParseError =
    | StandingsTableNotFound
    | SectionNotFound(leagueName: string)
    | ScheduleTableNotFound

  /** `rows[1:]`: everything after the header row. */
  function Tail<T>(s: seq<T>): (r: seq<T>)
    ensures s == [] ==> r == []
    ensures s != [] ==> s == [s[0]] + r
  {
    if s == [] then [] else s[1..]
  }

  /** The rows with at least `n` cells, in their original order. */
  function Wide(rows: seq<Row>, n: nat): (w: seq<Row>)
    ensures |w| <= |rows|
    ensures forall i :: 0 <= i < |w| ==> |w[i].cells| >= n && w[i] in rows
  {
    if rows == [] then []
    else
      var init := Wide(rows[..|rows| - 1], n);
      var last := rows[|rows| - 1];
      if |last.cells| >= n then init + [last] else init
  }

  /** Filtering distributes over concatenation. Together with the one-row
      case this determines `Wide` completely: it keeps exactly the rows that
      are wide enough, each once, in order. */
  lemma {:induction false} WideAppend(a: seq<Row>, b: seq<Row>, n: nat)
    ensures Wide(a + b, n) == Wide(a, n) + Wide(b, n)
    decreases |b|
  {
    if b == [] {
      assert a + b == a;
    } else {
      var ab := a + b;
      assert ab[..|ab| - 1] == a + b[..|b| - 1];
      assert ab[|ab| - 1] == b[|b| - 1];
      WideAppend(a, b[..|b| - 1], n);
    }
  }

  lemma WideOne(r: Row, n: nat)
    ensures Wide([r], n) == if |r.cells| >= n then [r] else []
  {
    assert [r][..0] == [];
  }

  /** Every row is kept exactly when every row is wide enough. */
  lemma WideAll(rows: seq<Row>, n: nat)
    ensures Wide(rows, n) == rows <==> forall i :: 0 <= i < |rows| ==> |rows[i].cells| >= n
  {
    if forall i :: 0 <= i < |rows| ==> |rows[i].cells| >= n {
      WideKeepsAll(rows, n);
    }
  }

  lemma {:induction false} WideKeepsAll(rows: seq<Row>, n: nat)
    requires forall i :: 0 <= i < |rows| ==> |rows[i].cells| >= n
    ensures Wide(rows, n) == rows
    decreases |rows|
  {
    if rows != [] {
      var init := rows[..|rows| - 1];
      var last := rows[|rows| - 1];
      forall i | 0 <= i < |init|
        ensures |init[i].cells| >= n
      {
        assert init[i] == rows[i];
      }
      WideKeepsAll(init, n);
      assert Wide(rows, n) == Wide(init, n) + [last];
      assert init + [last] == rows;
    }
  }

  // ---------------------------------------------------------------------
  // League standings

  /** One row of the standings table; every field is a stripped cell text
      except `teamUrl`, which is absent when the team cell has no link. */
  datatype Standing = Standing(
    position: string, team: string, played: string, won: string, drawn: string,
    lost: string, goalRatio: string, goalDifference: string, points: string,
    teamUrl: Option<string>)

  /** The team name and URL taken from the first anchor of the team cell
      that has an `href`: its title (the stripped cell text when it has
      none), stripped again; no such anchor leaves only the cell text. */
  function TeamOf(c: Cell): (r: (string, Option<string>))
    ensures (forall i :: 0 <= i < |c.anchors| ==> c.anchors[i].href.None?)
              ==> r == (Strip(c.text), None)
    ensures forall i :: (0 <= i < |c.anchors| && c.anchors[i].href.Some?
                         && (forall j :: 0 <= j < i ==> c.anchors[j].href.None?))
                        ==> r.1 == Some(Resolve(c.anchors[i].href.value))
                              && r.0 == (if c.anchors[i].title.Some?
                                         then Strip(c.anchors[i].title.value)
                                         else Strip(c.text))
  {
    match FirstHrefAnchor(c)
    case None => (Strip(c.text), None)
    case Some(a) =>
      assert forall i :: (0 <= i < |c.anchors| && c.anchors[i].href.Some?
                          && (forall j :: 0 <= j < i ==> c.anchors[j].href.None?)) ==> c.anchors[i] == a
        by { forall i | 0 <= i < |c.anchors| && c.anchors[i].href.Some?
                         && (forall j :: 0 <= j < i ==> c.anchors[j].href.None?) { FirstHrefAnchorIs(c, i); } }
      StripIdempotent(c.text);
      (Strip(a.title.GetOr(Strip(c.text))), Some(Resolve(a.href.value)))
  }

  /** The record built from a row of at least ten cells. */
  function StandingOf(cells: seq<Cell>): (r: Standing)
    requires |cells| >= 10
    ensures r.teamUrl.None? <==> forall i :: 0 <= i < |cells[1].anchors| ==> cells[1].anchors[i].href.None?
    ensures r.position == Strip(cells[0].text) && r.points == Strip(cells[9].text)
    ensures r.teamUrl.None? ==> r.team == Strip(cells[1].text)
  {
    var (team, url) := TeamOf(cells[1]);
    Standing(Strip(cells[0].text), team, Strip(cells[3].text), Strip(cells[4].text),
             Strip(cells[5].text), Strip(cells[6].text), Strip(cells[7].text),
             Strip(cells[8].text), Strip(cells[9].text), url)
  }

  /** One record per row of at least ten cells, in order. */
  function Standings(rows: seq<Row>): seq<Standing> {
    if rows == [] then []
    else
      var last := rows[|rows| - 1];
      Standings(rows[..|rows| - 1]) + (if |last.cells| >= 10 then [StandingOf(last.cells)] else [])
  }

  /** The k-th record is built from the k-th row of at least ten cells. */
  lemma {:induction false} StandingsOfWideRows(rows: seq<Row>)
    ensures |Standings(rows)| == |Wide(rows, 10)|
    ensures forall k :: 0 <= k < |Standings(rows)| ==>
              Standings(rows)[k] == StandingOf(Wide(rows, 10)[k].cells)
  {
    if rows != [] {
      var init := rows[..|rows| - 1];
      var last := rows[|rows| - 1];
      StandingsOfWideRows(init);
      if |last.cells| >= 10 {
        assert Standings(rows) == Standings(init) + [StandingOf(last.cells)];
        assert Wide(rows, 10) == Wide(init, 10) + [last];
        StandingSnoc(Standings(init), Wide(init, 10), last);
      } else {
        assert Standings(rows) == Standings(init);
        assert Wide(rows, 10) == Wide(init, 10);
      }
    }
  }

  /** Appending a wide row and its record keeps records and rows paired. */
  lemma StandingSnoc(m: seq<Standing>, w: seq<Row>, last: Row)
    requires |m| == |w| && |last.cells| >= 10
    requires forall k :: 0 <= k < |m| ==> |w[k].cells| >= 10 && m[k] == StandingOf(w[k].cells)
    ensures var m', w' := m + [StandingOf(last.cells)], w + [last];
            forall k :: 0 <= k < |m'| ==> |w'[k].cells| >= 10 && m'[k] == StandingOf(w'[k].cells)
  {
    var m', w' := m + [StandingOf(last.cells)], w + [last];
    forall k | 0 <= k < |m'|
      ensures |w'[k].cells| >= 10 && m'[k] == StandingOf(w'[k].cells)
    {
      if k < |m| {
        assert m'[k] == m[k] && w'[k] == w[k];
      } else {
        assert w'[k] == last;
      }
    }
  }


  predicate IsItemsTable(n: Node) {
    n.Table? && "items" in n.classes
  }

  /** `soup.find("table", class_="items")`: the rows of the first such table. */
  function ItemsTable(doc: seq<Node>): (r: Option<seq<Row>>)
    ensures r.None? <==> forall i :: 0 <= i < |Flatten(doc)| ==> !IsItemsTable(Flatten(doc)[i])
    ensures r.Some? ==> exists i :: 0 <= i < |Flatten(doc)| && IsItemsTable(Flatten(doc)[i])
                                    && r.value == Flatten(doc)[i].rows
                                    && forall j :: 0 <= j < i ==> !IsItemsTable(Flatten(doc)[j])
  {
    var nodes := Flatten(doc);
    match FirstWhere(nodes, IsItemsTable, 0)
    case None => None
    case Some(i) => Some(nodes[i].rows)
  }

  /** What `fetch_league_standings` yields for a fetched page: the records
      of the rows after the header, or the error for a missing table. */
  function LeagueStandings(doc: seq<Node>): Result<seq<Standing>, ParseError> {
    match ItemsTable(doc)
    case None => Failure(StandingsTableNotFound)
    case Some(rows) => Success(Standings(Tail(rows)))
  }

  /** `fetch_league_standings` on a fetched page, row by row as the source
      does it, with its early return for a header-only table. */
  method FetchLeagueStandings(doc: seq<Node>) returns (r: Result<seq<Standing>, ParseError>)
    ensures r == Failure(StandingsTableNotFound) <==> ItemsTable(doc).None?
    ensures r == LeagueStandings(doc)
  {
    var table := ItemsTable(doc);
    if table.None? {
      return Failure(StandingsTableNotFound);
    }
    var data := StandingRows(table.value);
    return Success(data);
  }

  /** The loop of `fetch_league_standings` over the rows after the header,
      with its early return for a header-only table. */
  method StandingRows(rows: seq<Row>) returns (data: seq<Standing>)
    ensures data == Standings(Tail(rows))
  {
    if |rows| < 2 {
      return [];
    }
    data := [];
    var i := 1;
    while i < |rows|
      invariant 1 <= i <= |rows|
      invariant data == Standings(rows[1..i])
    {
      assert rows[1..i + 1][..i - 1] == rows[1..i];
      if |rows[i].cells| >= 10 {
        data := data + [StandingOf(rows[i].cells)];
      }
      i := i + 1;
    }
    assert rows[1..i] == Tail(rows);
  }

  /** A table with only a header row (or none) yields no records rather than
      an error. */
  lemma HeaderOnlyIsEmpty(rows: seq<Row>)
    requires |rows| < 2
    ensures Standings(Tail(rows)) == []
  {
  }

  // ---------------------------------------------------------------------
  // Team schedule

  /** One row of the schedule table. */
  datatype Match = Match(
    round: string, date: string, time: string, homeTeam: string, awayTeam: string,
    formation: string, coach: string, audience: int, result: string, matchLink: string)

  /** The stripped text of the cell's first anchor, else of the cell. */
  function AnchorOrText(c: Cell): (r: string)
    ensures c.anchors == [] ==> r == Strip(c.text)
    ensures c.anchors != [] ==> r == Strip(c.anchors[0].text)
    ensures Strip(r) == r
  {
    match FirstAnchor(c)
    case Some(a) => StripIdempotent(a.text); Strip(a.text)
    case None => StripIdempotent(c.text); Strip(c.text)
  }

  /** The home team prefers the first anchor's title, then its text, then
      the cell text. */
  function HomeTeam(c: Cell): (r: string)
    ensures c.anchors != [] && c.anchors[0].title.Some? ==> r == Strip(c.anchors[0].title.value)
    ensures (c.anchors == [] || c.anchors[0].title.None?) ==> r == AnchorOrText(c)
  {
    match FirstAnchor(c)
    case Some(a) => if a.title.Some? then Strip(a.title.value) else Strip(a.text)
    case None => Strip(c.text)
  }

  /** `str.replace(".", "")`. */
  function RemoveDots(s: string): string {
    ReplaceAll(s, ".", "")
  }

  /** `int(s.replace(".", "")) if s else 0`, with 0 when `int` fails. */
  function Attendance(s: string): (r: int)
    ensures s == [] ==> r == 0
    ensures ParseInt(RemoveDots(s)).None? ==> r == 0
    ensures s != [] && ParseInt(RemoveDots(s)).Some? ==> r == ParseInt(RemoveDots(s)).value
  {
    if s == [] then 0
    else match ParseInt(RemoveDots(s))
      case Some(v) => v
      case None => 0
  }

  /** The string without any `c`. */
  function Without(s: string, c: char): (r: string)
    ensures forall i :: 0 <= i < |r| ==> r[i] != c
  {
    if s == [] then [] else (if s[0] == c then [] else [s[0]]) + Without(s[1..], c)
  }

  lemma {:induction false} WithoutAppend(a: string, b: string, c: char)
    ensures Without(a + b, c) == Without(a, c) + Without(b, c)
  {
    if a == [] {
      assert a + b == b;
    } else {
      assert (a + b)[1..] == a[1..] + b;
      WithoutAppend(a[1..], b, c);
    }
  }

  lemma {:induction false} WithoutNothing(s: string, c: char)
    requires forall i :: 0 <= i < |s| ==> s[i] != c
    ensures Without(s, c) == s
  {
    if s != [] {
      WithoutNothing(s[1..], c);
    }
  }

  /** Replacing a one-character pattern by nothing deletes that character. */
  lemma {:induction false} ReplaceCharByNothing(s: string, c: char)
    ensures ReplaceAll(s, [c], "") == Without(s, c)
  {
    if s != [] {
      assert s[..1] == [s[0]];
      ReplaceCharByNothing(s[1..], c);
    }
  }

  /** The dots are gone; dots are all that is gone. */
  lemma RemoveDotsIsWithout(s: string)
    ensures RemoveDots(s) == Without(s, '.')
  {
    ReplaceCharByNothing(s, '.');
  }

  /** Removing the dots first changes nothing: the dots play no part in the
      number read. */
  lemma AttendanceIgnoresDots(s: string)
    ensures Attendance(Without(s, '.')) == Attendance(s)
  {
    var w := Without(s, '.');
    RemoveDotsIsWithout(s);
    RemoveDotsIsWithout(w);
    WithoutNothing(w, '.');
    if s != [] && w == [] {
      assert Strip(w) == [];
    }
  }

  /** The three digits of `m`, with leading zeros. */
  function Pad3(m: nat): (r: string)
    requires m < 1000
    ensures |r| == 3 && AllDigits(r) && DigitsValue(r) == m
  {
    var a, b, c := m / 100, m / 10 % 10, m % 10;
    var r := [DigitChar(a), DigitChar(b), DigitChar(c)];
    assert r[..2][..1][..0] == [];
    assert DigitsValue(r[..2][..1]) == a;
    assert DigitsValue(r[..2]) == a * 10 + b;
    assert DigitsValue(r) == (a * 10 + b) * 10 + c;
    r
  }

  /** `n` written with a `.` between each group of three digits, as the
      attendance column shows it ("45.123"). */
  function ThousandsOf(n: nat): (r: string)
    ensures r != []
    decreases n
  {
    if n < 1000 then NatToString(n) else ThousandsOf(n / 1000) + "." + Pad3(n % 1000)
  }

  /** Without its dots, the grouped form is the plain decimal digits. */
  lemma {:induction false} ThousandsDigits(n: nat)
    ensures var d := Without(ThousandsOf(n), '.');
            d != [] && AllDigits(d) && DigitsValue(d) == n
    decreases n
  {
    if n < 1000 {
      var s := NatToString(n);
      WithoutNothing(s, '.');
    } else {
      ThousandsDigits(n / 1000);
      var hi := Without(ThousandsOf(n / 1000), '.');
      var lo := Pad3(n % 1000);
      WithoutAppend(ThousandsOf(n / 1000) + ".", lo, '.');
      WithoutAppend(ThousandsOf(n / 1000), ".", '.');
      assert Without(".", '.') == [];
      WithoutNothing(lo, '.');
      assert Without(ThousandsOf(n), '.') == hi + lo;
      DigitsValueAppend(hi, lo);
      assert Pow10(3) == 1000;
    }
  }

  /** Attendance figures read back as the number they show. */
  lemma AttendanceRoundTrip(n: nat)
    ensures Attendance(ThousandsOf(n)) == n
  {
    ThousandsDigits(n);
    RemoveDotsIsWithout(ThousandsOf(n));
    ParseIntDigits(Without(ThousandsOf(n), '.'));
  }

  /** The record built from a row of at least eleven cells. */
  function MatchOf(cells: seq<Cell>): (r: Match)
    requires |cells| >= 11
    ensures r.matchLink == [] <==> cells[10].anchors == []
    ensures cells[10].anchors != [] ==> r.matchLink == Resolve(cells[10].anchors[0].href.GetOr(""))
    ensures r.audience == Attendance(Strip(cells[9].text))
  {
    var link := match FirstAnchor(cells[10])
                case Some(a) => Resolve(a.href.GetOr(""))
                case None => "";
    Match(AnchorOrText(cells[0]), Strip(cells[1].text), Strip(cells[2].text),
          HomeTeam(cells[4]), AnchorOrText(cells[6]), Strip(cells[7].text),
          AnchorOrText(cells[8]), Attendance(Strip(cells[9].text)),
          AnchorOrText(cells[10]), link)
  }

  /** The text fields of a record carry no surrounding whitespace. */
  lemma MatchOfStripped(cells: seq<Cell>)
    requires |cells| >= 11
    ensures var r := MatchOf(cells);
            Strip(r.round) == r.round && Strip(r.awayTeam) == r.awayTeam
            && Strip(r.coach) == r.coach && Strip(r.result) == r.result
  {
  }

  /** One record per row of at least eleven cells, in order. */
  function Matches(rows: seq<Row>): seq<Match> {
    if rows == [] then []
    else
      var last := rows[|rows| - 1];
      Matches(rows[..|rows| - 1]) + (if |last.cells| >= 11 then [MatchOf(last.cells)] else [])
  }

  /** The k-th record is built from the k-th row of at least eleven cells. */
  lemma {:induction false} MatchesOfWideRows(rows: seq<Row>)
    ensures |Matches(rows)| == |Wide(rows, 11)|
    ensures forall k :: 0 <= k < |Matches(rows)| ==>
              Matches(rows)[k] == MatchOf(Wide(rows, 11)[k].cells)
  {
    if rows != [] {
      var init := rows[..|rows| - 1];
      var last := rows[|rows| - 1];
      MatchesOfWideRows(init);
      if |last.cells| >= 11 {
        assert Matches(rows) == Matches(init) + [MatchOf(last.cells)];
        assert Wide(rows, 11) == Wide(init, 11) + [last];
        MatchSnoc(Matches(init), Wide(init, 11), last);
      } else {
        assert Matches(rows) == Matches(init);
        assert Wide(rows, 11) == Wide(init, 11);
      }
    }
  }

  /** Appending a wide row and its record keeps records and rows paired. */
  lemma MatchSnoc(m: seq<Match>, w: seq<Row>, last: Row)
    requires |m| == |w| && |last.cells| >= 11
    requires forall k :: 0 <= k < |m| ==> |w[k].cells| >= 11 && m[k] == MatchOf(w[k].cells)
    ensures var m', w' := m + [MatchOf(last.cells)], w + [last];
            forall k :: 0 <= k < |m'| ==> |w'[k].cells| >= 11 && m'[k] == MatchOf(w'[k].cells)
  {
    var m', w' := m + [MatchOf(last.cells)], w + [last];
    forall k | 0 <= k < |m'|
      ensures |w'[k].cells| >= 11 && m'[k] == MatchOf(w'[k].cells)
    {
      if k < |m| {
        assert m'[k] == m[k] && w'[k] == w[k];
      } else {
        assert w'[k] == last;
      }
    }
  }


  predicate IsTable(n: Node) {
    n.Table?
  }

  predicate IsDivWithId(n: Node, id: string) {
    n.Div? && n.id == Some(id)
  }

  predicate IsHeadingWith(n: Node, name: string) {
    n.Heading? && Contains(n.text, name)
  }

  predicate HasDivWithId(nodes: seq<Node>, id: string) {
    exists i :: 0 <= i < |nodes| && IsDivWithId(nodes[i], id)
  }

  predicate HasHeadingWith(nodes: seq<Node>, name: string) {
    exists i :: 0 <= i < |nodes| && IsHeadingWith(nodes[i], name)
  }

  /** `d` is the first `div` whose id is the league code. */
  predicate IsFirstDiv(nodes: seq<Node>, code: string, d: int) {
    && 0 <= d < |nodes| && IsDivWithId(nodes[d], code)
    && forall j :: 0 <= j < d ==> !IsDivWithId(nodes[j], code)
  }

  /** `h` is the first `h2` whose text contains the league name. */
  predicate IsFirstHeading(nodes: seq<Node>, name: string, h: int) {
    && 0 <= h < |nodes| && IsHeadingWith(nodes[h], name)
    && forall j :: 0 <= j < h ==> !IsHeadingWith(nodes[j], name)
  }

  /** Some node at or after `from` is a table. */
  predicate HasTableFrom(nodes: seq<Node>, from: nat) {
    exists t :: from <= t < |nodes| && nodes[t].Table?
  }

  /** The two-step search for the schedule table: the first `div` whose id
      is the league code and the first table inside it; failing the div, the
      first `h2` whose text contains the league name and the first table
      after it in document order. */
  function ScheduleTable(doc: seq<Node>, leagueName: string, leagueCode: string): (r: Result<seq<Row>, ParseError>)
    ensures (r == Failure(SectionNotFound(leagueName)))
              <==> !HasDivWithId(Flatten(doc), leagueCode) && !HasHeadingWith(Flatten(doc), leagueName)
    ensures r.Success? ==> exists t :: 0 <= t < |Flatten(doc)| && Flatten(doc)[t].Table?
                                       && r.value == Flatten(doc)[t].rows
  {
    var nodes := Flatten(doc);
    match FirstWhere(nodes, (n: Node) => IsDivWithId(n, leagueCode), 0)
    case Some(d) =>
      var inner := Flatten(nodes[d].children);
      (match FirstWhere(inner, IsTable, 0)
       case Some(t) =>
         FlattenNested(doc, d);
         assert inner[t] in nodes;
         Success(inner[t].rows)
       case None => Failure(ScheduleTableNotFound))
    case None =>
      match FirstWhere(nodes, (n: Node) => IsHeadingWith(n, leagueName), 0)
      case None => Failure(SectionNotFound(leagueName))
      case Some(h) =>
        match FirstWhere(nodes, IsTable, h + 1)
        case Some(t) => Success(nodes[t].rows)
        case None => Failure(ScheduleTableNotFound)
  }

  /** "Schedule table not found." is raised exactly when the first div of
      the league holds no table, or, without that div, no table follows the
      first heading naming the league. */
  lemma ScheduleTableNotFoundIff(doc: seq<Node>, name: string, code: string)
    ensures var nodes := Flatten(doc);
            (ScheduleTable(doc, name, code) == Failure(ScheduleTableNotFound)) <==>
              || (exists d :: IsFirstDiv(nodes, code, d) && !HasTableFrom(Flatten(nodes[d].children), 0))
              || (&& !HasDivWithId(nodes, code)
                  && exists h :: IsFirstHeading(nodes, name, h) && !HasTableFrom(nodes, h + 1))
  {
    var nodes := Flatten(doc);
    match FirstWhere(nodes, (n: Node) => IsDivWithId(n, code), 0)
    case Some(d) =>
      assert IsFirstDiv(nodes, code, d);
      forall d' | IsFirstDiv(nodes, code, d') ensures d' == d {
      }
      var inner := Flatten(nodes[d].children);
      if FirstWhere(inner, IsTable, 0).Some? {
        assert HasTableFrom(inner, 0);
      } else {
        assert !HasTableFrom(inner, 0);
      }
    case None =>
      assert !HasDivWithId(nodes, code);
      match FirstWhere(nodes, (n: Node) => IsHeadingWith(n, name), 0)
      case None =>
        assert forall h :: !IsFirstHeading(nodes, name, h);
      case Some(h) =>
        assert IsFirstHeading(nodes, name, h);
        forall h' | IsFirstHeading(nodes, name, h') ensures h' == h {
        }
        if FirstWhere(nodes, IsTable, h + 1).Some? {
          assert HasTableFrom(nodes, h + 1);
        } else {
          assert !HasTableFrom(nodes, h + 1);
        }
  }

  /** When the league's div exists, the league name plays no part. */
  lemma DivWins(doc: seq<Node>, name1: string, name2: string, code: string)
    requires HasDivWithId(Flatten(doc), code)
    ensures ScheduleTable(doc, name1, code) == ScheduleTable(doc, name2, code)
  {
  }

  /** With the div, the first table inside the first such div is taken. */
  lemma DivFirstTable(doc: seq<Node>, name: string, code: string, d: nat, t: nat)
    requires IsFirstDiv(Flatten(doc), code, d)
    requires t < |Flatten(Flatten(doc)[d].children)|
    requires Flatten(Flatten(doc)[d].children)[t].Table?
    requires forall j :: 0 <= j < t ==> !Flatten(Flatten(doc)[d].children)[j].Table?
    ensures ScheduleTable(doc, name, code) == Success(Flatten(Flatten(doc)[d].children)[t].rows)
  {
    var nodes := Flatten(doc);
    var dd := FirstWhere(nodes, (n: Node) => IsDivWithId(n, code), 0);
    assert dd == Some(d);
    var inner := Flatten(nodes[d].children);
    var tt := FirstWhere(inner, IsTable, 0);
    assert tt == Some(t);
  }

  /** Without the div, the first heading naming the league is followed to
      the first table after it. */
  lemma HeadingFallback(doc: seq<Node>, name: string, code: string, h: nat, t: nat)
    requires !HasDivWithId(Flatten(doc), code)
    requires h < t < |Flatten(doc)|
    requires IsHeadingWith(Flatten(doc)[h], name)
    requires forall j :: 0 <= j < h ==> !IsHeadingWith(Flatten(doc)[j], name)
    requires Flatten(doc)[t].Table?
    requires forall j :: h < j < t ==> !Flatten(doc)[j].Table?
    ensures ScheduleTable(doc, name, code) == Success(Flatten(doc)[t].rows)
  {
    var nodes := Flatten(doc);
    var d := FirstWhere(nodes, (n: Node) => IsDivWithId(n, code), 0);
    assert d.None?;
    var hh := FirstWhere(nodes, (n: Node) => IsHeadingWith(n, name), 0);
    assert hh == Some(h);
    var tt := FirstWhere(nodes, IsTable, h + 1);
    assert tt == Some(t);
  }

  /** What `fetch_team_games` yields for a fetched page: the records of the
      rows after the header of the located table, or the location error. */
  function TeamGames(doc: seq<Node>, leagueName: string, leagueCode: string): Result<seq<Match>, ParseError> {
    match ScheduleTable(doc, leagueName, leagueCode)
    case Failure(e) => Failure(e)
    case Success(rows) => Success(Matches(Tail(rows)))
  }

  /** `fetch_team_games` on a fetched page, row by row as the source does it. */
  method FetchTeamGames(doc: seq<Node>, leagueName: string, leagueCode: string)
    returns (r: Result<seq<Match>, ParseError>)
    ensures r.Failure? <==> ScheduleTable(doc, leagueName, leagueCode).Failure?
    ensures r == TeamGames(doc, leagueName, leagueCode)
  {
    var table := ScheduleTable(doc, leagueName, leagueCode);
    if table.Failure? {
      return Failure(table.error);
    }
    var data := MatchRows(Tail(table.value));
    return Success(data);
  }

  /** The loop of `fetch_team_games` over the rows after the header. */
  method MatchRows(rows: seq<Row>) returns (data: seq<Match>)
    ensures data == Matches(rows)
  {
    data := [];
    var i := 0;
    while i < |rows|
      invariant 0 <= i <= |rows|
      invariant data == Matches(rows[..i])
    {
      MatchesStep(rows, i);
      if |rows[i].cells| >= 11 {
        data := data + [MatchOf(rows[i].cells)];
      }
      i := i + 1;
    }
    assert rows[..i] == rows;
  }

  /** One more row adds its record when it is wide enough. */
  lemma MatchesStep(rows: seq<Row>, i: nat)
    requires i < |rows|
    ensures Matches(rows[..i + 1]) ==
              Matches(rows[..i]) + (if |rows[i].cells| >= 11 then [MatchOf(rows[i].cells)] else [])
  {
    assert rows[..i + 1][..i] == rows[..i];
  }
}

=== FILE: processors.dfy ===
/** src/pre_processor/processors.py: the per-season summary of a standings
    file and its team game files, and the complete standings table built
    from every standings file. A directory walk becomes the sequence of
    files it finds, in the order it finds them; `generate_id` (SHA-256 in
    hexadecimal) is the parameter `hash`. */
module Processors {
  import opened Wrappers
  import opened Text
  import opened Sanitize
  import opened Frames
  import opened Metadata
  import opened Dedup
  import Document

  // ---------------------------------------------------------------------
  // Consolidating the team game files

  /** Two game rows are the same game when these four cells agree. */
  function GameKey(r: Record): seq<Value> {
    [Get(r, "date"), Get(r, "home_team"), Get(r, "away_team"), Get(r, "result")]
  }

  /** The key columns `drop_duplicates` is asked for. */
  predicate HasKeyColumns(columns: set<string>) {
    "date" in columns && "home_team" in columns && "away_team" in columns && "result" in columns
  }

  /** The frames kept by the loading loop: readable and not empty. Every
      reading error is logged and the file skipped. */
  function GameFrames(files: seq<CsvFile>): (fs: seq<Frame>)
    ensures forall f :: f in fs ==> !IsEmpty(f)
    ensures forall f :: f in fs <==> exists i :: 0 <= i < |files| && files[i].contents == Parsed(f) && !IsEmpty(f)
  {
    if files == [] then []
    else
      var init := files[..|files| - 1];
      var last := files[|files| - 1];
      assert forall i :: 0 <= i < |init| ==> init[i] == files[i];
      GameFrames(init) + (if last.contents.Parsed? && !IsEmpty(last.contents.frame) then [last.contents.frame] else [])
  }

  /** `pd.concat`: the rows of every frame, in order. */
  function AllRows(fs: seq<Frame>): (rows: seq<Record>)
    ensures forall r :: r in rows <==> exists i :: 0 <= i < |fs| && r in fs[i].rows
  {
    if fs == [] then []
    else
      var init := fs[..|fs| - 1];
      assert forall i :: 0 <= i < |init| ==> init[i] == fs[i];
      AllRows(init) + fs[|fs| - 1].rows
  }

  /** The columns of a concatenation: every column of any frame. */
  function ColumnUnion(fs: seq<Frame>): (cs: set<string>)
    ensures forall c :: c in cs <==> exists i :: 0 <= i < |fs| && c in fs[i].columns
  {
    set i, c | 0 <= i < |fs| && c in fs[i].columns :: c
  }

  /** What `_load_and_consolidate_games` gives: no game frame at all
      (`None`), the `KeyError` of `drop_duplicates` when a key column is in
      no frame, or the distinct games and the columns they have. */
  datatype Consolidated =
    | NoGames
    | KeyColumnsMissing
    | Distinct(columns: set<string>, games: seq<Record>)

  function Consolidate(files: seq<CsvFile>): (r: Consolidated)
    ensures r.NoGames? <==> forall i :: 0 <= i < |files| ==> !files[i].contents.Parsed? || IsEmpty(files[i].contents.frame)
    ensures r.KeyColumnsMissing? <==> GameFrames(files) != [] && !HasKeyColumns(ColumnUnion(GameFrames(files)))
    ensures r.Distinct? ==> HasKeyColumns(r.columns) && |r.games| >= 1
    ensures r.Distinct? ==> r.columns == ColumnUnion(GameFrames(files))
    ensures r.Distinct? ==> r.games == FirstOfEachKey(AllRows(GameFrames(files)), GameKey)
  {
    var fs := GameFrames(files);
    if fs == [] then NoGames
    else
      assert fs[0] in fs;
      var columns := ColumnUnion(fs);
      if !HasKeyColumns(columns) then KeyColumnsMissing
      else
        var rows := AllRows(fs);
        assert fs[0].rows[0] in rows;
        FirstOccurrenceKept(rows, GameKey, 0);
        Distinct(columns, FirstOfEachKey(rows, GameKey))
  }

  /** The consolidated games are the distinct games: no two share a key,
      there is one per key of the loaded rows, and every loaded game is
      represented. */
  lemma ConsolidatedGamesDistinct(files: seq<CsvFile>)
    requires Consolidate(files).Distinct?
    ensures var all := AllRows(GameFrames(files));
            var games := Consolidate(files).games;
            && (forall i, j :: 0 <= i < j < |games| ==> GameKey(games[i]) != GameKey(games[j]))
            && |games| == |KeySet(all, GameKey)|
            && (forall r :: r in all ==> exists k :: 0 <= k < |games| && GameKey(games[k]) == GameKey(r))
  {
    var all := AllRows(GameFrames(files));
    KeptKeysDistinct(all, GameKey);
    KeptCountIsKeyCount(all, GameKey);
    KeysKept(all, GameKey);
  }

  // ---------------------------------------------------------------------
  // The season summary

  /** After `fillna(0)`, `audience == 0` holds for an empty cell, a zero,
      and `False` (which Python compares equal to 0). */
  predicate IsNullAudience(v: Value) {
    v == Missing || v == Int(0) || v == Bool(false)
  }

  /** The positions of the games whose attendance is null. */
  function NullGames(games: seq<Record>): (ix: set<int>)
    ensures forall i :: i in ix <==> 0 <= i < |games| && IsNullAudience(Get(games[i], "audience"))
  {
    set i | 0 <= i < |games| && IsNullAudience(Get(games[i], "audience"))
  }

  /** The null games of a sequence are those of its prefix, and its last
      game when that one is null. */
  lemma NullGamesSnoc(games: seq<Record>)
    requires games != []
    ensures var n := |games| - 1;
            NullGames(games)
            == NullGames(games[..n]) + (if IsNullAudience(Get(games[n], "audience")) then {n} else {})
    ensures |games| - 1 !in NullGames(games[..|games| - 1])
  {
    var n := |games| - 1;
    var init := games[..n];
    assert forall i :: 0 <= i < n ==> init[i] == games[i];
  }

  /** `(audience == 0).sum()`: how many games have a null attendance. */
  function NullAudienceCount(games: seq<Record>): (n: nat)
    ensures n == |NullGames(games)|
    ensures n <= |games|
  {
    if games == [] then
      assert NullGames(games) == {};
      0
    else
      var k := |games| - 1;
      NullGamesSnoc(games);
      NullAudienceCount(games[..k])
      + (if IsNullAudience(Get(games[k], "audience")) then 1 else 0)
  }

  /** The dictionary `process_season_data` returns. `pctNullAttendanceGames`
      is the exact ratio, before `round(…, 2)`. */
  datatype Summary = Summary(
    sourceId: string,
    sourceCsvFile: string,
    leagueName: string,
    seasonYear: int,
    hasAllTeamsFiles: bool,
    numTotalTeams: nat,
    numTotalGames: nat,
    numNullAttendanceGames: nat,
    pctNullAttendanceGames: real,
    isValidUrl: bool,
    isDoubleRounded: bool,
    isValidAttendance: bool)

  /** The league and season a file name gives, whichever pattern matched. */
  function LeagueOf(info: FileInfo): string {
    match info
    case StandingsInfo(league, _) => league
    case GamesInfo(league, _, _) => league
  }

  function SeasonOf(info: FileInfo): int {
    match info
    case StandingsInfo(_, season) => season
    case GamesInfo(_, season, _) => season
  }

  /** Every team URL of the standings carries a season not after `season`. */
  predicate AllUrlsValid(rows: seq<Record>, season: int) {
    forall i :: 0 <= i < |rows| ==> ValidateUrlYear(Get(rows[i], "team_url"), season)
  }

  /** `part` as a percentage of `whole`, and 0 of nothing. */
  function Percent(part: nat, whole: nat): real {
    if whole == 0 then 0.0 else 100.0 * (part as real) / (whole as real)
  }

  /** The metrics of step 3 and the dictionary of step 4, once the
      standings rows and the distinct games are known. */
  function Summarize(name: string, info: FileInfo, rows: seq<Record>, files: seq<CsvFile>,
                     games: seq<Record>, hash: string -> string): (s: Summary)
    ensures s.sourceId == hash(name) && s.sourceCsvFile == name
    ensures s.leagueName == LeagueOf(info) && s.seasonYear == SeasonOf(info)
    ensures s.numTotalTeams == |rows| && s.numTotalGames == |games|
    ensures s.isValidUrl <==> AllUrlsValid(rows, SeasonOf(info))
    ensures s.hasAllTeamsFiles <==> |files| == |rows|
    ensures s.numNullAttendanceGames == |NullGames(games)| <= s.numTotalGames
    ensures s.isDoubleRounded <==> |games| == |rows| * (|rows| - 1)
    ensures 0.0 <= s.pctNullAttendanceGames <= 100.0
    ensures s.pctNullAttendanceGames == Percent(s.numNullAttendanceGames, s.numTotalGames)
    ensures s.isValidAttendance <==> |games| == 0 || 20 * s.numNullAttendanceGames < |games|
  {
    var numTeams := |rows|;
    var numGames := |games|;
    var numNull := NullAudienceCount(games);
    var pct := if numGames > 0 then (numNull as real / numGames as real) * 100.0 else 0.0;
    AttendanceThreshold(numNull, numGames);
    Summary(
      hash(name), name, LeagueOf(info), SeasonOf(info),
      |files| == numTeams, numTeams, numGames, numNull, pct,
      AllUrlsValid(rows, SeasonOf(info)), numGames == numTeams * (numTeams - 1), pct < 5.0)
  }

  /** `process_season_data`. `teamGames` is the `team_games` directory
      beside the standings directory: `None` when it does not exist,
      otherwise every `*.csv` file in it. Every exception the body can raise
      ends in `None`. */
  function ProcessSeasonData(standings: CsvFile, teamGames: Option<seq<CsvFile>>, hash: string -> string)
    : (r: Option<Summary>)
    ensures r.Some? <==>
              && ExtractMetadata(Stem(standings.name)).Success?
              && standings.contents.Parsed?
              && !IsEmpty(standings.contents.frame)
              && "team_url" in standings.contents.frame.columns
              && teamGames.Some?
              && Consolidate(teamGames.value).Distinct?
              && "audience" in Consolidate(teamGames.value).columns
  {
    match ExtractMetadata(Stem(standings.name))
    case Failure(_) => None
    case Success(info) =>
      match standings.contents
      case Unreadable(_) => None
      case Parsed(frame) =>
        if IsEmpty(frame) || "team_url" !in frame.columns then None
        else
          match teamGames
          case None => None
          case Some(files) =>
            match Consolidate(files)
            case NoGames => None
            case KeyColumnsMissing => None
            case Distinct(columns, games) =>
              if "audience" !in columns then None
              else Some(Summarize(standings.name, info, frame.rows, files, games, hash))
  }

  /** What a summary says about its season: the teams are the standings
      rows, the URL check covers every row, the games are the distinct keys
      of every loaded game row, and the flags are the source's comparisons
      in integers. */
  lemma SeasonSummary(standings: CsvFile, teamGames: Option<seq<CsvFile>>, hash: string -> string)
    requires ProcessSeasonData(standings, teamGames, hash).Some?
    ensures var s := ProcessSeasonData(standings, teamGames, hash).value;
            var rows := standings.contents.frame.rows;
            var info := ExtractMetadata(Stem(standings.name)).value;
            && standings.contents.Parsed? && teamGames.Some?
            && s.sourceId == hash(standings.name) && s.sourceCsvFile == standings.name
            && s.leagueName == LeagueOf(info) && s.seasonYear == SeasonOf(info)
            && s.numTotalTeams == |rows| >= 1
            && (s.isValidUrl <==> AllUrlsValid(rows, s.seasonYear))
            && (s.hasAllTeamsFiles <==> |teamGames.value| == |rows|)
            && s.numTotalGames == |KeySet(AllRows(GameFrames(teamGames.value)), GameKey)| >= 1
            && s.numNullAttendanceGames <= s.numTotalGames
            && (s.isDoubleRounded <==> s.numTotalGames == s.numTotalTeams * (s.numTotalTeams - 1))
            && 0.0 <= s.pctNullAttendanceGames <= 100.0
            && (s.isValidAttendance <==> 20 * s.numNullAttendanceGames < s.numTotalGames)
  {
    var info := ExtractMetadata(Stem(standings.name)).value;
    var files := teamGames.value;
    var c := Consolidate(files);
    assert ProcessSeasonData(standings, teamGames, hash)
           == Some(Summarize(standings.name, info, standings.contents.frame.rows, files, c.games, hash));
    KeptCountIsKeyCount(AllRows(GameFrames(files)), GameKey);
  }

  /** A season that yields a summary yields the summary of its standings
      rows and its distinct games, of which there is at least one. */
  lemma SummaryOfSeason(standings: CsvFile, teamGames: Option<seq<CsvFile>>, hash: string -> string)
    requires ProcessSeasonData(standings, teamGames, hash).Some?
    ensures && standings.contents.Parsed? && teamGames.Some?
            && ExtractMetadata(Stem(standings.name)).Success?
            && Consolidate(teamGames.value).Distinct?
            && |Consolidate(teamGames.value).games| > 0
            && ProcessSeasonData(standings, teamGames, hash).value
               == Summarize(standings.name, ExtractMetadata(Stem(standings.name)).value,
                            standings.contents.frame.rows, teamGames.value,
                            Consolidate(teamGames.value).games, hash)
  {
    var info := ExtractMetadata(Stem(standings.name)).value;
    var files := teamGames.value;
    var c := Consolidate(files);
    assert ProcessSeasonData(standings, teamGames, hash)
           == Some(Summarize(standings.name, info, standings.contents.frame.rows, files, c.games, hash));
  }

  /** The attendance figures of a summary: the null games are the distinct
      games whose filled audience is 0, and the percentage is their share
      of all distinct games, times 100. */
  lemma SeasonAttendance(standings: CsvFile, teamGames: Option<seq<CsvFile>>, hash: string -> string)
    requires ProcessSeasonData(standings, teamGames, hash).Some?
    ensures var s := ProcessSeasonData(standings, teamGames, hash).value;
            && teamGames.Some? && Consolidate(teamGames.value).Distinct?
            && s.numTotalGames == |Consolidate(teamGames.value).games| > 0
            && s.numNullAttendanceGames == |NullGames(Consolidate(teamGames.value).games)|
            && s.pctNullAttendanceGames == Percent(s.numNullAttendanceGames, s.numTotalGames)
  {
    SummaryOfSeason(standings, teamGames, hash);
    var s := ProcessSeasonData(standings, teamGames, hash).value;
    assert s.numTotalGames > 0;
  }

  /** The 5% attendance threshold in integers, and the percentage bounds. */
  lemma AttendanceThreshold(nulls: nat, games: nat)
    requires nulls <= games
    ensures 0 < games ==>
            var pct := (nulls as real / games as real) * 100.0;
            && pct == 100.0 * (nulls as real) / (games as real)
            && 0.0 <= pct <= 100.0
            && (pct < 5.0 <==> 20 * nulls < games)
  {
    if games == 0 { return; }
    var g := games as real;
    var n := nulls as real;
    assert 20.0 * n == (20 * nulls) as real;
    RatioBounds(n, g);
  }

  /** Of a hundred games, four without attendance are 4% and pass the
      threshold, six are 6% and fail it. */
  lemma AttendanceExample(name: string, info: FileInfo, rows: seq<Record>, files: seq<CsvFile>,
                          games: seq<Record>, hash: string -> string)
    requires |games| == 100
    requires |NullGames(games)| == 4 || |NullGames(games)| == 6
    ensures var s := Summarize(name, info, rows, files, games, hash);
            && (|NullGames(games)| == 4 ==> s.pctNullAttendanceGames == 4.0 && s.isValidAttendance)
            && (|NullGames(games)| == 6 ==> s.pctNullAttendanceGames == 6.0 && !s.isValidAttendance)
  {
    var s := Summarize(name, info, rows, files, games, hash);
  }

  /** The percentage and its threshold over the reals. */
  lemma RatioBounds(n: real, g: real)
    requires 0.0 <= n <= g && 0.0 < g
    ensures (n / g) * 100.0 == 100.0 * n / g
    ensures 0.0 <= (n / g) * 100.0 <= 100.0
    ensures (n / g) * 100.0 < 5.0 <==> 20.0 * n < g
  {
    var q := n / g;
    assert q * g == n;
    if q * 100.0 < 5.0 {
      assert (0.05 - q) * g > 0.0;
    } else {
      assert (q - 0.05) * g >= 0.0;
    }
  }

  /** The summary counts the games that a single pass dropping repeated
      keys keeps. */
  method SeasonGameCount(files: seq<CsvFile>) returns (count: Option<nat>)
    ensures count.None? <==> !Consolidate(files).Distinct?
    ensures count.Some? ==> count.value == |Consolidate(files).games|
  {
    var fs := GameFrames(files);
    if fs == [] || !HasKeyColumns(ColumnUnion(fs)) {
      return None;
    }
    var kept := DropDuplicates(AllRows(fs), GameKey);
    return Some(|kept|);
  }

  // ---------------------------------------------------------------------
  // The complete standings table

  /** The columns of the complete table, in order. */
  const FinalSchema: seq<string> := [
    "position", "team", "team_sanitized", "played", "won", "drawn", "lost",
    "goal_ratio", "goal_difference", "points", "team_url", "league_name",
    "season_year", "source_csv_file", "source_id", "id"]

  /** The columns the enrichment adds, in order. */
  const AddedColumns: seq<string> := [
    "team_sanitized", "league_name", "season_year", "source_csv_file", "source_id", "id"]

  /** A number in decimal notation: its integer part, and whether a
      non-zero fraction follows it. */
  datatype Decimal = Decimal(whole: int, fractional: bool)

  predicate IsPoint(c: char) {
    c == '.'
  }

  /** Some digit of `f` is not `0`. */
  predicate NonZeroFraction(f: string) {
    exists k :: 0 <= k < |f| && f[k] != '0'
  }

  /** What `pd.to_numeric` reads from a text cell in decimal notation:
      surrounding whitespace, an optional sign, digits, and optionally a
      point and more digits, with at least one digit in all. */
  function ParseDecimal(s: string): (r: Option<Decimal>)
    ensures r.Some? ==> Strip(s) != []
    ensures r.Some? && r.value.fractional ==> Contains(Strip(s), ".")
  {
    var t := Strip(s);
    var signed := |t| > 0 && (t[0] == '+' || t[0] == '-');
    var body := if signed then t[1..] else t;
    var sign := if signed && t[0] == '-' then -1 else 1;
    match Document.FirstWhere(body, IsPoint, 0)
    case None =>
      if body != [] && AllDigits(body) then Some(Decimal(sign * DigitsValue(body), false)) else None
    case Some(k) =>
      var w, f := body[..k], body[k + 1..];
      if |w| + |f| > 0 && AllDigits(w) && AllDigits(f) then
        assert OccursAt(t, ".", if signed then k + 1 else k);
        Some(Decimal(sign * DigitsValue(w), NonZeroFraction(f)))
      else None
  }

  /** Decimal notation extends `int`: an integer string reads as the same
      number, with no fraction. */
  lemma ParseDecimalOfInt(s: string)
    requires ParseInt(s).Some?
    ensures ParseDecimal(s) == Some(Decimal(ParseInt(s).value, false))
  {
    var t := Strip(s);
    var signed := |t| > 0 && (t[0] == '+' || t[0] == '-');
    var body := if signed then t[1..] else t;
    assert AllDigits(body);
    assert Document.FirstWhere(body, IsPoint, 0).None?;
  }

  /** `pd.to_numeric(errors="coerce").astype("Int64")` on one cell: an
      integer stays, a boolean becomes 0 or 1, a decimal string without a
      fraction becomes its integer, and other text becomes missing. `None`
      is the `TypeError` the cast raises for a number with a non-zero
      fraction. */
  function NumericPosition(v: Value): (r: Option<Value>)
    ensures r.None? <==> v.Str? && ParseDecimal(v.s).Some? && ParseDecimal(v.s).value.fractional
    ensures r.Some? ==> r.value.Missing? || r.value.Int?
    ensures v.Int? || v.Missing? ==> r == Some(v)
    ensures v.Str? && ParseDecimal(v.s).None? ==> r == Some(Missing)
  {
    match v
    case Missing => Some(Missing)
    case Int(_) => Some(v)
    case Bool(b) => Some(Int(if b then 1 else 0))
    case Str(s) =>
      match ParseDecimal(s)
      case None => Some(Missing)
      case Some(d) => if d.fractional then None else Some(Int(d.whole))
  }

  /** An integer string keeps its value. */
  lemma NumericPositionOfInt(s: string)
    requires ParseInt(s).Some?
    ensures NumericPosition(Str(s)) == Some(Int(ParseInt(s).value))
  {
    ParseDecimalOfInt(s);
  }

  /** Digits, a point and digits read as the integer part and a flag for
      a non-zero fraction. */
  lemma ParseDecimalPoint(d: string, f: string)
    requires d != [] && AllDigits(d) && AllDigits(f)
    ensures ParseDecimal(d + "." + f) == Some(Decimal(DigitsValue(d), NonZeroFraction(f)))
  {
    var s := d + "." + f;
    assert s[0] == d[0] && !IsSpace(s[0]);
    assert !IsSpace(s[|s| - 1]) by {
      if f == [] { assert s[|s| - 1] == '.'; } else { assert s[|s| - 1] == f[|f| - 1]; }
    }
    StripNoSpaceEnds(s);
    assert !(s[0] == '+' || s[0] == '-');
    assert forall j :: 0 <= j < |d| ==> s[j] == d[j];
    var r := Document.FirstWhere(s, IsPoint, 0);
    assert IsPoint(s[|d|]);
    assert r.Some? && r.value == |d|;
    assert s[..|d|] == d && s[|d| + 1..] == f;
  }

  /** A position written `d.0…0` is the integer `d`; one written with a
      non-zero fraction makes the cast raise. */
  lemma NumericPositionOfDecimal(d: string, f: string)
    requires d != [] && AllDigits(d) && AllDigits(f)
    ensures NonZeroFraction(f) ==> NumericPosition(Str(d + "." + f)).None?
    ensures !NonZeroFraction(f) ==> NumericPosition(Str(d + "." + f)) == Some(Int(DigitsValue(d)))
  {
    ParseDecimalPoint(d, f);
  }

  /** Every position of the frame survives the cast. */
  predicate PositionsCast(frame: Frame) {
    forall i :: 0 <= i < |frame.rows| ==> NumericPosition(Get(frame.rows[i], "position")).Some?
  }

  /** The facts that tie an enriched row to its identifiers: a safe
      sanitised team name, and ids that hash the file name and the team
      joined with the file name. */
  predicate IdsConsistent(r: Record, hash: string -> string) {
    && Get(r, "team_sanitized").Str? && AllSafe(Get(r, "team_sanitized").s)
    && Get(r, "source_csv_file").Str?
    && Get(r, "source_id") == Str(hash(Get(r, "source_csv_file").s))
    && Get(r, "id") == Str(hash(Get(r, "team_sanitized").s + "_" + Get(r, "source_csv_file").s))
  }

  /** One row enriched with the metadata of its file. */
  function EnrichRow(row: Record, info: FileInfo, name: string, hash: string -> string): (r: Record)
    ensures IdsConsistent(r, hash)
    ensures Get(r, "team_sanitized") == Str(SanitizeFilename(CellText(Get(row, "team"))))
    ensures Get(r, "source_csv_file") == Str(name)
    ensures Get(r, "league_name") == Str(LeagueOf(info)) && Get(r, "season_year") == Int(SeasonOf(info))
    ensures NumericPosition(Get(row, "position")).Some? ==>
              Get(r, "position") == NumericPosition(Get(row, "position")).value
    ensures forall c :: c !in AddedColumns && c != "position" ==> Get(r, c) == Get(row, c)
  {
    var team := SanitizeFilename(CellText(Get(row, "team")));
    row["team_sanitized" := Str(team)]
       ["league_name" := Str(LeagueOf(info))]
       ["season_year" := Int(SeasonOf(info))]
       ["source_csv_file" := Str(name)]
       ["source_id" := Str(hash(name))]
       ["id" := Str(hash(team + "_" + name))]
       ["position" := NumericPosition(Get(row, "position")).GetOr(Missing)]
  }

  function EnrichRows(rows: seq<Record>, info: FileInfo, name: string, hash: string -> string): (rs: seq<Record>)
    ensures |rs| == |rows|
    ensures forall i :: 0 <= i < |rs| ==> rs[i] == EnrichRow(rows[i], info, name, hash)
  {
    seq(|rows|, (i: int) requires 0 <= i < |rows| => EnrichRow(rows[i], info, name, hash))
  }

  /** `cols` with each of `extra` appended that it lacks. */
  function WithColumns(cols: seq<string>, extra: seq<string>): (r: seq<string>)
    ensures forall c :: c in r <==> c in cols || c in extra
    decreases |extra|
  {
    if extra == [] then cols
    else
      var next := if extra[0] in cols then cols else cols + [extra[0]];
      WithColumns(next, extra[1..])
  }

  /** The enriched frame of an accepted file. */
  function EnrichFrame(frame: Frame, info: FileInfo, name: string, hash: string -> string): (f: Frame)
    ensures forall c :: c in f.columns <==> c in frame.columns || c in AddedColumns
    ensures |f.rows| == |frame.rows|
    ensures forall i :: 0 <= i < |f.rows| ==> IdsConsistent(f.rows[i], hash)
    ensures forall i :: 0 <= i < |f.rows| ==> Get(f.rows[i], "source_csv_file") == Str(name)
  {
    Frame(WithColumns(frame.columns, AddedColumns), EnrichRows(frame.rows, info, name, hash))
  }

  /** One pass of the loop of `create_standings_complete`: the enriched
      frame, or `None` when the body raises (a read error, a name neither
      pattern matches, no `team` or `position` column) or the frame is
      empty. */
  function EnrichFile(file: CsvFile, hash: string -> string): (r: Option<Frame>)
    ensures r.Some? <==>
              && file.contents.Parsed?
              && !IsEmpty(file.contents.frame)
              && ExtractMetadata(Stem(file.name)).Success?
              && "team" in file.contents.frame.columns
              && "position" in file.contents.frame.columns
              && PositionsCast(file.contents.frame)
    ensures r.Some? ==> |r.value.rows| == |file.contents.frame.rows|
    ensures r.Some? ==> forall i :: 0 <= i < |r.value.rows| ==> IdsConsistent(r.value.rows[i], hash)
  {
    match file.contents
    case Unreadable(_) => None
    case Parsed(frame) =>
      if IsEmpty(frame) then None
      else match ExtractMetadata(Stem(file.name))
        case Failure(_) => None
        case Success(info) =>
          if "team" !in frame.columns || "position" !in frame.columns || !PositionsCast(frame) then None
          else Some(EnrichFrame(frame, info, file.name, hash))
  }

  /** A file with a position such as `3.5` is skipped whole. */
  lemma FractionalPositionSkipsFile(file: CsvFile, hash: string -> string, i: nat, d: string, f: string)
    requires file.contents.Parsed? && i < |file.contents.frame.rows|
    requires d != [] && AllDigits(d) && AllDigits(f) && NonZeroFraction(f)
    requires Get(file.contents.frame.rows[i], "position") == Str(d + "." + f)
    ensures EnrichFile(file, hash).None?
  {
    NumericPositionOfDecimal(d, f);
  }

  /** The loop logs the file and moves on: `EnrichFile` gives nothing. */
  predicate Skipped(file: CsvFile, hash: string -> string) {
    EnrichFile(file, hash).None?
  }

  /** The frames appended to `all_standings_dfs`, in order. Which frames
      they are is stated in AcceptedFramesOf. */
  function AcceptedFrames(files: seq<CsvFile>, hash: string -> string): (fs: seq<Frame>)
    ensures forall i :: 0 <= i < |fs| ==> forall j :: 0 <= j < |fs[i].rows| ==> IdsConsistent(fs[i].rows[j], hash)
    ensures |fs| <= |files|
  {
    if files == [] then []
    else
      AcceptedFrames(files[..|files| - 1], hash)
      + (match EnrichFile(files[|files| - 1], hash) case Some(f) => [f] case None => [])
  }

  /** Nothing is appended exactly when every file is skipped, and the
      frames appended are exactly the enriched frames of the files that are
      not. */
  lemma {:induction false} AcceptedFramesOf(files: seq<CsvFile>, hash: string -> string)
    ensures AcceptedFrames(files, hash) == [] <==> forall i :: 0 <= i < |files| ==> Skipped(files[i], hash)
    ensures forall f :: f in AcceptedFrames(files, hash) <==> Enriches(files, hash, f)
  {
    if files != [] {
      var init := files[..|files| - 1];
      AcceptedFramesOf(init, hash);
      AcceptedSnoc(files, init, hash);
      var last := EnrichFile(files[|files| - 1], hash);
      if last.None? {
        assert Skipped(files[|files| - 1], hash);
      }
      forall f ensures f in AcceptedFrames(files, hash) <==> Enriches(files, hash, f) {
        EnrichesSnoc(files, init, hash, f);
      }
    }
  }

  /** The loop appends `f` for `file`. */
  predicate EnrichesTo(file: CsvFile, hash: string -> string, f: Frame) {
    EnrichFile(file, hash) == Some(f)
  }

  /** Some file of `files` enriches to `f`. */
  predicate Enriches(files: seq<CsvFile>, hash: string -> string, f: Frame) {
    exists i :: 0 <= i < |files| && EnrichesTo(files[i], hash, f)
  }

  /** A file of `files` enriches to `f` exactly when one of its prefix
      does or its last one does. */
  lemma {:induction false} EnrichesSnoc(files: seq<CsvFile>, init: seq<CsvFile>, hash: string -> string, f: Frame)
    requires files != [] && init == files[..|files| - 1]
    ensures Enriches(files, hash, f) <==> Enriches(init, hash, f) || EnrichesTo(files[|files| - 1], hash, f)
  {
    if Enriches(files, hash, f) {
      EnrichesSplit(files, init, hash, f);
    }
    if Enriches(init, hash, f) {
      EnrichesGrow(files, init, hash, f);
    }
    if EnrichesTo(files[|files| - 1], hash, f) {
      EnrichesWitness(files, hash, f, |files| - 1);
    }
  }

  /** A witness in the prefix is one in `files`. */
  lemma {:induction false} EnrichesGrow(files: seq<CsvFile>, init: seq<CsvFile>, hash: string -> string, f: Frame)
    requires files != [] && init == files[..|files| - 1]
    requires Enriches(init, hash, f)
    ensures Enriches(files, hash, f)
  {
    var i :| 0 <= i < |init| && EnrichesTo(init[i], hash, f);
    SameFile(files, init, hash, f, i);
    EnrichesWitness(files, hash, f, i);
  }

  /** A witness in `files` lies in its prefix or is its last file. */
  lemma {:induction false} EnrichesSplit(files: seq<CsvFile>, init: seq<CsvFile>, hash: string -> string, f: Frame)
    requires files != [] && init == files[..|files| - 1]
    requires Enriches(files, hash, f)
    ensures Enriches(init, hash, f) || EnrichesTo(files[|files| - 1], hash, f)
  {
    var i :| 0 <= i < |files| && EnrichesTo(files[i], hash, f);
    if i < |init| {
      SameFile(files, init, hash, f, i);
      EnrichesWitness(init, hash, f, i);
    } else {
      assert i == |files| - 1;
    }
  }

  /** The prefix's i-th file is the i-th file. */
  lemma {:induction false} SameFile(files: seq<CsvFile>, init: seq<CsvFile>, hash: string -> string, f: Frame, i: int)
    requires files != [] && init == files[..|files| - 1] && 0 <= i < |init|
    ensures EnrichesTo(files[i], hash, f) <==> EnrichesTo(init[i], hash, f)
  {
    assert init[i] == files[i];
  }

  /** The i-th file is a witness. */
  lemma {:induction false} EnrichesWitness(files: seq<CsvFile>, hash: string -> string, f: Frame, i: int)
    requires 0 <= i < |files| && EnrichesTo(files[i], hash, f)
    ensures Enriches(files, hash, f)
  {
  }

  /** The files of `files` are its prefix and its last file. */
  lemma {:induction false} AcceptedSnoc(files: seq<CsvFile>, init: seq<CsvFile>, hash: string -> string)
    requires files != [] && init == files[..|files| - 1]
    ensures (forall i :: 0 <= i < |files| ==> Skipped(files[i], hash))
            <==> (forall i :: 0 <= i < |init| ==> Skipped(init[i], hash)) && Skipped(files[|files| - 1], hash)
  {
    if forall i :: 0 <= i < |init| ==> Skipped(init[i], hash) {
      if Skipped(files[|files| - 1], hash) {
        forall i | 0 <= i < |files| ensures Skipped(files[i], hash) {
          if i < |init| {
            assert files[i] == init[i];
          } else {
            assert i == |files| - 1;
          }
        }
      }
    }
    if forall i :: 0 <= i < |files| ==> Skipped(files[i], hash) {
      forall i | 0 <= i < |init| ensures Skipped(init[i], hash) {
        assert init[i] == files[i];
      }
    }
  }

  /** How many rows a sequence of frames holds. */
  function RowCount(fs: seq<Frame>): nat {
    if fs == [] then 0 else RowCount(fs[..|fs| - 1]) + |fs[|fs| - 1].rows|
  }

  lemma {:induction false} AllRowsCount(fs: seq<Frame>)
    ensures |AllRows(fs)| == RowCount(fs)
  {
    if fs != [] {
      AllRowsCount(fs[..|fs| - 1]);
    }
  }

  /** The rename of the `draw` column to `drawn`, seen from one row: after
      `pd.concat` every row has every column, so the renamed cell is the
      row's `draw` cell, missing when its frame had none. */
  function RenameDraw(r: Record): (r': Record)
    ensures "draw" !in r'
    ensures Get(r', "drawn") == Get(r, "draw")
    ensures forall c :: c != "draw" && c != "drawn" ==> Get(r', c) == Get(r, c)
  {
    (r - {"draw"})["drawn" := Get(r, "draw")]
  }

  /** `reindex(columns=FinalSchema)` of one row. */
  function Reindex(r: Record): (r': Record)
    ensures r'.Keys == set c | c in FinalSchema
    ensures forall c :: c in FinalSchema ==> r'[c] == Get(r, c)
  {
    map c | c in FinalSchema :: Get(r, c)
  }

  /** Whether the `draw` column is renamed: it exists and `drawn` does not. */
  predicate RenamesDraw(columns: set<string>) {
    "draw" in columns && "drawn" !in columns
  }

  /** One row of the complete table. */
  function CompleteRow(r: Record, rename: bool): (r': Record)
    ensures r'.Keys == set c | c in FinalSchema
    ensures r'["drawn"] == (if rename then Get(r, "draw") else Get(r, "drawn"))
    ensures forall c :: c in FinalSchema && c != "drawn" ==> r'[c] == Get(r, c)
  {
    assert "drawn" in FinalSchema && "draw" !in FinalSchema;
    Reindex(if rename then RenameDraw(r) else r)
  }

  /** The identifier columns survive the rename and the reindex. */
  lemma CompleteRowKeepsIds(r: Record, rename: bool, hash: string -> string)
    requires IdsConsistent(r, hash)
    ensures IdsConsistent(CompleteRow(r, rename), hash)
  {
    var out := CompleteRow(r, rename);
    assert "team_sanitized" in FinalSchema && "team_sanitized" != "drawn";
    assert "source_csv_file" in FinalSchema && "source_csv_file" != "drawn";
    assert "source_id" in FinalSchema && "source_id" != "drawn";
    assert "id" in FinalSchema && "id" != "drawn";
  }

  /** `create_standings_complete`: an empty frame when no file is accepted,
      otherwise every accepted row, renamed and reindexed to the final
      schema. */
  function CreateStandingsComplete(files: seq<CsvFile>, hash: string -> string): (r: Frame)
    ensures AcceptedFrames(files, hash) == [] <==> r == Frame([], [])
    ensures AcceptedFrames(files, hash) != [] ==> r.columns == FinalSchema
    ensures |r.rows| == RowCount(AcceptedFrames(files, hash))
    ensures var fs := AcceptedFrames(files, hash);
            fs != [] ==> r.rows == CompleteRows(AllRows(fs), RenamesDraw(ColumnUnion(fs)))
  {
    var fs := AcceptedFrames(files, hash);
    AllRowsCount(fs);
    if fs == [] then Frame([], [])
    else
      var rows := AllRows(fs);
      var rename := RenamesDraw(ColumnUnion(fs));
      Frame(FinalSchema, CompleteRows(rows, rename))
  }

  /** The complete table is empty exactly when every file is skipped. */
  lemma StandingsCompleteEmpty(files: seq<CsvFile>, hash: string -> string)
    ensures CreateStandingsComplete(files, hash) == Frame([], []) <==>
              forall i :: 0 <= i < |files| ==> Skipped(files[i], hash)
  {
    AcceptedFramesOf(files, hash);
  }

  function CompleteRows(rows: seq<Record>, rename: bool): (out: seq<Record>)
    ensures |out| == |rows|
    ensures forall i :: 0 <= i < |rows| ==> out[i] == CompleteRow(rows[i], rename)
  {
    seq(|rows|, (i: int) requires 0 <= i < |rows| => CompleteRow(rows[i], rename))
  }

  /** Every row of the complete table hashes its own team and file into
      its `id`, and its file into its `source_id`. */
  lemma CompleteIdsConsistent(files: seq<CsvFile>, hash: string -> string)
    ensures var r := CreateStandingsComplete(files, hash);
            forall i :: 0 <= i < |r.rows| ==> IdsConsistent(r.rows[i], hash)
  {
    var fs := AcceptedFrames(files, hash);
    var rows := AllRows(fs);
    var rename := RenamesDraw(ColumnUnion(fs));
    var out := CreateStandingsComplete(files, hash);
    AllRowsCount(fs);
    forall i | 0 <= i < |out.rows| ensures IdsConsistent(out.rows[i], hash) {
      var r := rows[i];
      assert r in rows;
      var k :| 0 <= k < |fs| && r in fs[k].rows;
      var j :| 0 <= j < |fs[k].rows| && fs[k].rows[j] == r;
      CompleteRowKeepsIds(r, rename, hash);
    }
  }

  /** The `drawn` column of the complete table: the `draw` cell when only
      the `draw` spelling occurs among the accepted frames, the `drawn` cell
      otherwise. Every other schema column is copied as it is. */
  lemma CompleteDrawn(files: seq<CsvFile>, hash: string -> string, i: nat)
    requires i < |CreateStandingsComplete(files, hash).rows|
    ensures var fs := AcceptedFrames(files, hash);
            && i < |AllRows(fs)|
            && var src := AllRows(fs)[i];
            var out := CreateStandingsComplete(files, hash).rows[i];
            && Get(out, "drawn") == (if RenamesDraw(ColumnUnion(fs)) then Get(src, "draw") else Get(src, "drawn"))
            && forall c :: c in FinalSchema && c != "drawn" ==> Get(out, c) == Get(src, c)
  {
    CompleteRowAt(files, hash, i);
  }

  /** Row `i` of the complete table comes from row `i` of the concatenation. */
  lemma CompleteRowAt(files: seq<CsvFile>, hash: string -> string, i: nat)
    requires i < |CreateStandingsComplete(files, hash).rows|
    ensures var fs := AcceptedFrames(files, hash);
            i < |AllRows(fs)|
            && CreateStandingsComplete(files, hash).rows[i] == CompleteRow(AllRows(fs)[i], RenamesDraw(ColumnUnion(fs)))
  {
    var fs := AcceptedFrames(files, hash);
    AllRowsCount(fs);
    assert fs != [];
  }
}

=== FILE: sanitize.dfy ===
/** `sanitize_filename` (src/scraper/utils.py): accent folding, lower-casing
    and removal of everything but letters, digits and underscores. The
    function is written as the source's four steps, and its meaning is proved
    against a single-filter reference. */
module Sanitize {
  import Text

  /** The characters a sanitized name may contain: `[a-z0-9_]`. */
  predicate IsSafe(c: char) {
    ('a' <= c <= 'z') || ('0' <= c <= '9') || c == '_'
  }

  predicate AllSafe(s: string) {
    forall i :: 0 <= i < |s| ==> IsSafe(s[i])
  }

  predicate IsAscii(c: char) {
    c < '\U{80}'
  }

  /** `unicodedata.normalize("NFKD", c).encode("ascii", "ignore")` for one
      character: ASCII is kept, a Latin-1 letter with a diacritic becomes its
      base letter, the Latin-1 compatibility characters become their ASCII
      decomposition, and everything else is dropped. */
  function AsciiFold(c: char): (r: string)
    ensures forall i :: 0 <= i < |r| ==> IsAscii(r[i])
  {
    if IsAscii(c) then [c]
    else if c == '\U{a0}' || c == '\U{a8}' || c == '\U{af}' || c == '\U{b4}' || c == '\U{b8}' then " "
    else if c == '\U{aa}' then "a"
    else if c == '\U{ba}' then "o"
    else if c == '\U{b2}' then "2"
    else if c == '\U{b3}' then "3"
    else if c == '\U{b9}' then "1"
    else if c == '\U{bc}' then "14"
    else if c == '\U{bd}' then "12"
    else if c == '\U{be}' then "34"
    else if '\U{c0}' <= c <= '\U{c5}' then "A"
    else if c == '\U{c7}' then "C"
    else if '\U{c8}' <= c <= '\U{cb}' then "E"
    else if '\U{cc}' <= c <= '\U{cf}' then "I"
    else if c == '\U{d1}' then "N"
    else if '\U{d2}' <= c <= '\U{d6}' then "O"
    else if '\U{d9}' <= c <= '\U{dc}' then "U"
    else if c == '\U{dd}' then "Y"
    else if '\U{e0}' <= c <= '\U{e5}' then "a"
    else if c == '\U{e7}' then "c"
    else if '\U{e8}' <= c <= '\U{eb}' then "e"
    else if '\U{ec}' <= c <= '\U{ef}' then "i"
    else if c == '\U{f1}' then "n"
    else if '\U{f2}' <= c <= '\U{f6}' then "o"
    else if '\U{f9}' <= c <= '\U{fc}' then "u"
    else if c == '\U{fd}' || c == '\U{ff}' then "y"
    else []
  }

  /** Step 1: normalise and drop what has no ASCII form. */
  function Fold(s: string): string {
    if s == [] then [] else AsciiFold(s[0]) + Fold(s[1..])
  }

  /** `str.lower` on one ASCII character. */
  function Lower(c: char): char {
    if 'A' <= c <= 'Z' then (c as int + 32) as char else c
  }

  /** Step 2: `text.lower()`. */
  function LowerAll(s: string): string {
    if s == [] then [] else [Lower(s[0])] + LowerAll(s[1..])
  }

  /** The characters of `s` that satisfy `keep`, in their original order. */
  function Filter(keep: char -> bool, s: string): string {
    if s == [] then []
    else (if keep(s[0]) then [s[0]] else []) + Filter(keep, s[1..])
  }

  /** `\w` on the ASCII characters that reach the regular expressions. */
  predicate IsWord(c: char) {
    ('a' <= c <= 'z') || ('A' <= c <= 'Z') || ('0' <= c <= '9') || c == '_'
  }

  predicate IsSpaceOrHyphen(c: char) {
    Text.IsSpace(c) || c == '-'
  }

  /** What `[^\w\s-]` does not match, and so keeps. */
  predicate IsWordSpaceOrHyphen(c: char) {
    IsWord(c) || IsSpaceOrHyphen(c)
  }

  /** What `[\s-]+` does not match, and so keeps. */
  predicate IsNotSpaceOrHyphen(c: char) {
    !IsSpaceOrHyphen(c)
  }

  /** `re.sub(r"[^\w\s-]", "", text)` then `re.sub(r"[\s-]+", "", text)`,
      in the source's order, after folding and lower-casing. */
  function SanitizeFilename(text: string): (r: string)
    ensures AllSafe(r)
  {
    var lowered := LowerAll(Fold(text));
    var cleaned := Filter(IsWordSpaceOrHyphen, lowered);
    var r := Filter(IsNotSpaceOrHyphen, cleaned);
    FilterFilter(IsWordSpaceOrHyphen, IsNotSpaceOrHyphen, IsWord, lowered);
    LowerAllFoldIsLowerAscii(text);
    FilterSafe(lowered);
    FilterKeeps(IsSafe, lowered);
    r
  }

  lemma {:induction false} FilterKeeps(keep: char -> bool, s: string)
    ensures forall i :: 0 <= i < |Filter(keep, s)| ==> keep(Filter(keep, s)[i])
  {
    if s != [] {
      FilterKeeps(keep, s[1..]);
    }
  }

  /** The reference meaning: the lower-cased, folded input with every
      character outside `[a-z0-9_]` removed and nothing else changed. */
  function SafeOnly(s: string): string {
    Filter(IsSafe, LowerAll(Fold(s)))
  }

  predicate LowerAscii(s: string) {
    forall i :: 0 <= i < |s| ==> IsAscii(s[i]) && !('A' <= s[i] <= 'Z')
  }

  lemma {:induction false} FoldAppend(a: string, b: string)
    ensures Fold(a + b) == Fold(a) + Fold(b)
    ensures LowerAll(a + b) == LowerAll(a) + LowerAll(b)
  {
    if a == [] {
      assert a + b == b;
    } else {
      assert (a + b)[0] == a[0];
      assert (a + b)[1..] == a[1..] + b;
      FoldAppend(a[1..], b);
    }
  }

  lemma {:induction false} FilterAppend(keep: char -> bool, a: string, b: string)
    ensures Filter(keep, a + b) == Filter(keep, a) + Filter(keep, b)
  {
    if a == [] {
      assert a + b == b;
    } else {
      assert (a + b)[0] == a[0];
      assert (a + b)[1..] == a[1..] + b;
      FilterAppend(keep, a[1..], b);
    }
  }

  /** Two filters in a row keep what both keep; `both` is any predicate that
      agrees with their conjunction on `s`. */
  lemma {:induction false} FilterFilter(p: char -> bool, q: char -> bool, both: char -> bool, s: string)
    requires forall i :: 0 <= i < |s| ==> both(s[i]) == (p(s[i]) && q(s[i]))
    ensures Filter(q, Filter(p, s)) == Filter(both, s)
  {
    if s != [] {
      FilterFilter(p, q, both, s[1..]);
      FilterAppend(q, if p(s[0]) then [s[0]] else [], Filter(p, s[1..]));
    }
  }

  lemma {:induction false} LowerAllFoldIsLowerAscii(s: string)
    ensures LowerAscii(LowerAll(Fold(s)))
  {
    if s != [] {
      LowerAllFoldIsLowerAscii(s[1..]);
      FoldAppend(AsciiFold(s[0]), Fold(s[1..]));
      LowerAllOfAscii(AsciiFold(s[0]));
    }
  }

  lemma {:induction false} LowerAllOfAscii(s: string)
    requires forall i :: 0 <= i < |s| ==> IsAscii(s[i])
    ensures LowerAscii(LowerAll(s))
  {
    if s != [] {
      LowerAllOfAscii(s[1..]);
    }
  }

  /** On lower-case ASCII text `\w` and `[a-z0-9_]` agree. */
  lemma {:induction false} FilterSafe(s: string)
    requires LowerAscii(s)
    ensures Filter(IsWord, s) == Filter(IsSafe, s)
  {
    if s != [] {
      FilterSafe(s[1..]);
    }
  }

  /** The four steps of the source compute the reference meaning. */
  lemma SanitizeIsSafeOnly(s: string)
    ensures SanitizeFilename(s) == SafeOnly(s)
  {
    var lowered := LowerAll(Fold(s));
    FilterFilter(IsWordSpaceOrHyphen, IsNotSpaceOrHyphen, IsWord, lowered);
    LowerAllFoldIsLowerAscii(s);
    FilterSafe(lowered);
  }

  /** Sanitizing works character by character, so it distributes over
      concatenation. */
  lemma SanitizeAppend(a: string, b: string)
    ensures SanitizeFilename(a + b) == SanitizeFilename(a) + SanitizeFilename(b)
  {
    SanitizeIsSafeOnly(a + b);
    SanitizeIsSafeOnly(a);
    SanitizeIsSafeOnly(b);
    FoldAppend(a, b);
    FoldAppend(Fold(a), Fold(b));
    FilterAppend(IsSafe, LowerAll(Fold(a)), LowerAll(Fold(b)));
  }

  /** A name made only of `[a-z0-9_]` is its own sanitized form. */
  lemma {:induction false} SanitizeFixesSafe(s: string)
    requires AllSafe(s)
    ensures SanitizeFilename(s) == s
  {
    if s != [] {
      SanitizeFixesSafe(s[1..]);
      SanitizeAppend([s[0]], s[1..]);
      assert [s[0]] + s[1..] == s;
      assert Fold([s[0]]) == [s[0]] by {
        assert [s[0]][1..] == [];
      }
      assert LowerAll([s[0]]) == [s[0]] by {
        assert [s[0]][1..] == [];
      }
      SanitizeIsSafeOnly([s[0]]);
      assert Filter(IsSafe, [s[0]]) == [s[0]] by {
        assert [s[0]][1..] == [];
      }
    }
  }

  /** Sanitizing twice is sanitizing once. */
  lemma SanitizeIdempotent(s: string)
    ensures SanitizeFilename(SanitizeFilename(s)) == SanitizeFilename(s)
  {
    SanitizeFixesSafe(SanitizeFilename(s));
  }

  /** For ASCII input no character is folded: the result is the lower-cased
      input with every character outside `[a-z0-9_]` removed. */
  lemma {:induction false} SanitizeAscii(s: string)
    requires forall i :: 0 <= i < |s| ==> IsAscii(s[i])
    ensures SanitizeFilename(s) == Filter(IsSafe, LowerAll(s))
  {
    SanitizeIsSafeOnly(s);
    FoldAscii(s);
  }

  lemma {:induction false} FoldAscii(s: string)
    requires forall i :: 0 <= i < |s| ==> IsAscii(s[i])
    ensures Fold(s) == s
  {
    if s != [] {
      FoldAscii(s[1..]);
    }
  }

  /** An ASCII character on its own is lower-cased and kept if safe. */
  lemma SanitizeAsciiChar(c: char)
    requires IsAscii(c)
    ensures SanitizeFilename([c]) == if IsSafe(Lower(c)) then [Lower(c)] else []
  {
    SanitizeChar(c);
    assert AsciiFold(c) == [c];
    assert LowerAll([c]) == [Lower(c)] + LowerAll([]);
    assert Filter(IsSafe, [Lower(c)]) == (if IsSafe(Lower(c)) then [Lower(c)] else []) + Filter(IsSafe, []);
  }

  /** One character on its own: fold it, lower-case it, keep it if safe. */
  lemma SanitizeChar(c: char)
    ensures SanitizeFilename([c]) == Filter(IsSafe, LowerAll(AsciiFold(c)))
  {
    SanitizeIsSafeOnly([c]);
    assert [c][1..] == [];
    assert Fold([c]) == AsciiFold(c) + Fold([]);
    assert AsciiFold(c) + [] == AsciiFold(c);
  }

  /** Three pieces sanitize independently. */
  lemma SanitizeJoin3(a: string, b: string, c: string)
    ensures SanitizeFilename(a + b + c) == SanitizeFilename(a) + SanitizeFilename(b) + SanitizeFilename(c)
  {
    SanitizeAppend(a + b, c);
    SanitizeAppend(a, b);
  }

  /** The league slug "premier-league" becomes "premierleague". */
  lemma ExamplePremierLeague()
    ensures SanitizeFilename("premier-league") == "premierleague"
  {
    PremierLeaguePieces("premier", "-", "league");
    assert "premier" + "-" + "league" == "premier-league";
  }

  lemma PremierLeaguePieces(a: string, b: string, c: string)
    requires a == "premier" && b == "-" && c == "league"
    ensures SanitizeFilename(a + b + c) == "premierleague"
  {
    SanitizeJoin3(a, b, c);
    SanitizeFixesSafe(a);
    SanitizeFixesSafe(c);
    SanitizeAsciiChar('-');
    assert b == ['-'];
  }

  /** The league name "2. Bundesliga" becomes "2bundesliga". */
  lemma ExampleBundesliga()
    ensures SanitizeFilename("2. Bundesliga") == "2bundesliga"
  {
    BundesligaPieces("2", ".", " ", "B", "undesliga");
    assert "2" + "." + " " + "B" + "undesliga" == "2. Bundesliga";
  }

  lemma BundesligaPieces(a: string, b: string, c: string, d: string, e: string)
    requires a == "2" && b == "." && c == " " && d == "B" && e == "undesliga"
    ensures SanitizeFilename(a + b + c + d + e) == "2bundesliga"
  {
    DropsSecond(a, b);
    DropsFirst(c, d);
    SanitizeFixesSafe(e);
    assert a + b + c + d + e == (a + b) + (c + d) + e;
    SanitizeJoin3(a + b, c + d, e);
  }

  /** "2." becomes "2". */
  lemma DropsSecond(a: string, b: string)
    requires a == "2" && b == "."
    ensures SanitizeFilename(a + b) == "2"
  {
    SanitizeAppend(a, b);
    SanitizeFixesSafe(a);
    SanitizeAsciiChar('.');
  }

  /** " B" becomes "b". */
  lemma DropsFirst(c: string, d: string)
    requires c == " " && d == "B"
    ensures SanitizeFilename(c + d) == "b"
  {
    SanitizeAppend(c, d);
    SanitizeAsciiChar(' ');
    SanitizeAsciiChar('B');
  }

  /** An accented letter is folded to its base letter, not dropped:
      u-umlaut (as in "S\U{fc}per Lig") becomes "u". */
  lemma ExampleUmlaut()
    ensures SanitizeFilename("\U{fc}") == "u"
  {
    SanitizeChar('\U{fc}');
    FoldUmlaut();
    assert Filter(IsSafe, LowerAll("u")) == "u" by {
      SanitizeAsciiChar('u');
      SanitizeChar('u');
    }
  }

  lemma FoldUmlaut()
    ensures AsciiFold('\U{fc}') == "u"
  {
  }
}

=== FILE: scraper_main.dfy ===
/** The pure parts of src/scraper/main.py: the URLs and file names
    `run_scraper_for_season` builds, which teams it fetches and which files it
    writes, and which leagues and seasons `scraper_pipeline` runs. Fetching a
    page (`fetch_soup` with its retries) is a parameter that gives the parsed
    page or `None` for the `ScrapingError` it raises; a write is recorded as
    an action instead of being performed. */
module ScraperMain {
  import opened Wrappers
  import opened Text
  import opened Sanitize
  import opened Document
  import opened Parsers
  import opened Frames
  import opened Metadata

  /** src/scraper/main.py:117-118. */
  const FinalYear: int := 2024
  const MinStartYear: int := 1990

  /** Leagues whose season is named after the year it ends in on the site. */
  const EndYearLeagues: seq<string> := ["BRA1", "BRA2", "JAP1", "JAP2", "CLPD"]

  /** The season id the site uses for `season`. */
  function SeasonUrlYear(code: string, season: int): (y: int)
    ensures y == season || y == season - 1
    ensures y == season - 1 <==> code in EndYearLeagues
  {
    if code in EndYearLeagues then season - 1 else season
  }

  const StandingsPath: string := "/tabelle/wettbewerb/"
  const SeasonPath: string := "/saison_id/"

  /** The league table page of a season. */
  function StandingsUrl(slug: string, code: string, season: int): (u: string)
    ensures StartsWith(u, BaseUrl + "/" + slug)
  {
    var u := BaseUrl + "/" + slug + StandingsPath + code + SeasonPath + IntToString(SeasonUrlYear(code, season));
    assert u == BaseUrl + "/" + slug + (StandingsPath + code + SeasonPath + IntToString(SeasonUrlYear(code, season)));
    u
  }

  /** `{safe_slug}_{season}_standings.csv`. */
  function StandingsFileName(slug: string, season: int): (f: string)
    ensures StartsWith(f, SanitizeFilename(slug) + "_")
  {
    var f := SanitizeFilename(slug) + "_" + IntToString(season) + "_standings.csv";
    assert f == SanitizeFilename(slug) + "_" + (IntToString(season) + "_standings.csv");
    f
  }

  /** `{safe_slug}_{season}_{safe_team}.csv`. */
  function TeamFileName(slug: string, season: int, team: string): (f: string)
    ensures StartsWith(f, SanitizeFilename(slug) + "_")
  {
    var f := SanitizeFilename(slug) + "_" + IntToString(season) + "_" + SanitizeFilename(team) + ".csv";
    assert f == SanitizeFilename(slug) + "_" + (IntToString(season) + "_" + SanitizeFilename(team) + ".csv");
    f
  }

  const TeamPage: string := "/startseite/"
  const SchedulePage: string := "/spielplan/"
  const ScheduleSuffix: string := "/plus/1#"

  /** The team's schedule page: every `/startseite/` becomes `/spielplan/`,
      then `/plus/1#` and the league code are appended. */
  function ScheduleUrl(teamUrl: string, code: string): (u: string)
    ensures |u| >= |ScheduleSuffix + code|
    ensures u[|u| - |ScheduleSuffix + code|..] == ScheduleSuffix + code
  {
    var u := ReplaceAll(teamUrl, TeamPage, SchedulePage) + (ScheduleSuffix + code);
    assert u[|u| - |ScheduleSuffix + code|..] == ScheduleSuffix + code;
    u
  }

  /** A team page URL with a single `/startseite/` maps to its schedule page. */
  lemma ScheduleUrlOfTeamPage(p: string, q: string, code: string)
    requires forall i :: 0 <= i < |p| ==> !OccursAt(p + TeamPage + q, TeamPage, i)
    requires !Contains(q, TeamPage)
    ensures ScheduleUrl(p + TeamPage + q, code) == p + SchedulePage + q + ScheduleSuffix + code
  {
    ReplaceAllFirst(p, TeamPage, SchedulePage, q);
    ReplaceAllAbsent(q, TeamPage, SchedulePage);
  }

  /** A URL without `/startseite/` is kept and only gets the suffix. */
  lemma ScheduleUrlWithoutTeamPage(u: string, code: string)
    requires !Contains(u, TeamPage)
    ensures ScheduleUrl(u, code) == u + ScheduleSuffix + code
  {
    ReplaceAllAbsent(u, TeamPage, SchedulePage);
  }

  /** The pre-processor's URL check reads the season id back out of a
      standings URL: the URL is valid for exactly the seasons from that id
      on. This needs a slug and code without `_` (the site's are), so that
      no earlier text can look like `saison_id/`, and a four-digit id. */
  lemma StandingsUrlYearReadBack(slug: string, code: string, season: int, other: int)
    requires NoUnderscore(slug) && NoUnderscore(code)
    requires 1000 <= SeasonUrlYear(code, season) <= 9999
    ensures ValidateUrlYear(Str(StandingsUrl(slug, code, season)), other) <==> SeasonUrlYear(code, season) <= other
  {
    var y := IntToString(SeasonUrlYear(code, season));
    FourDigitYear(SeasonUrlYear(code, season));
    var p := BaseUrl + "/" + slug + StandingsPath + code + "/";
    assert StandingsUrl(slug, code, season) == p + SaisonId + y + [];
    StandingsUrlHead(slug, code);
    NoMarkerBefore(p, y);
    ValidateFirstMarker(p, y, [], other);
  }

  /** What precedes `saison_id/` in a standings URL has no underscore. */
  lemma StandingsUrlHead(slug: string, code: string)
    requires NoUnderscore(slug) && NoUnderscore(code)
    ensures NoUnderscore(BaseUrl + "/" + slug + StandingsPath + code + "/")
  {
    assert NoUnderscore(BaseUrl + "/") && NoUnderscore(StandingsPath) && NoUnderscore("/");
    NoUnderscoreJoin(BaseUrl + "/", slug);
    NoUnderscoreJoin(BaseUrl + "/" + slug, StandingsPath);
    NoUnderscoreJoin(BaseUrl + "/" + slug + StandingsPath, code);
    NoUnderscoreJoin(BaseUrl + "/" + slug + StandingsPath + code, "/");
  }

  /** Text without an underscore cannot hold the start of a year marker. */
  lemma NoMarkerBefore(p: string, y: string)
    requires NoUnderscore(p)
    ensures forall j :: 0 <= j < |p| ==> !UrlYearAt(p + SaisonId + y + [], j)
  {
    var u := p + SaisonId + y + [];
    forall j | 0 <= j < |p|
      ensures !UrlYearAt(u, j)
    {
      MarkerUnderscore(u, j);
      if j + 6 < |p| {
        assert u[j + 6] == p[j + 6];
      } else {
        assert u[j + 6] == SaisonId[j + 6 - |p|];
      }
    }
  }

  /** The seventh character of `saison_id/` is its underscore. */
  lemma MarkerUnderscore(u: string, j: int)
    ensures UrlYearAt(u, j) ==> u[j + 6] == '_'
  {
    if UrlYearAt(u, j) {
      assert u[j..j + 10][6] == u[j + 6];
    }
  }

  lemma NoUnderscoreJoin(a: string, b: string)
    requires NoUnderscore(a) && NoUnderscore(b)
    ensures NoUnderscore(a + b)
  {
    var ab := a + b;
    forall i | 0 <= i < |ab| ensures ab[i] != '_' {
      if i < |a| { assert ab[i] == a[i]; } else { assert ab[i] == b[i - |a|]; }
    }
  }

  // ---------------------------------------------------------------------
  // One season

  /** What `run_scraper_for_season` does, in order. */
  datatype Action =
    | WriteStandings(file: string, standings: seq<Standing>)
    | FetchSchedule(team: string, url: string)
    | WriteGames(file: string, games: seq<Match>)

  /** The actions taken, and whether an exception ended the season early
      (it is logged and swallowed, so the pipeline goes on). */
  datatype SeasonRun = SeasonRun(actions: seq<Action>, aborted: bool)

  /** `if not team_url`: a missing or empty URL. */
  predicate HasUrl(s: Standing) {
    s.teamUrl.Some? && s.teamUrl.value != []
  }

  /** The schedule URLs of the teams that have a URL, in table order. */
  function ScheduleUrls(rows: seq<Standing>, code: string): (r: seq<string>)
    ensures |r| <= |rows|
  {
    if rows == [] then []
    else (if HasUrl(rows[0]) then [ScheduleUrl(rows[0].teamUrl.value, code)] else [])
         + ScheduleUrls(rows[1..], code)
  }

  /** One team with a URL: fetch its schedule, write its games when there
      are any, then go on with `rest`, the run of the remaining teams. A
      failed fetch or a page without the schedule ends the season. */
  function TeamStep(team: string, url: string, name: string, slug: string, code: string, season: int,
                    fetch: string -> Option<seq<Node>>, rest: SeasonRun): (r: SeasonRun)
    ensures r.actions != [] && r.actions[0] == FetchSchedule(team, url)
    ensures r.aborted <==> || fetch(url).None? || TeamGames(fetch(url).value, name, code).Failure?
                           || rest.aborted
  {
    var fetched := [FetchSchedule(team, url)];
    match fetch(url)
    case None => SeasonRun(fetched, true)
    case Some(doc) =>
      match TeamGames(doc, name, code)
      case Failure(_) => SeasonRun(fetched, true)
      case Success(games) =>
        SeasonRun(FetchThenWrite(team, slug, season, url, games) + rest.actions, rest.aborted)
  }

  /** The loop over the standings rows. */
  function TeamRuns(rows: seq<Standing>, name: string, slug: string, code: string, season: int,
                    fetch: string -> Option<seq<Node>>): (r: SeasonRun)
    ensures r.actions == [] <==> forall i :: 0 <= i < |rows| ==> !HasUrl(rows[i])
    ensures r.actions == [] ==> !r.aborted
  {
    if rows == [] then SeasonRun([], false)
    else if !HasUrl(rows[0]) then TeamRuns(rows[1..], name, slug, code, season, fetch)
    else TeamStep(rows[0].team, ScheduleUrl(rows[0].teamUrl.value, code), name, slug, code, season, fetch,
                  TeamRuns(rows[1..], name, slug, code, season, fetch))
  }

  /** `run_scraper_for_season`. */
  function RunSeason(name: string, slug: string, code: string, season: int,
                     fetch: string -> Option<seq<Node>>): (r: SeasonRun)
    ensures r.actions == [] <==> fetch(StandingsUrl(slug, code, season)).None?
                                 || LeagueStandings(fetch(StandingsUrl(slug, code, season)).value).Failure?
    ensures r.actions == [] ==> r.aborted
    ensures r.actions != [] ==>
              r.actions[0] == WriteStandings(StandingsFileName(slug, season),
                                             LeagueStandings(fetch(StandingsUrl(slug, code, season)).value).value)
  {
    match fetch(StandingsUrl(slug, code, season))
    case None => SeasonRun([], true)
    case Some(doc) =>
      match LeagueStandings(doc)
      case Failure(_) => SeasonRun([], true)
      case Success(rows) =>
        var teams := TeamRuns(rows, name, slug, code, season, fetch);
        SeasonRun([WriteStandings(StandingsFileName(slug, season), rows)] + teams.actions, teams.aborted)
  }

  /** The URLs of the schedule fetches among some actions, in order. */
  function Fetches(actions: seq<Action>): seq<string> {
    if actions == [] then []
    else (if actions[0].FetchSchedule? then [actions[0].url] else []) + Fetches(actions[1..])
  }

  lemma {:induction false} FetchesAppend(a: seq<Action>, b: seq<Action>)
    ensures Fetches(a + b) == Fetches(a) + Fetches(b)
  {
    if a == [] {
      assert a + b == b;
    } else {
      assert (a + b)[1..] == a[1..] + b;
      FetchesAppend(a[1..], b);
    }
  }

  /** One team's step fetches its URL first; it goes on with the rest
      exactly when the fetch and the parse succeed. */
  lemma TeamStepFetches(team: string, url: string, name: string, slug: string, code: string, season: int,
                        fetch: string -> Option<seq<Node>>, rest: SeasonRun)
    ensures var r := TeamStep(team, url, name, slug, code, season, fetch, rest);
            var goesOn := fetch(url).Some? && TeamGames(fetch(url).value, name, code).Success?;
            && (goesOn ==> Fetches(r.actions) == [url] + Fetches(rest.actions) && r.aborted == rest.aborted)
            && (!goesOn ==> Fetches(r.actions) == [url] && r.aborted)
  {
    var fetched := [FetchSchedule(team, url)];
    assert Fetches(fetched) == [url] by {
      assert fetched[1..] == [];
    }
    if fetch(url).Some? && TeamGames(fetch(url).value, name, code).Success? {
      var games := TeamGames(fetch(url).value, name, code).value;
      var written := if games == [] then [] else [WriteGames(TeamFileName(slug, season, team), games)];
      assert FetchThenWrite(team, slug, season, url, games) == fetched + written;
      assert Fetches(written) == [] by {
        if written != [] { assert written[1..] == []; }
      }
      FetchesAppend(fetched + written, rest.actions);
      FetchesAppend(fetched, written);
    }
  }

  /** Teams without a URL are skipped: when nothing fails, the schedules
      fetched are exactly those of the teams with a URL, in table order;
      when something fails, they are a non-empty prefix of them, ending with
      the one that failed. */
  lemma {:induction false} TeamRunsFetches(rows: seq<Standing>, name: string, slug: string, code: string,
                                           season: int, fetch: string -> Option<seq<Node>>)
    ensures var r := TeamRuns(rows, name, slug, code, season, fetch);
            (!r.aborted ==> Fetches(r.actions) == ScheduleUrls(rows, code))
            && (r.aborted ==> 0 < |Fetches(r.actions)| <= |ScheduleUrls(rows, code)|
                              && Fetches(r.actions) == ScheduleUrls(rows, code)[..|Fetches(r.actions)|])
  {
    if rows != [] {
      var rest := TeamRuns(rows[1..], name, slug, code, season, fetch);
      TeamRunsFetches(rows[1..], name, slug, code, season, fetch);
      if HasUrl(rows[0]) {
        var url := ScheduleUrl(rows[0].teamUrl.value, code);
        assert TeamRuns(rows, name, slug, code, season, fetch)
               == TeamStep(rows[0].team, url, name, slug, code, season, fetch, rest);
        assert ScheduleUrls(rows, code) == [url] + ScheduleUrls(rows[1..], code);
        TeamStepPrefix(rows[0].team, url, name, slug, code, season, fetch, rest, ScheduleUrls(rows[1..], code));
      } else {
        assert TeamRuns(rows, name, slug, code, season, fetch) == rest;
        assert ScheduleUrls(rows, code) == ScheduleUrls(rows[1..], code);
      }
    }
  }

  /** The schedules fetched so far are all of `urls` when the run went on,
      and a non-empty prefix of them when it stopped. */
  predicate FetchedPrefix(r: SeasonRun, urls: seq<string>) {
    && (!r.aborted ==> Fetches(r.actions) == urls)
    && (r.aborted ==> 0 < |Fetches(r.actions)| <= |urls| && Fetches(r.actions) == urls[..|Fetches(r.actions)|])
  }

  /** One team's step puts its URL in front of the rest's fetches. */
  lemma TeamStepPrefix(team: string, url: string, name: string, slug: string, code: string, season: int,
                       fetch: string -> Option<seq<Node>>, rest: SeasonRun, tail: seq<string>)
    requires FetchedPrefix(rest, tail)
    ensures FetchedPrefix(TeamStep(team, url, name, slug, code, season, fetch, rest), [url] + tail)
  {
    var r := TeamStep(team, url, name, slug, code, season, fetch, rest);
    TeamStepFetches(team, url, name, slug, code, season, fetch, rest);
    if r.aborted {
      var n := |Fetches(r.actions)|;
      if n == 1 {
        assert Fetches(r.actions) == ([url] + tail)[..1];
      } else {
        assert Fetches(r.actions) == [url] + tail[..n - 1] == ([url] + tail)[..n];
      }
    }
  }

  /** Every games file in `a` holds a non-empty schedule and directly
      follows the fetch of that team's schedule. */
  predicate WritesFollowFetch(a: seq<Action>, slug: string, season: int) {
    forall i :: 0 <= i < |a| && a[i].WriteGames? ==>
      a[i].games != [] && 0 < i && a[i - 1].FetchSchedule?
      && a[i].file == TeamFileName(slug, season, a[i - 1].team)
  }

  lemma WritesFollowFetchAppend(a: seq<Action>, b: seq<Action>, slug: string, season: int)
    requires WritesFollowFetch(a, slug, season) && WritesFollowFetch(b, slug, season)
    requires b != [] ==> !b[0].WriteGames?
    ensures WritesFollowFetch(a + b, slug, season)
  {
    var ab := a + b;
    forall i | 0 <= i < |ab| && ab[i].WriteGames?
      ensures ab[i].games != [] && 0 < i && ab[i - 1].FetchSchedule?
              && ab[i].file == TeamFileName(slug, season, ab[i - 1].team)
    {
      if i < |a| {
        assert ab[i] == a[i] && ab[i - 1] == a[i - 1];
      } else {
        assert ab[i] == b[i - |a|];
        assert ab[i - 1] == b[i - |a| - 1];
      }
    }
  }

  /** One team's step starts with its fetch and keeps the order of
      fetches and writes, given a rest that does. */
  lemma TeamStepWrites(team: string, url: string, name: string, slug: string, code: string, season: int,
                       fetch: string -> Option<seq<Node>>, rest: SeasonRun)
    requires WritesFollowFetch(rest.actions, slug, season)
    requires rest.actions != [] ==> rest.actions[0].FetchSchedule?
    ensures var a := TeamStep(team, url, name, slug, code, season, fetch, rest).actions;
            a != [] && a[0].FetchSchedule? && WritesFollowFetch(a, slug, season)
  {
    var a := TeamStep(team, url, name, slug, code, season, fetch, rest).actions;
    if fetch(url).Some? && TeamGames(fetch(url).value, name, code).Success? {
      var games := TeamGames(fetch(url).value, name, code).value;
      var head := FetchThenWrite(team, slug, season, url, games);
      assert a == head + rest.actions;
      WritesFollowFetchAppend(head, rest.actions, slug, season);
    } else {
      assert a == [FetchSchedule(team, url)];
    }
  }

  /** The actions of one team whose schedule was read. */
  function FetchThenWrite(team: string, slug: string, season: int, url: string, games: seq<Match>): (a: seq<Action>)
    ensures a != [] && a[0] == FetchSchedule(team, url)
    ensures WritesFollowFetch(a, slug, season)
  {
    [FetchSchedule(team, url)] + (if games == [] then [] else [WriteGames(TeamFileName(slug, season, team), games)])
  }

  /** A team's games file is written only for a non-empty schedule, and only
      right after that team's schedule was fetched. */
  lemma {:induction false} WritesFollowFetches(rows: seq<Standing>, name: string, slug: string, code: string,
                                               season: int, fetch: string -> Option<seq<Node>>)
    ensures var a := TeamRuns(rows, name, slug, code, season, fetch).actions;
            && WritesFollowFetch(a, slug, season)
            && (a != [] ==> a[0].FetchSchedule?)
  {
    if rows != [] {
      WritesFollowFetches(rows[1..], name, slug, code, season, fetch);
      if HasUrl(rows[0]) {
        TeamStepWrites(rows[0].team, ScheduleUrl(rows[0].teamUrl.value, code), name, slug, code, season, fetch,
                       TeamRuns(rows[1..], name, slug, code, season, fetch));
      }
    }
  }

  // ---------------------------------------------------------------------
  // The file names read back by the pre-processor

  predicate NoUnderscore(s: string) {
    forall i :: 0 <= i < |s| ==> s[i] != '_'
  }

  lemma SafeNoUnderscoreIsAlnum(s: string)
    requires AllSafe(s) && NoUnderscore(s)
    ensures AllAlnum(s)
  {
  }

  lemma NoDots(s: string)
    requires AllSafe(s)
    ensures forall j :: 0 <= j < |s| ==> s[j] != '.'
  {
  }

  /** A four-digit season in a stem `a_dddd_rest`: the prefix pattern
      matches with `a` as the league group. */
  lemma PrefixOfName(a: string, y: string, rest: string)
    requires a != [] && AllAlnum(a)
    requires |y| == 4 && AllDigits(y)
    ensures var s := a + "_" + y + "_" + rest;
            PrefixAt(s, |a|) && s[..|a|] == a && s[|a| + 1..|a| + 5] == y && s[|a| + 6..] == rest
  {
    var s := a + "_" + y + "_" + rest;
    assert s[..|a|] == a;
    assert s[|a| + 1..|a| + 5] == y;
    assert s[|a| + 6..] == rest;
  }

  /** The standings file the scraper writes is read back as a standings
      file of the same league slug and season, by both parsers, provided the
      sanitized slug is a non-empty `[a-z0-9]+` and the season has four
      digits. */
  lemma StandingsFileRoundTrip(slug: string, season: int)
    requires SanitizeFilename(slug) != [] && NoUnderscore(SanitizeFilename(slug))
    requires 1000 <= season <= 9999
    ensures ExtractMetadata(Stem(StandingsFileName(slug, season))) == Success(StandingsInfo(SanitizeFilename(slug), season))
    ensures ExtractStandingsMetadata(Stem(StandingsFileName(slug, season))) == Success(StandingsInfo(SanitizeFilename(slug), season))
  {
    var a := SanitizeFilename(slug);
    FourDigitYear(season);
    SafeNoUnderscoreIsAlnum(a);
    StandingsNameRead(a, IntToString(season), "standings");
  }

  /** `a_dddd_standings.csv` reads back as league `a` and year `dddd`. */
  lemma StandingsNameRead(a: string, y: string, word: string)
    requires a != [] && AllAlnum(a) && |y| == 4 && AllDigits(y)
    requires word == "standings"
    ensures ExtractMetadata(Stem(a + "_" + y + "_standings.csv")) == Success(StandingsInfo(a, DigitsValue(y)))
    ensures ExtractStandingsMetadata(Stem(a + "_" + y + "_standings.csv")) == Success(StandingsInfo(a, DigitsValue(y)))
  {
    StandingsStem(a, y);
    var stem := a + "_" + y + "_standings";
    PrefixOfName(a, y, word);
    assert stem == a + "_" + y + "_" + word;
    assert StandingsAt(stem, |a|) by {
      assert stem[|a| + 6..] == word;
    }
    ExtractStandings(stem, |a|);
    StandingsParsersAgree(stem);
  }

  /** The file name is the stem and `.csv`, and the stem has no dot. */
  lemma StandingsStem(a: string, y: string)
    requires a != [] && AllAlnum(a) && AllDigits(y)
    ensures Stem(a + "_" + y + "_standings.csv") == a + "_" + y + "_standings"
  {
    var stem := a + "_" + y + "_standings";
    assert a + "_" + y + "_standings.csv" == stem + "." + "csv";
    assert forall j :: 0 <= j < |stem| ==> stem[j] != '.' by {
      forall j | 0 <= j < |stem| ensures stem[j] != '.' {
        if j < |a| { assert stem[j] == a[j]; }
        else if j == |a| { }
        else if j < |a| + 1 + |y| { assert stem[j] == y[j - |a| - 1]; }
      }
    }
    StemOfSuffixed(stem, "csv");
  }

  /** A team's games file is read back as a games file of the same league,
      season and sanitized team, provided both sanitized names are non-empty
      `[a-z0-9]+`, the season has four digits and the team's name does not
      itself start with "standings". */
  lemma TeamFileRoundTrip(slug: string, season: int, team: string)
    requires SanitizeFilename(slug) != [] && NoUnderscore(SanitizeFilename(slug))
    requires SanitizeFilename(team) != [] && NoUnderscore(SanitizeFilename(team))
    requires !StartsWith(SanitizeFilename(team), "standings")
    requires 1000 <= season <= 9999
    ensures ExtractMetadata(Stem(TeamFileName(slug, season, team)))
              == Success(GamesInfo(SanitizeFilename(slug), season, SanitizeFilename(team)))
  {
    var a := SanitizeFilename(slug);
    var t := SanitizeFilename(team);
    var y := IntToString(season);
    FourDigitYear(season);
    SafeNoUnderscoreIsAlnum(a);
    SafeNoUnderscoreIsAlnum(t);
    TeamStem(a, y, t);
    TeamNameRead(a, y, t);
  }

  /** A games stem of a league, four digits and a team reads back as such. */
  lemma TeamNameRead(a: string, y: string, t: string)
    requires a != [] && AllAlnum(a) && |y| == 4 && AllDigits(y)
    requires t != [] && AllAlnum(t) && !StartsWith(t, "standings")
    ensures ExtractMetadata(a + "_" + y + "_" + t) == Success(GamesInfo(a, DigitsValue(y), t))
  {
    TeamStemMatches(a, y, t);
    ReadGamesStem(a + "_" + y + "_" + t, a, y, t);
  }

  /** A stem where the games pattern matches with groups `a`, `y`, `t`. */
  lemma ReadGamesStem(stem: string, a: string, y: string, t: string)
    requires |y| == 4 && AllDigits(y) && t != [] && AllAlnum(t)
    requires GamesAt(stem, |a|) && !StandingsAt(stem, |a|)
    requires |a| + 6 + |t| == |stem| && stem[|a| + 6..|a| + 6 + |t|] == t
    requires stem[..|a|] == a && stem[|a| + 1..|a| + 5] == y
    ensures ExtractMetadata(stem) == Success(GamesInfo(a, DigitsValue(y), t))
  {
    ExtractGames(stem, |a|, |t|);
  }

  /** Where the games pattern matches in a games stem. */
  lemma TeamStemMatches(a: string, y: string, t: string)
    requires a != [] && AllAlnum(a) && |y| == 4 && AllDigits(y)
    requires t != [] && AllAlnum(t) && !StartsWith(t, "standings")
    ensures var stem := a + "_" + y + "_" + t;
            && GamesAt(stem, |a|) && !StandingsAt(stem, |a|)
            && |a| + 6 + |t| == |stem| && stem[|a| + 6..|a| + 6 + |t|] == t
            && stem[..|a|] == a && stem[|a| + 1..|a| + 5] == y
  {
    var stem := a + "_" + y + "_" + t;
    var k := |a|;
    PrefixOfName(a, y, t);
    assert stem[k + 6..] == t;
    assert stem[k + 6] == t[0];
  }

  lemma TeamStem(a: string, y: string, t: string)
    requires a != [] && AllAlnum(a) && AllDigits(y) && AllAlnum(t)
    ensures Stem(a + "_" + y + "_" + t + ".csv") == a + "_" + y + "_" + t
  {
    var stem := a + "_" + y + "_" + t;
    assert a + "_" + y + "_" + t + ".csv" == stem + "." + "csv";
    assert forall j :: 0 <= j < |stem| ==> stem[j] != '.' by {
      forall j | 0 <= j < |stem| ensures stem[j] != '.' {
        if j < |a| { assert stem[j] == a[j]; }
        else if j == |a| { }
        else if j < |a| + 1 + |y| { assert stem[j] == y[j - |a| - 1]; }
        else if j == |a| + 1 + |y| { }
        else { assert stem[j] == t[j - |a| - 2 - |y|]; }
      }
    }
    StemOfSuffixed(stem, "csv");
  }

  /** A team whose sanitized name is empty gets a file the pre-processor
      cannot parse. */
  lemma EmptyTeamNameUnreadable(slug: string, season: int, team: string)
    requires SanitizeFilename(slug) != [] && NoUnderscore(SanitizeFilename(slug))
    requires SanitizeFilename(team) == []
    requires 1000 <= season <= 9999
    ensures ExtractMetadata(Stem(TeamFileName(slug, season, team))).Failure?
  {
    var a := SanitizeFilename(slug);
    var y := IntToString(season);
    FourDigitYear(season);
    SafeNoUnderscoreIsAlnum(a);
    var stem := a + "_" + y + "_";
    assert a + "_" + y + "_" + [] + ".csv" == a + "_" + y + "_" + ".csv";
    TeamStem(a, y, []);
    assert a + "_" + y + "_" + [] == stem;
    PrefixOfName(a, y, []);
    assert |stem| == |a| + 6;
    forall k: nat | PrefixAt(stem, k)
      ensures !StandingsAt(stem, k) && !GamesAt(stem, k)
    {
      PrefixUnique(stem, k, |a|);
    }
  }

  // ---------------------------------------------------------------------
  // The pipeline over the configured leagues

  /** One entry of `config.LEAGUES`. */
  datatype League = League(name: string, slug: string, code: string, startYear: string, processed: string)

  /** The seasons run, and the leagues with their updated flags; `failedAt`
      names the league whose start year `int` could not read, which ends
      the pipeline. */
  datatype PipelineRun = PipelineRun(leagues: seq<(string, League)>, seasons: seq<(string, int)>,
                                     failedAt: Option<string>)

  /** `range(max(start, 1990), 2024 + 1)`. */
  function SeasonYears(start: int): (ys: seq<int>)
    ensures var s := if start < MinStartYear then MinStartYear else start;
            |ys| == (if s > FinalYear then 0 else FinalYear + 1 - s)
            && forall i :: 0 <= i < |ys| ==> ys[i] == s + i
  {
    var s := if start < MinStartYear then MinStartYear else start;
    if s > FinalYear then [] else seq(FinalYear + 1 - s, (i: int) => s + i)
  }

  /** `scraper_pipeline`: only leagues still marked "false" are scraped,
      season by season, and are then marked "true". */
  function Pipeline(leagues: seq<(string, League)>): (r: PipelineRun)
    ensures |r.leagues| == |leagues|
  {
    if leagues == [] then PipelineRun([], [], None)
    else
      var (key, league) := leagues[0];
      if league.processed != "false" then
        var rest := Pipeline(leagues[1..]);
        PipelineRun([leagues[0]] + rest.leagues, rest.seasons, rest.failedAt)
      else
        match ParseInt(league.startYear)
        case None => PipelineRun(leagues, [], Some(key))
        case Some(start) =>
          var rest := Pipeline(leagues[1..]);
          var years := SeasonYears(start);
          PipelineRun([(key, league.(processed := "true"))] + rest.leagues,
                      seq(|years|, (i: int) requires 0 <= i < |years| => (key, years[i])) + rest.seasons,
                      rest.failedAt)
  }

  /** The seasons of one league, in order. */
  function SeasonsOf(key: string, league: League): seq<(string, int)> {
    if league.processed != "false" then []
    else match ParseInt(league.startYear)
      case None => []
      case Some(start) =>
        var years := SeasonYears(start);
        seq(|years|, (i: int) requires 0 <= i < |years| => (key, years[i]))
  }

  /** Without a failure, the run covers exactly the unprocessed leagues'
      seasons, league after league; every league keeps its key, name, slug,
      code and start year, and only the unprocessed ones change their flag,
      to "true". */
  lemma {:induction false} PipelineEffect(leagues: seq<(string, League)>)
    ensures var r := Pipeline(leagues);
            r.failedAt.None? ==>
              |r.leagues| == |leagues|
              && (forall i :: 0 <= i < |leagues| ==>
                    r.leagues[i].0 == leagues[i].0
                    && r.leagues[i].1 == leagues[i].1.(processed := r.leagues[i].1.processed)
                    && r.leagues[i].1.processed
                       == (if leagues[i].1.processed == "false" then "true" else leagues[i].1.processed))
              && r.seasons == AllSeasons(leagues)
  {
    if leagues != [] {
      PipelineEffect(leagues[1..]);
      var r := Pipeline(leagues);
      if r.failedAt.None? {
        var rest := Pipeline(leagues[1..]);
        assert r.leagues[1..] == rest.leagues;
        forall i | 1 <= i < |leagues|
          ensures r.leagues[i] == rest.leagues[i - 1] && leagues[i] == leagues[1..][i - 1]
        {
        }
      }
    }
  }

  /** A league still to scrape whose start year `int` cannot read: the
      `ValueError` that ends `scraper_pipeline`. */
  predicate BadStart(l: League) {
    l.processed == "false" && ParseInt(l.startYear).None?
  }

  /** A league after a run that reached it: marked "true" when it was
      still "false". */
  function Marked(l: League): League {
    if l.processed == "false" then l.(processed := "true") else l
  }

  /** The run fails exactly when some league still to scrape has a start
      year `int` cannot read. */
  lemma {:induction false} PipelineFailsIff(leagues: seq<(string, League)>)
    ensures Pipeline(leagues).failedAt.None? <==> forall i :: 0 <= i < |leagues| ==> !BadStart(leagues[i].1)
  {
    if leagues != [] {
      var tail := leagues[1..];
      PipelineFailsIff(tail);
      assert forall i :: 1 <= i < |leagues| ==> leagues[i] == tail[i - 1];
    }
  }

  /** When league i is the first with a bad start year, the run names it;
      the leagues before it ran their seasons and are marked, and it and
      every later league are left as they were. */
  lemma {:induction false} PipelineFailure(leagues: seq<(string, League)>, i: nat)
    requires i < |leagues| && BadStart(leagues[i].1)
    requires forall j :: 0 <= j < i ==> !BadStart(leagues[j].1)
    ensures var r := Pipeline(leagues);
            && r.failedAt == Some(leagues[i].0)
            && r.seasons == AllSeasons(leagues[..i])
            && r.leagues[i..] == leagues[i..]
            && forall j :: 0 <= j < i ==> r.leagues[j] == (leagues[j].0, Marked(leagues[j].1))
  {
    var r := Pipeline(leagues);
    if i == 0 {
      assert r == PipelineRun(leagues, [], Some(leagues[0].0));
      assert leagues[..0] == [];
    } else {
      var tail := leagues[1..];
      assert tail[i - 1] == leagues[i];
      forall j | 0 <= j < i - 1 ensures !BadStart(tail[j].1) {
        assert tail[j] == leagues[j + 1];
      }
      PipelineFailure(tail, i - 1);
      var rest := Pipeline(tail);
      PipelineStep(leagues);
      assert leagues[..i][1..] == tail[..i - 1];
      assert AllSeasons(leagues[..i]) == SeasonsOf(leagues[0].0, leagues[0].1) + AllSeasons(tail[..i - 1]);
      assert r.leagues[i..] == rest.leagues[i - 1..];
      assert leagues[i..] == tail[i - 1..];
      forall j | 1 <= j < i ensures r.leagues[j] == (leagues[j].0, Marked(leagues[j].1)) {
        assert r.leagues[j] == rest.leagues[j - 1];
        assert tail[j - 1] == leagues[j];
      }
    }
  }

  /** A first league with a readable start year, or none to scrape, is run
      and marked, and the rest of the run follows it. */
  lemma PipelineStep(leagues: seq<(string, League)>)
    requires leagues != [] && !BadStart(leagues[0].1)
    ensures var r := Pipeline(leagues);
            var rest := Pipeline(leagues[1..]);
            && r.leagues == [(leagues[0].0, Marked(leagues[0].1))] + rest.leagues
            && r.seasons == SeasonsOf(leagues[0].0, leagues[0].1) + rest.seasons
            && r.failedAt == rest.failedAt
  {
  }

  /** All seasons of all leagues, in league order. */
  function AllSeasons(leagues: seq<(string, League)>): seq<(string, int)> {
    if leagues == [] then [] else SeasonsOf(leagues[0].0, leagues[0].1) + AllSeasons(leagues[1..])
  }

  /** Every season run is one of its league's years from the clamped start
      year to 2024. */
  lemma {:induction false} SeasonsInRange(leagues: seq<(string, League)>)
    ensures forall i :: 0 <= i < |AllSeasons(leagues)| ==> MinStartYear <= AllSeasons(leagues)[i].1 <= FinalYear
  {
    if leagues != [] {
      SeasonsInRange(leagues[1..]);
      var first := SeasonsOf(leagues[0].0, leagues[0].1);
      assert forall i :: 0 <= i < |first| ==> MinStartYear <= first[i].1 <= FinalYear;
    }
  }

  /** A second run after a complete one scrapes nothing and changes nothing. */
  lemma PipelineIdempotent(leagues: seq<(string, League)>)
    requires Pipeline(leagues).failedAt.None?
    ensures Pipeline(Pipeline(leagues).leagues) == PipelineRun(Pipeline(leagues).leagues, [], None)
  {
    PipelineEffect(leagues);
    NothingLeft(Pipeline(leagues).leagues);
  }

  lemma {:induction false} NothingLeft(leagues: seq<(string, League)>)
    requires forall i :: 0 <= i < |leagues| ==> leagues[i].1.processed != "false"
    ensures Pipeline(leagues) == PipelineRun(leagues, [], None)
  {
    if leagues != [] {
      NothingLeft(leagues[1..]);
      assert [leagues[0]] + leagues[1..] == leagues;
    }
  }
}

=== FILE: standings_json.dfy ===
/** src/pre_processor/main.py: every standings file unified into one frame,
    each row marked with whether its team URL fits the season, and the JSON
    document `league -> season -> sanitised team -> position` built from the
    rows whose URL is valid. Writing the CSV and the JSON file is left out;
    the model stops at the values written. */
module StandingsJson {
  import opened Wrappers
  import opened Text
  import opened Sanitize
  import opened Frames
  import opened Metadata

  /** An exception the loop does not catch, which ends the run: a read
      error other than a missing, empty or malformed file; the `KeyError` of
      a missing column. */
  datatype Crash =
    | ReadFailed(file: string)
    | ColumnMissing(file: string, column: string)
    | PositionMissing

  /** The columns of one unified row that the JSON reads. */
  datatype Entry = Entry(leagueName: string, seasonYear: int, teamSanitized: string,
                         position: Value, isValidUrl: bool)

  /** A frame the loop can enrich: it has a `team` and a `team_url`
      column. */
  predicate Enrichable(frame: Frame) {
    && "team" in frame.columns
    && "team_url" in frame.columns
  }

  /** The enrichment of one row; `sanitize_filename` applies `str` to the
      cell first, so a team that is not text is sanitised as it prints. */
  function EntryOf(row: Record, league: string, season: int): (e: Entry)
    ensures e.leagueName == league && e.seasonYear == season
    ensures AllSafe(e.teamSanitized)
    ensures e.isValidUrl <==> ValidateUrlYear(Get(row, "team_url"), season)
  {
    Entry(league, season, SanitizeFilename(CellText(Get(row, "team"))), Get(row, "position"),
          ValidateUrlYear(Get(row, "team_url"), season))
  }

  /** An empty team cell is NaN, which prints and sanitises as `nan`; a
      team already in safe form is kept as it is. */
  lemma EntryTeamName(row: Record, league: string, season: int)
    ensures Get(row, "team").Missing? ==> EntryOf(row, league, season).teamSanitized == "nan"
    ensures Get(row, "team").Str? && AllSafe(Get(row, "team").s) ==>
              EntryOf(row, league, season).teamSanitized == Get(row, "team").s
  {
    if Get(row, "team").Missing? {
      SanitizeFixesSafe("nan");
    } else if Get(row, "team").Str? && AllSafe(Get(row, "team").s) {
      SanitizeFixesSafe(Get(row, "team").s);
    }
  }

  function EntriesOf(rows: seq<Record>, league: string, season: int): (es: seq<Entry>)
    ensures |es| == |rows|
    ensures forall i :: 0 <= i < |rows| ==> es[i] == EntryOf(rows[i], league, season)
  {
    seq(|rows|, (i: int) requires 0 <= i < |rows| => EntryOf(rows[i], league, season))
  }

  /** The file's name parses and reading it, or enriching its rows,
      raises an exception the loop does not catch. */
  predicate Crashes(file: CsvFile) {
    && ExtractStandingsMetadata(Stem(file.name)).Success?
    && (|| file.contents == Unreadable(Denied)
        || (file.contents.Parsed? && !IsEmpty(file.contents.frame) && !Enrichable(file.contents.frame)))
  }

  /** The file's name parses and its frame is read, not empty, and
      enriched. */
  predicate Appends(file: CsvFile) {
    && ExtractStandingsMetadata(Stem(file.name)).Success?
    && file.contents.Parsed? && !IsEmpty(file.contents.frame) && Enrichable(file.contents.frame)
  }

  /** One pass of the loop of `process_standings_data`: `Success(None)` when
      the file is skipped, `Success(Some(entries))` when its frame is
      appended, `Failure` when the exception escapes. The name is parsed
      before the file is read. */
  function FileEntries(file: CsvFile): (r: Result<Option<seq<Entry>>, Crash>)
    ensures ExtractStandingsMetadata(Stem(file.name)).Failure? ==> r == Success(None)
    ensures r.Failure? <==> Crashes(file)
    ensures r.Failure? ==> !r.error.PositionMissing?
    ensures r.Success? ==> (r.value.Some? <==> Appends(file))
  {
    match ExtractStandingsMetadata(Stem(file.name))
    case Failure(_) => Success(None)
    case Success(info) =>
      match file.contents
      case Unreadable(failure) =>
        if failure == Denied then Failure(ReadFailed(file.name)) else Success(None)
      case Parsed(frame) =>
        if IsEmpty(frame) then Success(None)
        else if !Enrichable(frame) then Failure(CrashOf(file.name, frame))
        else Success(Some(EntriesOf(frame.rows, info.league, info.season)))
  }

  /** The exception of a frame the loop cannot enrich, in the order the
      columns are read: `team`, then `team_url`. */
  function CrashOf(name: string, frame: Frame): (c: Crash)
    requires !Enrichable(frame)
    ensures c == ColumnMissing(name, if "team" in frame.columns then "team_url" else "team")
    ensures c.column !in frame.columns
  {
    if "team" !in frame.columns then ColumnMissing(name, "team")
    else ColumnMissing(name, "team_url")
  }

  /** An appended frame gives one entry per row, with the league and
      season of the file name, a safe team name and the URL check of the
      row. */
  lemma AppendedEntries(file: CsvFile)
    requires FileEntries(file).Success? && FileEntries(file).value.Some?
    ensures var es := FileEntries(file).value.value;
            && file.contents.Parsed?
            && |es| == |file.contents.frame.rows| >= 1
            && var info := ExtractStandingsMetadata(Stem(file.name)).value;
            forall i :: 0 <= i < |es| ==>
              && es[i].leagueName == info.league
              && es[i].seasonYear == info.season
              && AllSafe(es[i].teamSanitized)
              && (es[i].isValidUrl <==>
                    ValidateUrlYear(Get(file.contents.frame.rows[i], "team_url"), info.season))
  {
  }

  /** The unified frame: its entries in file order, and whether any appended
      frame had a `position` column. */
  datatype Unified = Unified(entries: seq<Entry>, hasPosition: bool)

  /** The unified frame after one more file: the earlier entries, then one
      per row of the file's frame when it is appended. */
  function Step(prev: Result<Option<Unified>, Crash>, file: CsvFile): (r: Result<Option<Unified>, Crash>)
    ensures r.Success? <==> prev.Success? && !Crashes(file)
    ensures r.Failure? ==> if prev.Failure? then r == prev else !r.error.PositionMissing?
    ensures r.Success? ==> (r.value.None? <==> prev.value.None? && !Appends(file))
    ensures r.Success? && r.value.Some? ==>
              var before := if prev.value.Some? then prev.value.value.entries else [];
              var u := r.value.value;
              && (u.hasPosition <==> (prev.value.Some? && prev.value.value.hasPosition) || AppendsPosition(file))
              && |u.entries| == |before| + (if Appends(file) then |file.contents.frame.rows| else 0)
              && u.entries[..|before|] == before
              && forall k :: |before| <= k < |u.entries| ==> SeasonOf(u.entries[k]) == FileSeason(file)
  {
    match prev
    case Failure(e) => Failure(e)
    case Success(acc) =>
      match FileEntries(file)
      case Failure(e) => Failure(e)
      case Success(None) => Success(acc)
      case Success(Some(es)) =>
        AppendedEntries(file);
        var hasPosition := "position" in file.contents.frame.columns;
        match acc
        case None => Success(Some(Unified(es, hasPosition)))
        case Some(u) => Success(Some(Unified(u.entries + es, u.hasPosition || hasPosition)))
  }

  /** The loop of `process_standings_data` over every file found: the
      first escaping exception; otherwise `None` exactly when no frame was
      appended, a `position` column exactly when an appended frame had one,
      and one entry per row of the appended frames, each carrying the league
      and season of its file's name. */
  function ProcessStandingsData(files: seq<CsvFile>): (r: Result<Option<Unified>, Crash>)
    decreases |files|, 1
    ensures r.Success? <==> forall i :: 0 <= i < |files| ==> !Crashes(files[i])
    ensures r.Failure? ==> !r.error.PositionMissing?
    ensures r.Success? ==> (r.value.None? <==> forall i :: 0 <= i < |files| ==> !Appends(files[i]))
    ensures r.Success? && r.value.Some? ==> (r.value.value.hasPosition <==> !NoPosition(files))
    ensures r.Success? && r.value.Some? ==> |r.value.value.entries| == AppendedRowCount(files)
    ensures r.Success? && r.value.Some? ==>
              forall k :: 0 <= k < |r.value.value.entries| ==>
                SeasonOf(r.value.value.entries[k]) in AppendedSeasons(files)
  {
    if files == [] then Success(None)
    else
      UnifiedStatusSnoc(files);
      UnifiedPositionSnoc(files);
      UnifiedCountSnoc(files);
      UnifiedSeasonsSnoc(files);
      Step(ProcessStandingsData(files[..|files| - 1]), files[|files| - 1])
  }

  /** Whether the loop gets through, and whether it appends anything,
      carry over one more file. */
  lemma {:induction false} UnifiedStatusSnoc(files: seq<CsvFile>)
    requires files != []
    decreases |files|, 0
    ensures var r := Step(ProcessStandingsData(files[..|files| - 1]), files[|files| - 1]);
            && (r.Success? <==> forall i :: 0 <= i < |files| ==> !Crashes(files[i]))
            && (r.Success? ==> (r.value.None? <==> forall i :: 0 <= i < |files| ==> !Appends(files[i])))
  {
    var init := files[..|files| - 1];
    NoCrashSnoc(files, init);
    NoneAppendsSnoc(files, init);
  }

  /** The `position` flag carries over one more file. */
  lemma {:induction false} UnifiedPositionSnoc(files: seq<CsvFile>)
    requires files != []
    decreases |files|, 0
    ensures var r := Step(ProcessStandingsData(files[..|files| - 1]), files[|files| - 1]);
            r.Success? && r.value.Some? ==> (r.value.value.hasPosition <==> !NoPosition(files))
  {
    var init := files[..|files| - 1];
    NoPositionSnoc(files, init);
    var prev := ProcessStandingsData(init);
    if prev.Success? && prev.value.None? {
      NoAppendsNoPosition(init);
    }
  }

  /** The entry count carries over one more file. */
  lemma {:induction false} UnifiedCountSnoc(files: seq<CsvFile>)
    requires files != []
    decreases |files|, 0
    ensures var r := Step(ProcessStandingsData(files[..|files| - 1]), files[|files| - 1]);
            r.Success? && r.value.Some? ==> |r.value.value.entries| == AppendedRowCount(files)
  {
    var init := files[..|files| - 1];
    var prev := ProcessStandingsData(init);
    if prev.Success? && prev.value.None? {
      NoAppendsNoRows(init);
    }
  }

  /** Files none of which is appended have no `position` column to offer. */
  lemma {:induction false} NoAppendsNoPosition(files: seq<CsvFile>)
    requires forall i :: 0 <= i < |files| ==> !Appends(files[i])
    ensures NoPosition(files)
  {
  }

  /** Each entry after one more file has an appended file's season. */
  lemma {:induction false} UnifiedSeasonsSnoc(files: seq<CsvFile>)
    requires files != []
    decreases |files|, 0
    ensures var r := Step(ProcessStandingsData(files[..|files| - 1]), files[|files| - 1]);
            r.Success? && r.value.Some? ==>
              forall k :: 0 <= k < |r.value.value.entries| ==>
                SeasonOf(r.value.value.entries[k]) in AppendedSeasons(files)
  {
    var init := files[..|files| - 1];
    var prev := ProcessStandingsData(init);
    var r := Step(prev, files[|files| - 1]);
    AppendedSeasonsSnoc(files, init);
    if r.Success? && r.value.Some? {
      var before := if prev.value.Some? then prev.value.value.entries else [];
      var es := r.value.value.entries;
      forall k | 0 <= k < |es| ensures SeasonOf(es[k]) in AppendedSeasons(files) {
        if k < |before| {
          assert es[k] == es[..|before|][k];
          assert SeasonOf(before[k]) in AppendedSeasons(init);
        } else {
          LastSeasonAppended(files);
        }
      }
    }
  }

  /** Files none of which is appended hold no appended rows. */
  lemma {:induction false} NoAppendsNoRows(files: seq<CsvFile>)
    requires forall i :: 0 <= i < |files| ==> !Appends(files[i])
    ensures AppendedRowCount(files) == 0
  {
    if files != [] {
      var init := files[..|files| - 1];
      forall i | 0 <= i < |init| ensures !Appends(init[i]) {
        SameStandingsFile(files, init, i);
      }
      NoAppendsNoRows(init);
    }
  }

  /** The last file's season is among the appended ones when it is
      appended. */
  lemma LastSeasonAppended(files: seq<CsvFile>)
    requires files != [] && Appends(files[|files| - 1])
    ensures FileSeason(files[|files| - 1]) in AppendedSeasons(files)
  {
    assert 0 <= |files| - 1 < |files|;
  }

  /** No file of `files` crashes exactly when none of its prefix does and
      its last one does not. */
  lemma NoCrashSnoc(files: seq<CsvFile>, init: seq<CsvFile>)
    requires files != [] && init == files[..|files| - 1]
    ensures (forall i :: 0 <= i < |files| ==> !Crashes(files[i]))
            <==> (forall i :: 0 <= i < |init| ==> !Crashes(init[i])) && !Crashes(files[|files| - 1])
  {
    assert forall i :: 0 <= i < |init| ==> init[i] == files[i];
  }

  /** An appended file whose frame has a `position` column. */
  predicate AppendsPosition(file: CsvFile) {
    Appends(file) && "position" in file.contents.frame.columns
  }

  /** No appended frame has a `position` column. */
  predicate NoPosition(files: seq<CsvFile>) {
    forall i :: 0 <= i < |files| ==> !AppendsPosition(files[i])
  }

  /** How many rows the appended frames hold together. */
  function AppendedRowCount(files: seq<CsvFile>): nat {
    if files == [] then 0
    else
      var last := files[|files| - 1];
      AppendedRowCount(files[..|files| - 1]) + (if Appends(last) then |last.contents.frame.rows| else 0)
  }

  /** The league and season of an entry. */
  function SeasonOf(e: Entry): (string, int) {
    (e.leagueName, e.seasonYear)
  }

  /** The league and season a standings file's name gives. */
  function FileSeason(file: CsvFile): (string, int)
    requires ExtractStandingsMetadata(Stem(file.name)).Success?
  {
    var info := ExtractStandingsMetadata(Stem(file.name)).value;
    (info.league, info.season)
  }

  /** The league and season named by the appended files. */
  function AppendedSeasons(files: seq<CsvFile>): set<(string, int)> {
    set i | 0 <= i < |files| && Appends(files[i]) :: FileSeason(files[i])
  }

  /** No file of `files` is appended exactly when none of its prefix is
      and its last one is not. */
  lemma {:induction false} NoneAppendsSnoc(files: seq<CsvFile>, init: seq<CsvFile>)
    requires files != [] && init == files[..|files| - 1]
    ensures (forall i :: 0 <= i < |files| ==> !Appends(files[i]))
            <==> (forall i :: 0 <= i < |init| ==> !Appends(init[i])) && !Appends(files[|files| - 1])
  {
    if (forall i :: 0 <= i < |init| ==> !Appends(init[i])) && !Appends(files[|files| - 1]) {
      forall i | 0 <= i < |files| ensures !Appends(files[i]) {
        if i < |init| {
          SameStandingsFile(files, init, i);
        } else {
          assert i == |files| - 1;
        }
      }
    }
    if forall i :: 0 <= i < |files| ==> !Appends(files[i]) {
      forall i | 0 <= i < |init| ensures !Appends(init[i]) {
        SameStandingsFile(files, init, i);
      }
    }
  }

  /** No file of `files` has a `position` column exactly when none of its
      prefix has and its last one has not. */
  lemma {:induction false} NoPositionSnoc(files: seq<CsvFile>, init: seq<CsvFile>)
    requires files != [] && init == files[..|files| - 1]
    ensures NoPosition(files) <==> NoPosition(init) && !AppendsPosition(files[|files| - 1])
  {
    if NoPosition(init) && !AppendsPosition(files[|files| - 1]) {
      forall i | 0 <= i < |files| ensures !AppendsPosition(files[i]) {
        if i < |init| {
          SameStandingsFile(files, init, i);
        } else {
          assert i == |files| - 1;
        }
      }
    }
    if NoPosition(files) {
      forall i | 0 <= i < |init| ensures !AppendsPosition(init[i]) {
        SameStandingsFile(files, init, i);
      }
    }
  }

  /** The prefix's i-th file is the i-th file. */
  lemma {:induction false} SameStandingsFile(files: seq<CsvFile>, init: seq<CsvFile>, i: int)
    requires files != [] && init == files[..|files| - 1] && 0 <= i < |init|
    ensures init[i] == files[i]
  {
  }

  /** The seasons of `files` are those of its prefix and of its last file
      when it is appended. */
  lemma {:induction false} AppendedSeasonsSnoc(files: seq<CsvFile>, init: seq<CsvFile>)
    requires files != [] && init == files[..|files| - 1]
    ensures AppendedSeasons(init) <= AppendedSeasons(files)
  {
    forall x | x in AppendedSeasons(init) ensures x in AppendedSeasons(files) {
      var i :| 0 <= i < |init| && Appends(init[i]) && x == FileSeason(init[i]);
      assert files[i] == init[i];
    }
  }

  // ---------------------------------------------------------------------
  // The JSON document

  /** `league -> str(season) -> sanitised team -> position`. */
  type Json = map<string, map<string, map<string, Value>>>

  /** The rows `df["is_valid_url"] == True` keeps, in order. */
  function ValidEntries(es: seq<Entry>): (vs: seq<Entry>)
    ensures forall e :: e in vs <==> e in es && e.isValidUrl
  {
    if es == [] then []
    else ValidEntries(es[..|es| - 1]) + (if es[|es| - 1].isValidUrl then [es[|es| - 1]] else [])
  }

  /** One row written into the document: its group's dictionary maps its
      team to its position, overwriting an earlier row of the same team. */
  function Insert(m: Json, e: Entry): Json {
    var year := IntToString(e.seasonYear);
    var seasons := if e.leagueName in m then m[e.leagueName] else map[];
    var ranks := if year in seasons then seasons[year] else map[];
    m[e.leagueName := seasons[year := ranks[e.teamSanitized := e.position]]]
  }

  /** The document built row by row. Grouping by league and season and
      then filling each group's dictionary in row order gives the same
      document, since distinct seasons have distinct decimal strings. */
  function BuildJson(es: seq<Entry>): (m: Json)
    ensures es == [] ==> m == map[]
    ensures es != [] ==> var e := es[|es| - 1];
                         e.leagueName in m && IntToString(e.seasonYear) in m[e.leagueName]
  {
    if es == [] then map[] else Insert(BuildJson(es[..|es| - 1]), es[|es| - 1])
  }

  /** `generate_standings_json` after `process_standings_data`: no document
      when nothing was appended or no row has a valid URL, the `KeyError`
      of a unified frame without `position`, and otherwise the document. */
  function StandingsJsonOf(files: seq<CsvFile>): (r: Result<Option<Json>, Crash>)
    ensures r.Failure? <==>
              || ProcessStandingsData(files).Failure?
              || (&& ProcessStandingsData(files).value.Some?
                  && ValidEntries(ProcessStandingsData(files).value.value.entries) != []
                  && !ProcessStandingsData(files).value.value.hasPosition)
    ensures ProcessStandingsData(files).Failure? ==> r == Failure(ProcessStandingsData(files).error)
    ensures ProcessStandingsData(files).Success? && r.Failure? ==> r == Failure(PositionMissing)
    ensures r.Success? && r.value.Some? ==>
              && ProcessStandingsData(files).value.Some?
              && ValidEntries(ProcessStandingsData(files).value.value.entries) != []
  {
    match ProcessStandingsData(files)
    case Failure(e) => Failure(e)
    case Success(None) => Success(None)
    case Success(Some(u)) =>
      var valid := ValidEntries(u.entries);
      if valid == [] then Success(None)
      else if !u.hasPosition then Failure(PositionMissing)
      else Success(Some(BuildJson(valid)))
  }

  /** The cell a document holds for a league, a season string and a team. */
  function Lookup(m: Json, league: string, year: string, team: string): Option<Value> {
    if league in m && year in m[league] && team in m[league][year] then Some(m[league][year][team])
    else None
  }

  /** The position of the last entry of `es` for the league, season and
      team, if any. */
  function LastPosition(es: seq<Entry>, league: string, season: int, team: string): (r: Option<Value>)
    ensures r.None? <==> forall i :: 0 <= i < |es| ==> !(es[i].leagueName == league && es[i].seasonYear == season && es[i].teamSanitized == team)
    ensures r.Some? ==> exists i :: 0 <= i < |es| && es[i].leagueName == league && es[i].seasonYear == season
                                     && es[i].teamSanitized == team && es[i].position == r.value
                                     && forall j :: i < j < |es| ==> !(es[j].leagueName == league && es[j].seasonYear == season && es[j].teamSanitized == team)
  {
    if es == [] then None
    else
      var e := es[|es| - 1];
      var init := es[..|es| - 1];
      assert forall i :: 0 <= i < |init| ==> init[i] == es[i];
      if e.leagueName == league && e.seasonYear == season && e.teamSanitized == team then Some(e.position)
      else LastPosition(init, league, season, team)
  }

  /** Distinct seasons have distinct keys. */
  lemma SeasonKeyInjective(a: int, b: int)
    requires IntToString(a) == IntToString(b)
    ensures a == b
  {
    ParseIntRoundTrip(a);
    ParseIntRoundTrip(b);
  }

  /** Inserting a row changes only the cell of its own league, season and
      team. */
  lemma InsertLookup(m: Json, e: Entry, league: string, season: int, team: string)
    ensures Lookup(Insert(m, e), league, IntToString(season), team)
            == if e.leagueName == league && e.seasonYear == season && e.teamSanitized == team
               then Some(e.position)
               else Lookup(m, league, IntToString(season), team)
  {
    if IntToString(e.seasonYear) == IntToString(season) {
      SeasonKeyInjective(e.seasonYear, season);
    }
  }

  /** Each cell of the built document is the position of the last row of
      its league, season and team; a cell is there exactly when such a row
      is. */
  lemma {:induction false} BuildJsonLastWins(es: seq<Entry>, league: string, season: int, team: string)
    ensures Lookup(BuildJson(es), league, IntToString(season), team) == LastPosition(es, league, season, team)
  {
    if es != [] {
      BuildJsonLastWins(es[..|es| - 1], league, season, team);
      InsertLookup(BuildJson(es[..|es| - 1]), es[|es| - 1], league, season, team);
    }
  }

  /** A league is a key of the built document exactly when some row has it. */
  lemma {:induction false} BuildJsonLeagues(es: seq<Entry>, league: string)
    ensures league in BuildJson(es) <==> exists i :: 0 <= i < |es| && es[i].leagueName == league
  {
    if es != [] {
      var init := es[..|es| - 1];
      var last := es[|es| - 1];
      BuildJsonLeagues(init, league);
      InsertLeagues(BuildJson(init), last, league);
      if league in BuildJson(es) {
        if last.leagueName != league {
          var i :| 0 <= i < |init| && init[i].leagueName == league;
          assert es[i] == init[i];
        }
      } else {
        forall i | 0 <= i < |es| ensures es[i].leagueName != league {
          if i < |init| { assert es[i] == init[i]; }
        }
      }
    }
  }

  /** Inserting a row adds its league and keeps the others. */
  lemma InsertLeagues(m: Json, e: Entry, league: string)
    ensures league in Insert(m, e) <==> league in m || e.leagueName == league
  {
  }

  /** Inserting a row adds its own league and season and keeps the others. */
  lemma InsertSeasons(m: Json, e: Entry, league: string, season: int)
    ensures (league in Insert(m, e) && IntToString(season) in Insert(m, e)[league]) <==>
              ((league in m && IntToString(season) in m[league])
               || (e.leagueName == league && e.seasonYear == season))
  {
    if IntToString(e.seasonYear) == IntToString(season) {
      SeasonKeyInjective(e.seasonYear, season);
    }
  }

  /** A season string is a key of a league's part exactly when some row of
      that league has that season. */
  lemma {:induction false} BuildJsonSeasons(es: seq<Entry>, league: string, season: int)
    ensures (league in BuildJson(es) && IntToString(season) in BuildJson(es)[league])
            <==> exists i :: 0 <= i < |es| && es[i].leagueName == league && es[i].seasonYear == season
  {
    if es != [] {
      var init := es[..|es| - 1];
      BuildJsonSeasons(init, league, season);
      assert BuildJson(es) == Insert(BuildJson(init), es[|es| - 1]);
      InsertSeasons(BuildJson(init), es[|es| - 1], league, season);
      SeasonRowSnoc(es, init, league, season);
    }
  }

  /** A row of `es` has the league and season exactly when one of its
      prefix does or its last one does. */
  lemma SeasonRowSnoc(es: seq<Entry>, init: seq<Entry>, league: string, season: int)
    requires es != [] && init == es[..|es| - 1]
    ensures (exists i :: 0 <= i < |es| && es[i].leagueName == league && es[i].seasonYear == season)
            <==> (exists i :: 0 <= i < |init| && init[i].leagueName == league && init[i].seasonYear == season)
                 || (es[|es| - 1].leagueName == league && es[|es| - 1].seasonYear == season)
  {
    if exists i :: 0 <= i < |es| && es[i].leagueName == league && es[i].seasonYear == season {
      var i :| 0 <= i < |es| && es[i].leagueName == league && es[i].seasonYear == season;
      if i < |init| { assert init[i] == es[i]; }
    }
  }

  /** The `KeyError` of `df["position"]` in terms of the files: no file
      crashes, some frame is appended, some of its rows has a valid URL,
      and no appended frame has a `position` column. */
  lemma {:induction false} PositionMissingIff(files: seq<CsvFile>)
    ensures StandingsJsonOf(files) == Failure(PositionMissing) ==>
              && (forall i :: 0 <= i < |files| ==> !Crashes(files[i]))
              && (exists i :: 0 <= i < |files| && Appends(files[i]))
              && NoPosition(files)
    ensures var p := ProcessStandingsData(files);
            StandingsJsonOf(files) == Failure(PositionMissing) <==>
              p.Success? && p.value.Some? && ValidEntries(p.value.value.entries) != [] && NoPosition(files)
  {
  }

  /** No document is produced exactly when the run ends without a crash and
      with no row whose URL is valid; with one, every valid row's league,
      season and team have a cell holding the last such row's position. */
  lemma StandingsJsonContents(files: seq<CsvFile>, league: string, season: int, team: string)
    requires StandingsJsonOf(files).Success?
    ensures StandingsJsonOf(files).value.None? <==>
              (ProcessStandingsData(files).value.None?
               || ValidEntries(ProcessStandingsData(files).value.value.entries) == [])
    ensures StandingsJsonOf(files).value.Some? ==>
              Lookup(StandingsJsonOf(files).value.value, league, IntToString(season), team)
              == LastPosition(ValidEntries(ProcessStandingsData(files).value.value.entries), league, season, team)
  {
    if StandingsJsonOf(files).value.Some? {
      BuildJsonLastWins(ValidEntries(ProcessStandingsData(files).value.value.entries), league, season, team);
    }
  }
}

=== FILE: text.dfy ===
/** String primitives the Python source takes from its standard library:
    `str.strip`, `str.startswith`, `str.replace`, `str(int)` and `int(str)`. */
module Text {
  import opened Wrappers

  /** Python's `str.isspace` for a single character. */
  predicate IsSpace(c: char) {
    || c == ' '
    || ('\t' <= c <= '\r')
    || ('\U{1c}' <= c <= '\U{1f}')
    || c == '\U{85}' || c == '\U{a0}' || c == '\U{1680}'
    || ('\U{2000}' <= c <= '\U{200a}')
    || c == '\U{2028}' || c == '\U{2029}' || c == '\U{202f}'
    || c == '\U{205f}' || c == '\U{3000}'
  }

  predicate AllSpace(s: string) {
    forall i :: 0 <= i < |s| ==> IsSpace(s[i])
  }

  /** Number of whitespace characters `str.lstrip` would remove. */
  function LeadingSpaces(s: string): (k: nat)
    ensures k <= |s|
    ensures forall i :: 0 <= i < k ==> IsSpace(s[i])
    ensures k == |s| || !IsSpace(s[k])
  {
    if |s| > 0 && IsSpace(s[0]) then 1 + LeadingSpaces(s[1..]) else 0
  }

  /** Number of whitespace characters `str.rstrip` would remove. */
  function TrailingSpaces(s: string): (k: nat)
    ensures k <= |s|
    ensures forall i :: |s| - k <= i < |s| ==> IsSpace(s[i])
    ensures k == |s| || !IsSpace(s[|s| - 1 - k])
  {
    if |s| > 0 && IsSpace(s[|s| - 1]) then 1 + TrailingSpaces(s[..|s| - 1]) else 0
  }

  /** Python's `str.strip()`: the input without its leading and trailing
      whitespace. */
  function Strip(s: string): (r: string)
    ensures |r| <= |s|
    ensures r == [] <==> AllSpace(s)
    ensures r != [] ==> !IsSpace(r[0]) && !IsSpace(r[|r| - 1])
  {
    var lead := LeadingSpaces(s);
    if lead == |s| then []
    else
      var trail := TrailingSpaces(s);
      StripSlice(s, lead, trail);
      s[lead..|s| - trail]
  }

  /** The result of `Strip` is a slice `s[i..i+|r|]` with only whitespace
      outside it. */
  lemma StripIsSlice(s: string)
    ensures var r := Strip(s);
            exists i :: 0 <= i <= |s| - |r| && r == s[i..i + |r|]
                        && AllSpace(s[..i]) && AllSpace(s[i + |r|..])
  {
    var lead := LeadingSpaces(s);
    if lead == |s| {
      assert s[..|s|] == s && s[|s|..] == [];
      assert s[..|s|][|s|..|s|] == [];
    } else {
      StripSlice(s, lead, TrailingSpaces(s));
    }
  }

  /** The slice between the leading and the trailing whitespace. */
  lemma StripSlice(s: string, lead: nat, trail: nat)
    requires lead < |s| && trail <= |s|
    requires forall i :: 0 <= i < lead ==> IsSpace(s[i])
    requires !IsSpace(s[lead])
    requires forall i :: |s| - trail <= i < |s| ==> IsSpace(s[i])
    requires !IsSpace(s[|s| - 1 - trail])
    ensures lead < |s| - trail
    ensures var r := s[lead..|s| - trail];
            && r != [] && !IsSpace(r[0]) && !IsSpace(r[|r| - 1])
            && r == s[lead..lead + |r|] && AllSpace(s[..lead]) && AllSpace(s[lead + |r|..])
  {
    var r := s[lead..|s| - trail];
    assert r[0] == s[lead] && r[|r| - 1] == s[|s| - 1 - trail];
    assert AllSpace(s[..lead]) by {
      forall j | 0 <= j < lead ensures IsSpace(s[..lead][j]) { assert s[..lead][j] == s[j]; }
    }
    assert AllSpace(s[lead + |r|..]) by {
      var u := s[lead + |r|..];
      forall j | 0 <= j < |u| ensures IsSpace(u[j]) { assert u[j] == s[lead + |r| + j]; }
    }
  }

  /** Stripping is idempotent. */
  lemma StripIdempotent(s: string)
    ensures Strip(Strip(s)) == Strip(s)
  {
    var r := Strip(s);
    if r != [] {
      assert !IsSpace(r[0]);
      assert LeadingSpaces(r) == 0;
      assert TrailingSpaces(r) == 0;
      assert r[0..|r|] == r;
    }
  }

  /** A string that neither starts nor ends with whitespace is unchanged. */
  lemma StripNoSpaceEnds(s: string)
    requires s != [] ==> !IsSpace(s[0]) && !IsSpace(s[|s| - 1])
    ensures Strip(s) == s
  {
    if s != [] {
      assert LeadingSpaces(s) == 0;
      assert TrailingSpaces(s) == 0;
      assert s[0..|s|] == s;
    }
  }

  predicate StartsWith(s: string, prefix: string) {
    |prefix| <= |s| && s[..|prefix|] == prefix
  }

  /** `pat` occurs in `s` starting at index `i`. */
  predicate OccursAt(s: string, pat: string, i: int) {
    0 <= i && i + |pat| <= |s| && s[i..i + |pat|] == pat
  }

  /** Python's `pat in s`. */
  predicate Contains(s: string, pat: string) {
    exists i :: 0 <= i <= |s| && OccursAt(s, pat, i)
  }

  /** Python's `s.replace(pat, rep)` for a non-empty pattern: every
      occurrence, scanning left to right without overlap, is replaced. */
  function ReplaceAll(s: string, pat: string, rep: string): (r: string)
    requires |pat| > 0
    ensures forall c :: c in r ==> c in s || c in rep
    ensures |rep| == |pat| ==> |r| == |s|
    decreases |s|
  {
    if |s| < |pat| then s
    else if s[..|pat|] == pat then rep + ReplaceAll(s[|pat|..], pat, rep)
    else [s[0]] + ReplaceAll(s[1..], pat, rep)
  }

  /** A string without an occurrence of the pattern is left unchanged. */
  lemma {:induction false} ReplaceAllAbsent(s: string, pat: string, rep: string)
    requires |pat| > 0
    requires !Contains(s, pat)
    ensures ReplaceAll(s, pat, rep) == s
  {
    if |s| >= |pat| {
      assert !OccursAt(s, pat, 0);
      assert !Contains(s[1..], pat) by {
        forall i | 0 <= i
          ensures !OccursAt(s[1..], pat, i)
        {
          if OccursAt(s[1..], pat, i) {
            assert s[1..][i..i + |pat|] == s[i + 1..i + 1 + |pat|];
            assert OccursAt(s, pat, i + 1);
          }
        }
      }
      ReplaceAllAbsent(s[1..], pat, rep);
      assert s == [s[0]] + s[1..];
    }
  }

  /** When the first occurrence of the pattern starts after the prefix `p`,
      the prefix is kept, that occurrence is replaced, and replacement
      continues after it. */
  lemma {:induction false} ReplaceAllFirst(p: string, pat: string, rep: string, q: string)
    requires |pat| > 0
    requires forall i :: 0 <= i < |p| ==> !OccursAt(p + pat + q, pat, i)
    ensures ReplaceAll(p + pat + q, pat, rep) == p + rep + ReplaceAll(q, pat, rep)
  {
    var s := p + pat + q;
    if p == [] {
      assert s == pat + q;
      assert s[..|pat|] == pat;
      assert s[|pat|..] == q;
    } else {
      assert !OccursAt(s, pat, 0);
      assert s[..|pat|] != pat;
      assert s[1..] == p[1..] + pat + q;
      forall i | 0 <= i < |p[1..]|
        ensures !OccursAt(p[1..] + pat + q, pat, i)
      {
        assert !OccursAt(s, pat, i + 1);
        assert s[i + 1..i + 1 + |pat|] == s[1..][i..i + |pat|];
      }
      ReplaceAllFirst(p[1..], pat, rep, q);
      assert [s[0]] + (p[1..] + rep + ReplaceAll(q, pat, rep)) == p + rep + ReplaceAll(q, pat, rep);
    }
  }

  predicate IsDigit(c: char) {
    '0' <= c <= '9'
  }

  predicate AllDigits(s: string) {
    forall i :: 0 <= i < |s| ==> IsDigit(s[i])
  }

  function DigitValue(c: char): (d: nat)
    requires IsDigit(c)
    ensures d < 10
  {
    (c as int) - ('0' as int)
  }

  function DigitChar(d: nat): (c: char)
    requires d < 10
    ensures IsDigit(c) && DigitValue(c) == d
  {
    (('0' as int) + d) as char
  }

  /** The value of a string of ASCII decimal digits, most significant first. */
  function DigitsValue(s: string): nat
    requires AllDigits(s)
    decreases |s|
  {
    if s == [] then 0 else DigitsValue(s[..|s| - 1]) * 10 + DigitValue(s[|s| - 1])
  }

  /** Python's `str(n)` for a natural number: its decimal digits, without
      leading zeros, reading back as `n`. */
  function NatToString(n: nat): (r: string)
    ensures r != [] && AllDigits(r)
    ensures DigitsValue(r) == n
    ensures r[0] == '0' ==> n == 0
    decreases n
  {
    if n < 10 then [DigitChar(n)]
    else
      var init := NatToString(n / 10);
      var r := init + [DigitChar(n % 10)];
      assert r[..|r| - 1] == init;
      r
  }

  /** Every year from 1000 to 9999 prints as exactly four digits. */
  lemma FourDigitYear(n: nat)
    requires 1000 <= n <= 9999
    ensures |NatToString(n)| == 4
  {
    assert |NatToString(n / 1000)| == 1;
    assert |NatToString(n / 100)| == 2;
    assert |NatToString(n / 10)| == 3;
  }

  /** Four digits read back as a year from 1000 to 9999 when the first is not 0. */
  lemma FourDigitsBound(s: string)
    requires |s| == 4 && AllDigits(s)
    ensures DigitsValue(s) <= 9999
    ensures s[0] != '0' ==> 1000 <= DigitsValue(s)
  {
    var s1, s2, s3 := s[..1], s[..2], s[..3];
    assert s1[..0] == [] && s2[..1] == s1 && s3[..2] == s2;
    assert DigitsValue(s1) == DigitValue(s[0]);
    assert DigitsValue(s2) == DigitValue(s[0]) * 10 + DigitValue(s[1]);
    assert DigitsValue(s3) == DigitsValue(s2) * 10 + DigitValue(s[2]);
  }

  /** Python's `str(i)`. */
  function IntToString(i: int): (r: string)
    ensures r != [] && (r[0] == '-' <==> i < 0)
  {
    if i < 0 then "-" + NatToString(-i) else NatToString(i)
  }

  /** Python's `int(s)` restricted to ASCII: optional surrounding whitespace,
      an optional sign, and at least one decimal digit; `None` stands for the
      `ValueError` it raises otherwise. */
  function ParseInt(s: string): (r: Option<int>)
    ensures r.Some? ==> && Strip(s) != [] && AllDigits(Strip(s)[1..])
                        && (IsDigit(Strip(s)[0]) || Strip(s)[0] == '+' || Strip(s)[0] == '-')
    ensures r.Some? && r.value < 0 ==> Strip(s)[0] == '-'
  {
    var t := Strip(s);
    if |t| > 1 && (t[0] == '+' || t[0] == '-') && AllDigits(t[1..]) then
      var v: int := DigitsValue(t[1..]);
      var x: int := if t[0] == '-' then -v else v;
      Some(x)
    else if |t| > 0 && AllDigits(t) then
      Some(DigitsValue(t))
    else
      None
  }

  /** `int` accepts exactly a non-empty run of digits, possibly signed,
      once the surrounding whitespace is stripped. */
  lemma ParseIntAccepts(s: string)
    ensures ParseInt(s).Some? <==> exists d :: d != [] && AllDigits(d) && Strip(s) in [d, "+" + d, "-" + d]
  {
    var t := Strip(s);
    if ParseInt(s).Some? {
      if |t| > 1 && (t[0] == '+' || t[0] == '-') && AllDigits(t[1..]) {
        var d := t[1..];
        assert t == [t[0]] + d;
        assert t in [d, "+" + d, "-" + d];
      } else {
        assert t in [t, "+" + t, "-" + t];
      }
    } else {
      forall d | d != [] && AllDigits(d) ensures t !in [d, "+" + d, "-" + d] {
      }
    }
  }

  /** `int(str(i)) == i`. */
  lemma ParseIntRoundTrip(i: int)
    ensures ParseInt(IntToString(i)) == Some(i)
  {
    var s := IntToString(i);
    assert !IsSpace(s[0]) && !IsSpace(s[|s| - 1]);
    StripNoSpaceEnds(s);
    if i < 0 {
      assert s[1..] == NatToString(-i);
    }
  }

  function Pow10(e: nat): (p: nat)
    ensures p >= 1
  {
    if e == 0 then 1 else 10 * Pow10(e - 1)
  }

  lemma AllDigitsConcat(a: string, b: string)
    requires AllDigits(a) && AllDigits(b)
    ensures AllDigits(a + b)
  {
    var ab := a + b;
    forall i | 0 <= i < |ab|
      ensures IsDigit(ab[i])
    {
      if i < |a| { assert ab[i] == a[i]; } else { assert ab[i] == b[i - |a|]; }
    }
  }

  lemma ShiftStep(x: int, y: int, p: int, d: int)
    ensures (x * p + y) * 10 + d == x * (10 * p) + (y * 10 + d)
  {}

  /** Appending digits shifts the value of the digits before them. */
  lemma {:induction false} DigitsValueAppend(a: string, b: string)
    requires AllDigits(a) && AllDigits(b)
    ensures AllDigits(a + b)
    ensures DigitsValue(a + b) == DigitsValue(a) * Pow10(|b|) + DigitsValue(b)
    decreases |b|
  {
    AllDigitsConcat(a, b);
    if b == [] {
      assert a + b == a;
    } else {
      var ab := a + b;
      var b' := b[..|b| - 1];
      assert ab[..|ab| - 1] == a + b';
      assert ab[|ab| - 1] == b[|b| - 1];
      DigitsValueAppend(a, b');
      ShiftStep(DigitsValue(a), DigitsValue(b'), Pow10(|b'|), DigitValue(b[|b| - 1]));
    }
  }

  /** A non-empty run of digits parses as its value. */
  lemma ParseIntDigits(t: string)
    requires t != [] && AllDigits(t)
    ensures ParseInt(t) == Some(DigitsValue(t))
  {
    assert !IsSpace(t[0]) && !IsSpace(t[|t| - 1]);
    StripNoSpaceEnds(t);
  }
}

=== FILE: wrappers.dfy ===
/** Failure-compatible wrappers used in place of Python's `None` results and
    raised exceptions. */
module Wrappers {

  /** A value that may be absent (Python `None`, or a pandas NaN). */
  datatype Option<+T> = None | Some(value: T) {

    /** The wrapped value, or `default` when absent. */
    function GetOr(default: T): T {
      match this
      case Some(v) => v
      case None => default
    }
  }

  /** Either a value or the error that the source raises instead. */
  datatype Result<+R, +E> = Success(value: R) | Failure(error: E) {

    predicate IsFailure() {
      Failure?
    }

    function PropagateFailure<U>(): Result<U, E>
      requires Failure?
    {
      Failure(error)
    }

    function Extract(): R
      requires Success?
    {
      value
    }
  }
}
